=== FILE: README.md ===
# VoxAn booking core in Dafny

VoxAn is an AI phone receptionist for dental practices. A voice agent (VAPI) calls the
server's webhook during a call. The server answers the agent's function calls:
- it offers demo slots from a Google calendar;
- it books a demo, records the appointment and the lead in Supabase;
- it notes callback times and logs the call's start and end.

A browser dashboard formats calls, leads and appointments. A mail script triages replies to
the outreach campaign.

This project models the deterministic core of that system and proves properties of it:

- **Slot generation** (`slots.dfy`, `slot_properties.dfy`).
  - The hourly scan of `_generateAvailableSlots`, with its anchor, its weekend, lunch, busy
    and lead-time tests, and its cap of ten.
  - The cut to six in `checkAvailability`.
  - A loop method is proved equal to a recursive reference definition of the scan.
- **Calendar operations** (`calendar.dfy`, `calendar_properties.dfy`): booking, rescheduling,
  cancelling and looking up events in a calendar held as a map from event id to event.
- **Database operations** (`database.dfy`, `database_properties.dfy`).
  - Calls, appointments and leads, each as a sequence of rows.
  - The lead upsert, with its merge-without-clobber rule.
  - Supabase's `single()` and `maybeSingle()` row-count rules.
  - The counts of `getMetrics`.
- **Webhook dispatch** (`validation.dfy`, `webhook.dfy`, `webhook_properties.dfy`).
  - The phone and email checks, as predicates in place of the regular expressions.
  - `handleFunctionCall`, `handleCallStarted`, `handleCallEnded`, `handleTranscript` and the
    routing of `POST /webhook/vapi`.
  - Every request to the calendar or the database is appended, in order, to a trace of effects.
- **Dashboard formatters** (`dashboard.dfy`, `dashboard_properties.dfy`): `formatPhone`,
  `formatDuration`, the badge and label lookups, and the recent-activity merge, sort and cap.
- **Reply triage** (`mailcheck.dfy`, `mailcheck_properties.dfy`): `analyzeReply`, the reply
  filter and the summary counts.
- **Shared helpers** (`common.dfy`, `text.dfy`).
  - JavaScript's `undefined`/`null` as `Option`.
  - Truthiness, how `undefined` and `null` print in a template, and `slice`/`filter`.
  - String search, ASCII digits and lower case, and decimal printing.

## Modelling choices

- **Time.**
  - An instant is an integer count of milliseconds from a Monday 00:00:00.000, in one fixed
    zone. Milliseconds are luxon's own resolution, so the seconds a request carries are kept.
  - The weekday is `(t / MsPerDay) % 7 + 1`, numbered as luxon does (1 is Monday, 7 is Sunday).
  - The hour is `(t % MsPerDay) / MsPerHour` and the minute `(t % MsPerHour) / MsPerMinute`.
  - Dafny's division by a positive divisor rounds down, so these also hold before the epoch.
- **Effects.**
  - Each external request is an `Effect` in the order it is made.
  - What the service answers is a parameter: the new ids, the free/busy list, and a fault per
    request that makes it throw.
  - The clock, luxon's parsing (`string -> Option<Instant>`, `None` for an invalid date) and
    the display formatting are parameters too.
- **JavaScript values.**
  - `undefined` and `null` are `None`. `x || d` is modelled with `Truthy`.
  - A template prints `undefined` (`JsText`) or, for a nullable column read back from the store, `null` (`GetOr("null")`).
  - A default parameter is applied with `GetOr`, so in the model it applies to `null` as
    well as to `undefined` (see `Database.CreateAppointment` under "Left out").
  - An update object's absent keys are `None`, because JSON drops `undefined`. A key sent
    as JSON `null` is `None` as well (see `Database.ApplyUpdate` under "Left out").
- **Row counts.** Supabase's `single()` fails unless exactly one row comes back. On an
  update the store then rolls the update back, so a failed `updateCall` leaves the table
  as it was.
- **Answers.**
  - `handleFunctionCall` returns an `Answer`: what kind of reply it is, and the values it quotes.
  - `ResultText` writes an answer out in the source's words.
  - A thrown error is a `Thrown` value: either a null handle or a message from a service.
- **Service handles.**
  - The server process holds two handles, `calendar` and `db`. Both start null, and only the
    getters `getCalendar()` and `getDB()` create them.
  - `HandleMode` chooses whether the dispatch reads the variables directly, as written, or
    goes through the getters.

## Where the code departs from its own comments

The model follows the code in each case.

- "Round to next hour if we're past 9 AM" (src/calendar-service.js:79) clears only the
  minute. The request's seconds and milliseconds carry into every candidate of the scan.
  A half-hour slot at 11:00:15 then overlaps a busy period that starts at 11:30
  (`SlotProperties.CarriedSecondsMeetBusyStart`).
- `endDate.set({ hour: 17, minute: 0 })` (src/calendar-service.js:84) keeps the end's seconds.
  A request at 08:30:15 therefore also scans 17:00:00 on the last day
  (`SlotProperties.EndSecondsReachFiveOClock`).
- "Skip lunch (12-1 PM)" (src/calendar-service.js:93) removes hour 12 and 13:00 exactly.
  Every candidate is at minute zero, so in effect no slot starts at 12:00 or at 13:00
  (`SlotProperties.SlotsOnTheHour`).
- "Lazy load services" (src/server.js:15) names getters that the function-call handler
  never uses (first row under "Findings").
- A window that opens at exactly 09:00 offers 10:00 first. 09:00 itself fails the "later
  than start plus five minutes" test (`SlotProperties.WindowAtNineOffersTenFirst`).
- There is no 17:00 cutoff on each day. The scan runs through evenings and nights up to
  17:00 on the window's last day, and only weekends and lunch are skipped
  (`SlotProperties.EveningSlotOffered`).
- Cancelling is not idempotent. The model takes a cancelled event to leave the calendar,
  so a second cancel of the same event fails as an unknown id
  (`CalendarProperties.CancelTwiceFails`). The code rethrows whatever the delete throws.
- Reschedule and cancel rethrow a 404. Only `getEvent` turns a 404 into `null`.
- There is no typed "not found" or "partial booking" failure. Every thrown error becomes
  the text `Error: <message>. Please try again or ask the caller to try later.`
  - A booking that fails after the calendar event exists leaves that event in the calendar
    (`WebhookProperties.LookupFailureLeavesOrphanEvent`).
  - Between creating the event and storing the appointment, the booking reads the caller's
    call row with `single()`. A call with no row, or with several, aborts the booking there.
- The upsert is a read followed by a write, and a failed read is ignored. The same phone can
  then end up on two rows (`DatabaseProperties.FailedLookupDuplicatesPhone`).
- The dashboard endpoint sends `recentCalls`, `upcomingAppointments` and `metrics`, but the
  dashboard reads `calls`, `appointments` and `stats`.
  - The feed therefore sees no calls unless the payload also carries `calls`.
  - The model takes the feed's inputs as given.
- Call-ended records success only when `successEvaluation` is the string `'true'`. A boolean
  `true` records failure (`WebhookProperties.OnlyTheStringTrueIsSuccess`).
- `formatDuration` rounds minutes down but takes a truncated remainder. For negative input
  the parts do not add back up (`DashboardProperties.NegativeDurationParts`).

## Model

| member | source | states |
|---|---|---|
| Slots.Anchor | src/calendar-service.js:77-82 | when 09:00 on the start day is not earlier than the start, the scan starts there at 09:00:00.000; otherwise it starts within the hour after the start, at minute zero, with the start's seconds and milliseconds |
| Slots.ScanEnd | src/calendar-service.js:84 | the scan stops at 17:00 on the window's last day, plus the seconds and milliseconds of the window's end |
| Slots.AcceptedFrom | src/calendar-service.js:87-117 | the uncapped hourly scan returns only offerable instants on the grid from its first candidate, before the scan end, strictly ascending |
| Slots.Generate | src/calendar-service.js:75-120 | at most ten slots. Each one is on a weekday, outside hour 12 and minute zero of hour 13, free of every busy period under the half-open test, and later than start + 5 minutes. Each is a whole number of hours after the anchor, before the scan end, in strictly ascending order |
| Slots.GenerateAvailableSlots | src/calendar-service.js:75-120 | the loop with its early stop at ten slots returns exactly the reference result |
| Slots.CheckAvailability | src/calendar-service.js:61-69 | exactly six slots when the generator found at least six, otherwise all of them; they are the generator's first slots, in order |
| SlotProperties.SlotsOnTheHour | src/calendar-service.js:92-96 | every slot begins at minute zero with the anchor's seconds, so no slot begins in hour 12 or hour 13 |
| SlotProperties.OfferableIsAccepted | src/calendar-service.js:87-117 | the uncapped scan contains every offerable instant of its grid before the scan end |
| SlotProperties.NoOfferableSkipped | src/calendar-service.js:87-117 | an offerable grid instant is returned unless ten earlier slots filled the cap |
| SlotProperties.NoOfferableWithheld | src/calendar-service.js:61-69 | an offerable grid instant is among the six offered unless six earlier slots were found |
| SlotProperties.MoreBusyFewerSlots | src/calendar-service.js:98-102 | in the uncapped scan, adding busy periods never adds an instant |
| SlotProperties.ExtraBusyNeverAddsSlot | src/calendar-service.js:98-104 | a slot generated with extra busy periods is offerable without them, and is generated without them too unless ten earlier slots fill the cap |
| SlotProperties.FullyBusyWindowIsEmpty | src/calendar-service.js:98-102 | a busy period covering the whole scan leaves an empty result, not an error |
| SlotProperties.WindowAtNineOffersTenFirst | src/calendar-service.js:104 | a free window opening Monday 09:00 offers 10:00 first |
| SlotProperties.BusyHourRemovesOnlyThatHour | src/calendar-service.js:98-102 | for one-hour slots requested at Monday 08:00, a busy 10:00-11:00 removes 10:00 and keeps 09:00 and 11:00: touching intervals do not conflict |
| SlotProperties.EveningSlotOffered | src/calendar-service.js:84-87 | a window opening Monday 19:30 offers 20:00 that evening: there is no daily cutoff |
| SlotProperties.EndSecondsReachFiveOClock | src/calendar-service.js:84 | busy from Monday 09:00 to Tuesday 17:00, a one-day request at Monday 08:30:15 is offered exactly Tuesday 17:00:00, and the same request at 08:30:00 is offered nothing |
| SlotProperties.CarriedSecondsMeetBusyStart | src/calendar-service.js:79-102 | busy from 11:30 to 12:00, a half-hour request at Monday 10:30:15 is offered 14:00:15 first, because 11:00:15 overlaps the busy start and 12:00:15 and 13:00:15 are lunch |
| SlotProperties.WholeMinuteMeetsBusyStartCleanly | src/calendar-service.js:79-102 | the same request at 10:30:00 is offered 11:00 first: a slot that ends as a busy period starts does not conflict |
| Calendar.EndOf | src/calendar-service.js:128-129 | the end is exactly thirty minutes after the start, and an invalid start gives an invalid end |
| Calendar.BookAppointment | src/calendar-service.js:127-183 | a fault is rethrown with the calendar unchanged. Otherwise the event is stored under the new id with the parsed start, an end thirty minutes later and the host as first attendee; no other event changes |
| Calendar.RescheduleAppointment | src/calendar-service.js:188-212 | an unknown id is the 404, rethrown. Otherwise only the event's start and end change, to the new time and thirty minutes later; summary, attendees and other events are kept |
| Calendar.CancelAppointment | src/calendar-service.js:217-230 | an id the calendar does not hold is its 404, rethrown; otherwise exactly that event is removed, as the model takes a cancelled event to leave the calendar |
| Calendar.GetEvent | src/calendar-service.js:235-248 | a 404 gives `null`, any other fault is rethrown, and without a fault the result is present exactly when the id is stored |
| CalendarProperties.BookThenGet | src/calendar-service.js:127-183 | a booked event is found under its id and spans thirty minutes |
| CalendarProperties.BookThenReschedule | src/calendar-service.js:188-212 | a rescheduled booking spans thirty minutes at its new time and keeps summary and attendees |
| CalendarProperties.CancelTwiceFails | src/calendar-service.js:217-230 | with cancelled events leaving the calendar, a second cancel of the same event fails with the 404 rethrown, and a lookup then reports `null` |
| CalendarProperties.NotFoundIsNullOnlyForLookup | src/calendar-service.js:242-246 | the same 404 is `null` for a lookup and an error for a reschedule |
| Database.UpsertLead | src/database.js:145-199 | a write fault fails the upsert. A known phone gets its first row touched: count + 1 and last contact now. Email, name and practice each take the supplied value exactly when the stored one is empty and the supplied one is not, and keep the stored value otherwise. Id, phone, address, city, source, status, creation time and all other rows are kept. An unseen phone, or a failed lookup, appends one row carrying the given email, name, practice, address and city, with count 1, status `contacted`, and the given source or `vapi_call` when none is given |
| Database.GetLeadByPhone | src/database.js:204-213 | a fault is rethrown. Otherwise no row with the phone gives `null`, exactly one gives that row, and several give the single-row error; with one lead per phone the lookup never fails |
| Database.CreateAppointment | src/database.js:92-124 | a fault fails with the table unchanged; otherwise one row is appended carrying every given field, the new id and creation time, status `confirmed` and notes `''` when omitted |
| Database.CreateCall | src/database.js:19-55 | the row is appended with the given id, status and phone, cost and duration 0, no success and no transcript |
| Database.ApplyUpdate | src/database.js:60-66 | each field sent replaces the stored one and each field not sent is kept; the id, call id, caller fields and creation time are kept, and the update time is now |
| Database.UpdateCall | src/database.js:60-73 | a fault is rethrown with the table unchanged. With exactly one row for the call, that row becomes the updated row and is returned, and no other row changes; with none or several, the single-row error and the table unchanged |
| Database.GetCall | src/database.js:78-87 | the row when exactly one row has the call id, an error otherwise |
| Database.GetMetrics | src/database.js:248-275 | the window starts at `since`, or seven days before now. Calls, successful calls, bookings and cancellations are the counts of windowed rows of each kind, cost is the windowed sum, and the average is the windowed duration sum over the windowed calls (0 without calls). Successes never exceed calls and bookings plus cancellations never exceed appointments |
| DatabaseProperties.UpsertKeepsOnePerPhone | src/database.js:154-198 | with a working lookup, a table with one row per phone keeps one row per phone |
| DatabaseProperties.FailedLookupDuplicatesPhone | src/database.js:154-159 | a failed lookup for a stored phone inserts a second row with that phone |
| DatabaseProperties.UpsertTwiceIsStable | src/database.js:159-175 | upserting the same lead twice counts two contacts and changes no filled field the second time |
| DatabaseProperties.StoredEmailIsKept | src/database.js:166-168 | a stored email is not replaced by a different supplied one, while an empty name is filled |
| DatabaseProperties.NewThenExisting | src/database.js:159-198 | the first upsert of a phone creates the lead, the second finds it and counts 2 |
| DatabaseProperties.UpsertThenLookup | src/database.js:204-213 | with one lead per phone, looking the phone up after an upsert gives exactly the row the upsert returned |
| DatabaseProperties.LookupIgnoresOtherPhones | src/database.js:204-213 | inserting a lead for a new phone does not change the lookup of any other phone |
| DatabaseProperties.UpdateThenGet | src/database.js:60-87 | updating the one row of a call returns a row carrying every field sent, and reading the call afterwards returns that row |
| DatabaseProperties.UpdateOfUnknownCallChangesNothing | src/database.js:60-73 | an update for a call id no row has is the single-row error and leaves the table unchanged |
| DatabaseProperties.CreateThenGet | src/database.js:19-87 | a call inserted under a fresh call id reads back as exactly the inserted row; inserted under an id already stored, the call can no longer be read, because `single()` finds two rows |
| DatabaseProperties.AppointmentInWindowCounted | src/database.js:265-273 | a confirmed appointment created inside the window adds exactly one booking; one created before the window changes no counter |
| Validation.UkPhoneMatchesPattern | src/server.js:157 | a phone passes exactly when it is the literal `+44`, one character from 1 to 9, and then exactly nine digits |
| Validation.CommonPhoneFormsRejected | src/server.js:157 | a trunk zero after `+44`, the national form, spaces and an eleventh national digit are all refused |
| Validation.ValidEmailMatchesPattern | src/server.js:164 | an email passes exactly when it splits at `@` and a later `.` into three non-empty runs without whitespace or `@` |
| Webhook.ResultText | src/server.js:151-236 | each answer gets its result text, and exactly the error answers begin with `Error: `. The error answers are an invalid phone, an invalid email and any thrown error |
| Webhook.OrDefault | src/server.js:147-148 | a missing or zero parameter takes the default |
| Webhook.CheckAvailabilityBranch | src/server.js:145-153 | a null calendar handle gives the TypeError text and no request. Otherwise exactly one free/busy query from now to now plus `daysAhead \|\| 5` days; a failed query answers its error, and a successful one reads out the display of each slot `checkAvailability` returns for `durationMinutes \|\| 30`, in order. No table changes |
| Webhook.BookingRow | src/server.js:182-193 | the appointment row points at the created event and the caller's call row, with status `confirmed` |
| Webhook.BookingLead | src/server.js:196-202 | the upserted lead carries the caller's phone, email, name and practice, with source `vapi_booking` |
| Webhook.StoreBooking | src/server.js:182-206 | the appointment insert, then the lead upsert. A failed insert stops before the upsert, a failure answers with the error thrown, and success confirms the booking with its time and email |
| Webhook.RecordBooking | src/server.js:181-206 | the call-row lookup comes first. When it does not find exactly one row, the answer is the single-row error and nothing more is written |
| Webhook.BookAfterValidation | src/server.js:170-206 | at most four requests in the order calendar event, call lookup, appointment, lead. An appointment row is added only together with its calendar event, and a reachable calendar without a fault always creates the event |
| Webhook.BookBranch | src/server.js:155-168 | an invalid phone, then an invalid email, is answered with its error text, no request and no state change |
| Webhook.PracticeInfoBranch | src/server.js:208-217 | at most one lead lookup, and no table changes |
| Webhook.CallbackBranch | src/server.js:219-225 | at most one call update, and no other table changes |
| Webhook.Dispatch | src/server.js:138-238 | an unknown function name gives `Function <name> not implemented` with no request and no state change; reading the raw handles never creates one |
| Webhook.HandleFunctionCallAsWritten | src/server.js:146-178 | as written, the handles never change, and a booking on a null calendar handle never inserts an event |
| Webhook.HandleFunctionCall | src/server.js:138-238 | through the lazy getters, a booking with a valid phone and email that the calendar accepts creates its event first and leaves both handles created; an unknown function name still makes no request |
| Webhook.SuccessFlag | src/server.js:127 | success is true exactly when `successEvaluation` is the string `'true'` |
| Webhook.HandleCallStarted | src/server.js:101-114 | the database handle is created, one `in-progress` call row is inserted, and a failed insert leaves the tables unchanged |
| Webhook.CallEndedUpdate | src/server.js:123-129 | the update carries the call's status, duration, cost and summary and the success flag, and nothing else |
| Webhook.HandleCallEnded | src/server.js:119-133 | the database handle is created, one update is sent, and only the calls table can change |
| Webhook.HandleTranscript | src/server.js:243-249 | an empty or missing transcript makes no request; a raw handle is never created |
| Webhook.HandleWebhook | src/server.js:63-96 | call-started, call-ended and other messages are always acknowledged, and as written the calendar handle never changes |
| WebhookProperties.InvalidContactMakesNoRequest | src/server.js:155-168 | an invalid phone or email yields its error with an empty trace and an unchanged state, whatever the handles |
| WebhookProperties.BookingRequestsInOrder | src/server.js:170-202 | the booking's requests are always a prefix of calendar event, call lookup, appointment, lead upsert |
| WebhookProperties.ValidatedBookingInOrder | src/server.js:170-202 | after validation the requests are a prefix of that order |
| WebhookProperties.StoredAppointmentHasEvent | src/server.js:181-193 | a stored appointment is appended after a created event and records its id, a call row and status `confirmed` |
| WebhookProperties.BookingSucceeds | src/server.js:170-206 | with all services answering, a valid booking makes four requests, stores the event and the appointment, and answers the booked text |
| WebhookProperties.LookupFailureLeavesOrphanEvent | src/server.js:170-183 | when the call row is missing or repeated, the caller hears the single-row error while the event stays in the calendar and no row is written |
| WebhookProperties.UnknownFunctionIsInert | src/server.js:227-230 | `rescheduleAppointment` and `cancelAppointment` are answered `Function <name> not implemented`, with no request |
| WebhookProperties.LifecycleAlwaysAcknowledged | src/server.js:101-133 | call-started and call-ended are acknowledged even when their database write fails |
| WebhookProperties.OnlyTheStringTrueIsSuccess | src/server.js:127 | a boolean `true` evaluation records failure, the string `'true'` success |
| WebhookProperties.ZeroMeansDefault | src/server.js:147-148 | sending zero days or minutes gives the same result as leaving them out |
| WebhookProperties.OfferedSlotsAreFree | src/server.js:145-153 | the availability answer reads out at most six slots, each the display of an instant on a weekday, outside lunch, clear of every busy period, more than five minutes after the request and before the scan end |
| WebhookProperties.AsWrittenCalendarStaysNull | src/server.js:16-26 | as written, no run of requests ever creates the calendar handle |
| WebhookProperties.AsWrittenBookingNeverBooks | src/server.js:146-178 | as written, after any run of requests, every valid booking and every availability check fails with the null-handle TypeError and no request |
| WebhookProperties.ConcreteContactIsValid | src/server.js:157-164 | `+447700900123` and `jo@smile.co` pass both checks |
| WebhookProperties.AsWrittenConcreteBooking | src/server.js:170-178 | a fresh process, as written, refuses that concrete booking |
| WebhookProperties.LazyBookingReachesCalendar | src/server.js:20-26 | through the getter, a valid booking the calendar accepts creates its event first, even in a fresh process |
| WebhookProperties.AsWrittenDbNeedsLifecycleEvent | src/server.js:208-217 | as written, practice lookups fail until a call-started or call-ended has created the database handle |
| Dashboard.NorthAmerican | public/app.js:555 | the North American form is fourteen characters with the brackets, space and dash in place |
| Dashboard.FormatPhone | public/app.js:547-561 | a missing or empty number is `Unknown`. Ten digits, or eleven starting with 1 (dropped), take the North American form; any other number is returned as given |
| Dashboard.JsRem60 | public/app.js:567 | the remainder takes the sign of the dividend and differs from it by a multiple of 60 |
| Dashboard.FormatDuration | public/app.js:563-574 | a missing or zero duration is `0 sec`, and under a minute only seconds are shown |
| Dashboard.LeadBadge | public/app.js:370-378 | each known status has its own badge, and every other status gets the New badge |
| Dashboard.CallStatusLabel | public/app.js:296-305 | a known status gets exactly its entry in the label table, and any other value is returned unchanged |
| Dashboard.AppointmentStatusText | public/app.js:480-488 | a known status gets exactly its entry in the text table, and any other value is returned unchanged |
| Dashboard.SortNewestFirst | public/app.js:192 | the result is newest first and a permutation of the input |
| Dashboard.Candidates | public/app.js:172-189 | the feed chooses from at most ten entries, none exactly when there are no calls and no appointments |
| Dashboard.RecentActivity | public/app.js:165-209 | the empty state exactly when there is nothing to show. Otherwise the entries are newest first, there are five of them or all candidates when fewer, and they are a sub-multiset of the first five calls and the first five appointments |
| DashboardProperties.NorthAmericanKeepsDigits | public/app.js:551-555 | the North American form keeps exactly the ten digits |
| DashboardProperties.FormatPhoneKeepsDigits | public/app.js:551-557 | a reformatted number keeps its digits, less the leading 1 of an eleven-digit number |
| DashboardProperties.UkNumbersShownAsStored | public/app.js:554-560 | a number the booking accepted has twelve digits and is shown as stored |
| DashboardProperties.DurationReadsBack | public/app.js:563-574 | a positive duration shows `m min k sec`, or `k sec` under a minute, for the unique `60m + k` split with `k < 60` |
| DashboardProperties.NegativeDurationParts | public/app.js:566-567 | -30 seconds shows as `-1 min -30 sec`, whose parts do not add back up |
| DashboardProperties.CallStatusLabelIdempotent | public/app.js:296-305 | labelling a label changes nothing |
| DashboardProperties.AppointmentStatusIdempotent | public/app.js:480-488 | the status text of a status text is itself |
| DashboardProperties.CallStatusLabelsDistinct | public/app.js:296-305 | different known statuses get different labels |
| DashboardProperties.AppointmentStatusTextsDistinct | public/app.js:480-488 | different known appointment statuses get different texts |
| DashboardProperties.FirstShownIsNewest | public/app.js:191-207 | the first entry shown is at least as new as every candidate |
| DashboardProperties.ShownAreNewest | public/app.js:191-207 | no candidate left out of the feed is newer than an entry shown |
| MailCheck.MentionsAny | scripts/check-zoho-mail.js:124-137 | a keyword group matches exactly when one of its words occurs in the text |
| MailCheck.ClassifyAsWritten | scripts/check-zoho-mail.js:120-143 | positive exactly when a positive word occurs; question exactly when none does and a question word occurs; negative exactly when neither group does and a negative word occurs; priority follows the sentiment |
| MailCheck.AnalyzeReplyAsWritten | scripts/check-zoho-mail.js:120-143 | on the lower-cased subject and content, positive exactly when a positive word occurs |
| MailCheck.Classify | scripts/check-zoho-mail.js:136-137 | a refusal is negative and every other text is classified as before |
| MailCheck.AnalyzeReply | scripts/check-zoho-mail.js:120-143 | a reply containing "not interested" is negative, and a positive reply mentions a positive word |
| MailCheck.SentimentCountsPartition | scripts/check-zoho-mail.js:207-221 | under either classifier, the four sentiment counts add up to the number of replies |
| MailCheck.Summarize | scripts/check-zoho-mail.js:205-221 | under either classifier, and so under the one the script uses as written: replies never exceed the inbox, positive + questions + negative never exceed the replies, and the printed neutral count is non-negative and equals the neutral replies |
| MailCheck.DetailedReplies | scripts/check-zoho-mail.js:174-185 | five messages, or all replies when fewer; each is an inbox message that passes the reply filter, and each reply with fewer than five replies before it is listed at the position that count gives |
| MailCheckProperties.NotInterestedReadsPositiveAsWritten | scripts/check-zoho-mail.js:124-137 | as written, any text containing "not interested" is positive with high priority |
| MailCheckProperties.ConcreteRefusal | scripts/check-zoho-mail.js:124-137 | `Re: Not interested` is positive as written and negative when corrected |
| MailCheckProperties.CorrectionChangesOnlyRefusals | scripts/check-zoho-mail.js:124-137 | the correction changes the classification exactly for texts containing "not interested" |
| MailCheckProperties.AnalysisIgnoresCase | scripts/check-zoho-mail.js:121 | under either classifier, lower-casing subject and content first does not change the classification |
| MailCheckProperties.QuestionMarkAsks | scripts/check-zoho-mail.js:130-133 | under either classifier, a question mark with no positive word makes a question with medium priority |
| MailCheckProperties.SummaryCanDisagreeWithDetail | scripts/check-zoho-mail.js:192-210 | with the classifier as written, a `Re:` reply whose body says "demo" is positive in the detail view and neutral in the summary, which reads the subject alone |
| MailCheckProperties.SummaryCorrectionMovesRefusals | scripts/check-zoho-mail.js:205-210 | the printed summary and the corrected one have the same totals, questions and neutral count; each reply whose subject says "not interested" is one positive more as written and one negative more once corrected |

## Left out

- Transport and security are not modelled: Express routing, static files, the HTTP status
  codes beyond the 500 of the webhook, and the HMAC signature check.
- The external clients are not modelled. Google Calendar, Supabase, VAPI and the mail
  provider are effects in a trace plus injected answers; the model has no network.
- `src/sms-service.js` and `scripts/health-check.js` are not part of this model. They are
  message templates and an HTTP probe around network sends.
- Luxon time zones, daylight saving and display formatting are not modelled. There is one
  fixed zone, so `plus({ days })` and `plus({ hours: 1 })` add fixed lengths. Display text
  comes from injected functions.
- Floating point is not modelled. `totalCost` and `avgDuration` of `getMetrics` are reals,
  and `formatCost` is not modelled.
- `formatDate`, `groupAppointmentsByDate`, DOM rendering, timers, `animateValue` and
  `showToast` are not modelled, because they read the clock or drive the page.
- The other database reads are not modelled: `getRecentCalls`, `getUpcomingAppointments`
  and `updateAppointmentStatus`. They are queries outside the modelled core.
- A request without a `call` object is not modelled; the model's requests always carry one.
  In the source, `handleCallStarted` and `handleCallEnded` read `call.id` before their `try`
  (src/server.js:102, 120), so the webhook answers 500. A booking or a callback reads it
  inside its branch (src/server.js:181, 220) and answers the error text.
- A function-call message without a `functionCall` object is not modelled; the model's
  function-call messages always carry one. In the source, the destructuring at
  src/server.js:139 then throws outside `handleFunctionCall`'s `try`, so the route's catch
  answers 500 (src/server.js:82-83, 92-95).
- A function call without `parameters` is not modelled; the model's requests always carry
  them. In the source, the destructuring at src/server.js:139 gives `undefined`. The first
  parameter a branch reads then throws inside the `try` (src/server.js:147 or 157), and the
  caller hears `Error: Cannot read properties of undefined ...`. An unknown function name is
  still answered `Function <name> not implemented`.
- Inherited object keys in the label tables are not modelled. A status such as
  `constructor` would return a function; the model treats it as unknown.
- Concurrency between webhook requests is not modelled. Requests are handled one at a time
  (`WebhookProperties.Run`), and the upsert's lack of atomicity appears only as a failed read.
- Configuration is not modelled. Missing environment variables, which would make a service
  constructor throw, are assumed present.
- Dashboard.SortNewestFirst: stability (equal times keep their order) is not stated. Only the
  order and the permutation are proved.
- Dashboard.FormatDuration: whole seconds only. A fractional duration, which JavaScript would
  print with its decimals, is not modelled.
- Database.GetMetrics: the query errors of the two reads are not modelled.
- Database.ApplyUpdate: a field sent as JSON `null` counts as not sent, so the stored value
  is kept. The store would clear the column, for example when the call-ended update of
  src/server.js:124-126 carries a null status, duration or cost.
- Database.CreateAppointment: `notes` sent as JSON `null` is stored as `''`. The source's
  default `notes = ''` (src/database.js:101) applies only to `undefined`, and the booking
  passes `parameters.notes` unchanged (src/server.js:192), so the store would keep `null`.
  The model's appointment row has no null `notes`.
- Calendar.CancelAppointment: Google Calendar keeps a deleted event with status `cancelled`.
  The model removes it instead. So a repeat delete, which the API rejects with 410 Gone, is
  the 404 of an unknown id here, and `getEvent`, which would return the cancelled event,
  gives `null`. A reschedule of a cancelled event is the 404 here; the API's own answer to
  it is not modelled.
- MailCheck.Summarize: an empty inbox is summarised as all zeros. The script prints only
  that the inbox is empty and no summary.
- MailCheck.AnalyzeReply: lower-casing covers ASCII letters only. JavaScript's full Unicode
  case mapping is not modelled.
- Calendar.BookAppointment: the event's description, reminders and colour are not modelled,
  and the returned start and end are taken to be the ones sent.

## Findings

| source | as written | input that shows it | evidently intended | confidence | as-written member | corrected member |
|---|---|---|---|---|---|---|
| src/server.js:146-181 | `handleFunctionCall` calls `calendar.checkAvailability`, `calendar.bookAppointment` and the `db` methods on the module variables. Only `getCalendar()` and `getDB()` set those, and nothing ever calls `getCalendar()` | `bookAppointment` with phone `+447700900123` and email `jo@smile.co`, in any process: the result is `Error: Cannot read properties of null (reading 'bookAppointment')...` and nothing is booked | reach both services through the lazy getters | not executed | Webhook.HandleFunctionCallAsWritten | Webhook.HandleFunctionCall |
| scripts/check-zoho-mail.js:124-137 | "not interested" is listed as a negative keyword, but the positive rule is tested first and "interested" is among its words | a reply with subject `Re: Not interested` is positive with high priority | a refusal is classified negative | not executed | MailCheck.AnalyzeReplyAsWritten | MailCheck.AnalyzeReply |

For the first row:
- `WebhookProperties.AsWrittenBookingNeverBooks` and `WebhookProperties.AsWrittenConcreteBooking`
  exhibit the failure.
- `WebhookProperties.LazyBookingReachesCalendar` proves that the corrected dispatch books.

For the second row:
- `MailCheckProperties.NotInterestedReadsPositiveAsWritten` and `MailCheckProperties.ConcreteRefusal`
  exhibit the misreading.
- `MailCheckProperties.CorrectionChangesOnlyRefusals` proves that the correction changes
  nothing else.
- The script's summary uses the classifier as written (`MailCheck.Summarize` with the
  reading `AsWritten`). `MailCheckProperties.SummaryCorrectionMovesRefusals` proves that
  the corrected summary differs only by moving each refusal from positive to negative.

=== FILE: calendar.dfy ===
/**
 * Booking, rescheduling, cancelling and looking up events in the external
 * calendar (`bookAppointment`, `rescheduleAppointment`, `cancelAppointment`,
 * `getEvent`). The calendar itself is modelled as a map from event id to event;
 * the ids and links it hands out, and any transport failure, are parameters.
 */
module Calendar {
  import opened Common
  import opened Slots

  /** Every booked or rescheduled event lasts this long. */
  const EventMinutes: int := 30

  /** An error the calendar API throws: its HTTP code and message. */
  datatype ApiError = ApiError(code: int, message: string)

  /** What the calendar answers for an event id that it does not hold. */
  const NotFound: ApiError := ApiError(404, "Not Found")

  datatype CalResult<T> = Done(value: T) | Failed(error: ApiError)

  /**
   * An event as stored by the calendar. Times are absent when the request's
   * date text did not parse (luxon's invalid DateTime).
   */
  datatype Event = Event(summary: string, start: Option<Instant>, end: Option<Instant>,
                         attendees: seq<string>)

  type Store = map<string, Event>

  /** The arguments of `bookAppointment`. */
  datatype BookingRequest = BookingRequest(name: Option<string>, practice: Option<string>,
                                           phone: Option<string>, email: Option<string>,
                                           datetime: string, notes: string,
                                           attendees: seq<string>)

  /** What `bookAppointment` returns on success. */
  datatype Booked = Booked(eventId: string, htmlLink: string, start: Option<Instant>,
                           end: Option<Instant>)

  /** `startTime.plus({ minutes: 30 })`, carried through an invalid time. */
  function EndOf(start: Option<Instant>): (end: Option<Instant>)
    ensures start.None? <==> end.None?
    ensures start.Some? ==> end.value - start.value == EventMinutes * MsPerMinute
  {
    match start
    case Some(s) => Some(s + EventMinutes * MsPerMinute)
    case None => None
  }

  /** The event `bookAppointment` sends: summary, half-hour span, host first among the attendees. */
  function BookingEvent(calendarId: string, req: BookingRequest, parse: string -> Option<Instant>)
    : (ev: Event)
  {
    var start := parse(req.datetime);
    Event("VoxAn Demo: " + JsText(req.practice), start, EndOf(start), [calendarId] + req.attendees)
  }

  /**
   * `bookAppointment`: inserts the event under the id the calendar assigns, or
   * rethrows the calendar's failure leaving it unchanged.
   */
  function BookAppointment(store: Store, calendarId: string, req: BookingRequest,
                           parse: string -> Option<Instant>, newId: string, link: string,
                           fault: Option<ApiError>): (r: CalResult<(Store, Booked)>)
    ensures fault.Some? <==> r.Failed?
    ensures r.Failed? ==> r.error == fault.value
    ensures r.Done? ==> var (store', booked) := r.value;
      && booked.eventId == newId && booked.htmlLink == link
      && booked.start == parse(req.datetime)
      && (booked.start.Some? <==> booked.end.Some?)
      && (booked.start.Some? ==> booked.end.value == booked.start.value + EventMinutes * MsPerMinute)
      && booked.eventId in store'
      && store'[booked.eventId].start == booked.start && store'[booked.eventId].end == booked.end
      && |store'[booked.eventId].attendees| > 0 && store'[booked.eventId].attendees[0] == calendarId
      && (forall id :: id in store && id != newId ==> id in store' && store'[id] == store[id])
      && store'.Keys == store.Keys + {newId}
  {
    if fault.Some? then Failed(fault.value)
    else
      var ev := BookingEvent(calendarId, req, parse);
      Done((store[newId := ev], Booked(newId, link, ev.start, ev.end)))
  }

  /** What `rescheduleAppointment` returns on success. */
  datatype Rescheduled = Rescheduled(eventId: string, newTime: Option<Instant>)

  /**
   * `rescheduleAppointment`: patches the event's start and end only. An unknown
   * id is the calendar's 404, which the source rethrows rather than turning into
   * a normal result.
   */
  function RescheduleAppointment(store: Store, eventId: string, newDatetime: string,
                                 parse: string -> Option<Instant>, fault: Option<ApiError>)
    : (r: CalResult<(Store, Rescheduled)>)
    ensures fault.Some? ==> r == Failed(fault.value)
    ensures fault.None? && eventId !in store ==> r == Failed(NotFound)
    ensures fault.None? && eventId in store ==> r.Done?
    ensures r.Done? ==> var (store', res) := r.value;
      && eventId in store && store'.Keys == store.Keys
      && res.eventId == eventId && res.newTime == parse(newDatetime)
      && store'[eventId].start == parse(newDatetime)
      && (store'[eventId].start.Some? <==> store'[eventId].end.Some?)
      && (store'[eventId].start.Some? ==> store'[eventId].end.value == store'[eventId].start.value + EventMinutes * MsPerMinute)
      && store'[eventId].summary == store[eventId].summary
      && store'[eventId].attendees == store[eventId].attendees
      && (forall id :: id in store && id != eventId ==> store'[id] == store[id])
  {
    if fault.Some? then Failed(fault.value)
    else if eventId !in store then Failed(NotFound)
    else
      var start := parse(newDatetime);
      Done((store[eventId := store[eventId].(start := start, end := EndOf(start))],
            Rescheduled(eventId, start)))
  }

  /** `cancelAppointment`: deletes the event; an unknown id is the calendar's 404, rethrown. */
  function CancelAppointment(store: Store, eventId: string, fault: Option<ApiError>)
    : (r: CalResult<Store>)
    ensures fault.Some? ==> r == Failed(fault.value)
    ensures fault.None? && eventId !in store ==> r == Failed(NotFound)
    ensures r.Done? ==> eventId in store && r.value.Keys == store.Keys - {eventId}
    ensures r.Done? ==> forall id :: id in r.value ==> r.value[id] == store[id]
  {
    if fault.Some? then Failed(fault.value)
    else if eventId !in store then Failed(NotFound)
    else Done(store - {eventId})
  }

  /**
   * `getEvent`: the event, or `null` (here `None`) when the calendar answers 404;
   * every other failure is rethrown.
   */
  function GetEvent(store: Store, eventId: string, fault: Option<ApiError>)
    : (r: CalResult<Option<Event>>)
    ensures fault.Some? && fault.value.code == 404 ==> r == Done(None)
    ensures fault.Some? && fault.value.code != 404 ==> r == Failed(fault.value)
    ensures fault.None? ==> r.Done? && (r.value.Some? <==> eventId in store)
    ensures fault.None? && eventId in store ==> r.value == Some(store[eventId])
  {
    match fault
    case Some(e) => if e.code == 404 then Done(None) else Failed(e)
    case None =>
      // The calendar's own answer for an unknown id is NotFound, a 404.
      if eventId in store then Done(Some(store[eventId])) else Done(None)
  }
}

=== FILE: calendar_properties.dfy ===
/** Properties of the calendar operations that relate several calls. */
module CalendarProperties {
  import opened Common
  import opened Slots
  import opened Calendar

  /** A booked event can be looked up under the returned id, spanning exactly thirty minutes. */
  lemma BookThenGet(store: Store, calendarId: string, req: BookingRequest,
                    parse: string -> Option<Instant>, newId: string, link: string)
    requires parse(req.datetime).Some?
    ensures var r := BookAppointment(store, calendarId, req, parse, newId, link, None);
            && r.Done?
            && var ev := GetEvent(r.value.0, r.value.1.eventId, None);
            && ev.Done? && ev.value.Some?
            && ev.value.value.start == parse(req.datetime)
            && ev.value.value.end.value == parse(req.datetime).value + EventMinutes * MsPerMinute
  {
  }

  /**
   * Rescheduling a booked event keeps it thirty minutes long at its new time,
   * and keeps its summary and attendees.
   */
  lemma BookThenReschedule(store: Store, calendarId: string, req: BookingRequest,
                           parse: string -> Option<Instant>, newId: string, link: string,
                           newDatetime: string)
    requires parse(newDatetime).Some?
    ensures var b := BookAppointment(store, calendarId, req, parse, newId, link, None);
            && b.Done?
            && var r := RescheduleAppointment(b.value.0, b.value.1.eventId, newDatetime, parse, None);
            && r.Done?
            && var ev := r.value.0[newId];
            && ev.start == parse(newDatetime)
            && ev.end.value - ev.start.value == EventMinutes * MsPerMinute
            && ev.summary == b.value.0[newId].summary
            && ev.attendees == b.value.0[newId].attendees
  {
  }

  /**
   * Cancelling is not idempotent: once an event is cancelled, a second cancel
   * is the calendar's 404 again, while a lookup reports the event as absent.
   */
  lemma CancelTwiceFails(store: Store, eventId: string)
    requires eventId in store
    ensures var first := CancelAppointment(store, eventId, None);
            && first.Done?
            && CancelAppointment(first.value, eventId, None) == Failed(NotFound)
            && GetEvent(first.value, eventId, None) == Done(None)
  {
  }

  /** A 404 from the lookup becomes `null`, whereas the same 404 from a reschedule is an error. */
  lemma NotFoundIsNullOnlyForLookup(store: Store, eventId: string, newDatetime: string,
                                    parse: string -> Option<Instant>)
    requires eventId !in store
    ensures GetEvent(store, eventId, None) == Done(None)
    ensures RescheduleAppointment(store, eventId, newDatetime, parse, None) == Failed(NotFound)
    ensures CancelAppointment(store, eventId, None) == Failed(NotFound)
  {
  }
}

=== FILE: common.dfy ===
/** Option and Result values shared by every component, plus sequence helpers. */
module Common {

  /** A value that may be absent: JavaScript's `undefined`/`null`. */
  datatype Option<T> = None | Some(value: T) {
    function GetOr(default: T): (r: T)
      ensures Some? ==> r == value
      ensures None? ==> r == default
    {
      match this
      case Some(v) => v
      case None => default
    }
  }

  /** How a template literal renders a possibly missing string: `undefined` when absent. */
  function JsText(o: Option<string>): (r: string)
    ensures o.Some? ==> r == o.value
    ensures o.None? ==> r == "undefined"
  {
    match o
    case Some(s) => s
    case None => "undefined"
  }

  /** JavaScript truthiness of a nullable string: present and non-empty. */
  predicate Truthy(o: Option<string>) {
    o.Some? && o.value != ""
  }

  /** The outcome of an operation that can throw: its value or the error message. */
  datatype Result<T> = Ok(value: T) | Err(message: string)

  /** The first `n` elements of `s`, or all of `s` when it is shorter: `Array.prototype.slice(0, n)`. */
  function Take<T>(s: seq<T>, n: nat): (r: seq<T>)
    ensures |r| <= n && |r| <= |s|
    ensures |s| <= n ==> r == s
    ensures n <= |s| ==> |r| == n
    ensures forall i :: 0 <= i < |r| ==> r[i] == s[i]
  {
    if |s| <= n then s else s[..n]
  }

  /** Number of elements of `s` that satisfy `p`: `s.filter(p).length`. */
  function Count<T>(s: seq<T>, p: T -> bool): (r: nat)
    ensures r <= |s|
  {
    if |s| == 0 then 0 else (if p(s[0]) then 1 else 0) + Count(s[1..], p)
  }

  /** `s.filter(p)`. */
  function Filter<T>(s: seq<T>, p: T -> bool): (r: seq<T>)
    ensures |r| == Count(s, p)
    ensures forall i :: 0 <= i < |r| ==> p(r[i]) && r[i] in s
  {
    if |s| == 0 then [] else (if p(s[0]) then [s[0]] else []) + Filter(s[1..], p)
  }

  /**
   * `s.filter(p)` keeps order: an element that passes sits in the filtered
   * sequence at the number of passing elements before it.
   */
  lemma {:induction false} FilterRank<T>(s: seq<T>, p: T -> bool, j: int)
    requires 0 <= j < |s| && p(s[j])
    ensures Count(s[..j], p) < |Filter(s, p)|
    ensures Filter(s, p)[Count(s[..j], p)] == s[j]
  {
    if j > 0 {
      FilterRank(s[1..], p, j - 1);
      assert s[..j][0] == s[0] && s[..j][1..] == s[1..][..j - 1];
    }
  }

  /** Appending one element adds one to a count exactly when it passes. */
  lemma {:induction false} CountAppend<T>(s: seq<T>, x: T, p: T -> bool)
    ensures Count(s + [x], p) == Count(s, p) + (if p(x) then 1 else 0)
  {
    if |s| > 0 {
      assert (s + [x])[1..] == s[1..] + [x];
      CountAppend(s[1..], x, p);
    }
  }

  /** Appending one element extends a filter by it exactly when it passes. */
  lemma {:induction false} FilterAppend<T>(s: seq<T>, x: T, p: T -> bool)
    ensures Filter(s + [x], p) == Filter(s, p) + (if p(x) then [x] else [])
  {
    if |s| == 0 {
      assert [] + [x] == [x];
    } else {
      assert (s + [x])[1..] == s[1..] + [x];
      FilterAppend(s[1..], x, p);
    }
  }

  /** A sequence in which no element passes counts zero. */
  lemma {:induction false} CountNone<T>(s: seq<T>, p: T -> bool)
    requires forall i :: 0 <= i < |s| ==> !p(s[i])
    ensures Count(s, p) == 0
  {
    if |s| > 0 {
      CountNone(s[1..], p);
    }
  }

  /** Two filters that no element passes together count no more than the whole sequence. */
  lemma {:induction false} CountDisjoint<T>(s: seq<T>, p: T -> bool, q: T -> bool)
    requires forall x :: x in s ==> !(p(x) && q(x))
    ensures Count(s, p) + Count(s, q) <= |s|
  {
    if |s| > 0 {
      assert forall x :: x in s[1..] ==> x in s;
      CountDisjoint(s[1..], p, q);
    }
  }

  /** A filter that implies another counts no more than it. */
  lemma {:induction false} CountMonotone<T>(s: seq<T>, p: T -> bool, q: T -> bool)
    requires forall x :: x in s && p(x) ==> q(x)
    ensures Count(s, p) <= Count(s, q)
  {
    if |s| > 0 {
      assert forall x :: x in s[1..] ==> x in s;
      CountMonotone(s[1..], p, q);
    }
  }

  /** When every element passes `r` exactly as often as it passes `p` and `q` together, the counts add up. */
  lemma {:induction false} CountSplit<T>(s: seq<T>, p: T -> bool, q: T -> bool, r: T -> bool)
    requires forall x :: x in s ==> (if p(x) then 1 else 0) + (if q(x) then 1 else 0) == (if r(x) then 1 else 0)
    ensures Count(s, p) + Count(s, q) == Count(s, r)
  {
    if |s| > 0 {
      assert forall x :: x in s[1..] ==> x in s;
      CountSplit(s[1..], p, q, r);
    }
  }

  /** Two filters that agree on every element count the same. */
  lemma {:induction false} CountAgree<T>(s: seq<T>, p: T -> bool, q: T -> bool)
    requires forall x :: x in s ==> p(x) == q(x)
    ensures Count(s, p) == Count(s, q)
  {
    if |s| > 0 {
      assert forall x :: x in s[1..] ==> x in s;
      CountAgree(s[1..], p, q);
    }
  }
}

=== FILE: dashboard.dfy ===
/**
 * The pure formatting and classification helpers of the dashboard: phone and
 * duration formatting, the status badges and labels, and the ordering of the
 * recent-activity feed. Rendering into the page is left to the browser.
 */
module Dashboard {
  import opened Common
  import opened Text

  // ------------------------------------------------------------------ phones

  /** `(ddd) ddd-dddd` for a ten-digit national number. */
  function NorthAmerican(d: string): (r: string)
    requires |d| == 10
    ensures |r| == 14
    ensures r[0] == '(' && r[4] == ')' && r[5] == ' ' && r[9] == '-'
  {
    "(" + d[..3] + ") " + d[3..6] + "-" + d[6..]
  }

  /**
   * `formatPhone`: "Unknown" for a missing or empty number; ten digits, or
   * eleven starting with 1, in North American form; anything else unchanged.
   */
  function FormatPhone(raw: Option<string>): (r: string)
    ensures !Truthy(raw) ==> r == "Unknown"
    ensures Truthy(raw) && |Digits(raw.value)| == 10 ==>
      r == NorthAmerican(Digits(raw.value))
    ensures Truthy(raw) && |Digits(raw.value)| == 11 && Digits(raw.value)[0] == '1' ==>
      r == NorthAmerican(Digits(raw.value)[1..])
    ensures Truthy(raw) && |Digits(raw.value)| != 10
            && !(|Digits(raw.value)| == 11 && Digits(raw.value)[0] == '1')
            ==> r == raw.value
  {
    if !Truthy(raw) then "Unknown"
    else
      var digits := Digits(raw.value);
      if |digits| == 10 then NorthAmerican(digits)
      else if |digits| == 11 && digits[0] == '1' then NorthAmerican(digits[1..])
      else raw.value
  }

  // --------------------------------------------------------------- durations

  /** JavaScript's `a % 60`: the remainder takes the sign of the dividend. */
  function JsRem60(a: int): (r: int)
    ensures a >= 0 ==> 0 <= r < 60
    ensures a < 0 ==> -60 < r <= 0
    ensures (a - r) % 60 == 0
  {
    if a >= 0 then a % 60 else -((-a) % 60)
  }

  /**
   * `formatDuration`: "0 sec" for a missing or zero duration; otherwise whole
   * minutes (rounded down) and the remaining seconds, minutes omitted when zero.
   */
  function FormatDuration(seconds: Option<int>): (r: string)
    ensures seconds.None? || seconds.value == 0 ==> r == "0 sec"
    ensures seconds.Some? && 0 < seconds.value < 60 ==> r == ShowNat(seconds.value) + " sec"
  {
    if seconds.None? || seconds.value == 0 then "0 sec"
    else
      var s := seconds.value;
      var minutes := s / 60;  // Math.floor; Dafny's division by a positive divisor floors
      var remaining := JsRem60(s);
      if minutes == 0 then ShowInt(remaining) + " sec"
      else ShowInt(minutes) + " min " + ShowInt(remaining) + " sec"
  }

  // ------------------------------------------------------ badges and labels

  datatype Badge = Badge(caption: string, cssClass: string)

  const HotBadge: Badge := Badge("\U{1F525} Hot Lead", "badge-hot")
  const WarmBadge: Badge := Badge("\U{1F7E1} Warm", "badge-warm")
  const NewBadge: Badge := Badge("\U{1F535} New", "badge-new")
  const ColdBadge: Badge := Badge("\U{26AA} Cold", "badge-cold")

  /** `getLeadBadge`: the badge of a lead status, "New" for any status it does not know. */
  function LeadBadge(status: Option<string>): (b: Badge)
    ensures b == HotBadge <==> status == Some("hot")
    ensures b == WarmBadge <==> status == Some("warm")
    ensures b == ColdBadge <==> status == Some("cold")
    ensures b == NewBadge <==> status !in {Some("hot"), Some("warm"), Some("cold")}
  {
    match status
    case Some("hot") => HotBadge
    case Some("warm") => WarmBadge
    case Some("cold") => ColdBadge
    case _ => NewBadge
  }

  /** The labels of `getCallStatusLabel`. */
  const CallStatusLabels: map<string, string> :=
    map["completed" := "Answered", "no-answer" := "Missed", "voicemail" := "Voicemail",
        "in-progress" := "In Progress", "outbound" := "Outbound"]

  /** The texts of `getAppointmentStatus`. */
  const AppointmentStatusTexts: map<string, string> :=
    map["confirmed" := "\U{2705} Confirmed", "pending" := "\U{23F3} Pending",
        "cancelled" := "\U{274C} Cancelled", "completed" := "\U{2705} Completed"]

  /** `table[status] || status`: the table's text for a known status, else the status itself. */
  function LookupOr(table: map<string, string>, status: Option<string>): (r: Option<string>)
    ensures status.Some? && status.value in table ==> r == Some(table[status.value])
    ensures !(status.Some? && status.value in table) ==> r == status
  {
    if status.Some? && status.value in table then Some(table[status.value]) else status
  }

  /** `getCallStatusLabel`. */
  function CallStatusLabel(status: Option<string>): (r: Option<string>)
    ensures status.Some? && status.value in CallStatusLabels ==>
      r == Some(CallStatusLabels[status.value])
    ensures !(status.Some? && status.value in CallStatusLabels) ==> r == status
  {
    LookupOr(CallStatusLabels, status)
  }

  /** `getAppointmentStatus`. */
  function AppointmentStatusText(status: Option<string>): (r: Option<string>)
    ensures status.Some? && status.value in AppointmentStatusTexts ==>
      r == Some(AppointmentStatusTexts[status.value])
    ensures !(status.Some? && status.value in AppointmentStatusTexts) ==> r == status
  {
    LookupOr(AppointmentStatusTexts, status)
  }

  // --------------------------------------------------------- recent activity

  datatype ActivityKind = CallActivity | AppointmentActivity

  /** An entry of the feed: what it is, its creation time, and its rendered markup. */
  datatype Activity = Activity(kind: ActivityKind, timestamp: int, html: string)

  /** How many of each kind are taken, and how many entries are shown. */
  const PerKind: nat := 5
  const Shown: nat := 5

  /** Newest first. */
  predicate NewestFirst(s: seq<Activity>) {
    forall i, j :: 0 <= i < j < |s| ==> s[j].timestamp <= s[i].timestamp
  }

  /**
   * One step of a stable sort: `x` goes after every entry at least as new,
   * so that among equal times the earlier entry stays first.
   */
  function InsertNewestFirst(x: Activity, s: seq<Activity>): (r: seq<Activity>)
    requires NewestFirst(s)
    ensures NewestFirst(r)
    ensures multiset(r) == multiset(s) + multiset{x}
    ensures |r| == |s| + 1
    ensures r[0] == x || (|s| > 0 && r[0] == s[0])
  {
    if |s| == 0 then [x]
    else if s[0].timestamp >= x.timestamp then
      assert s == [s[0]] + s[1..];
      var rest := InsertNewestFirst(x, s[1..]);
      ConsNewestFirst(s[0], rest);
      ConsKeepsAddition(s[0], rest, s[1..], x);
      [s[0]] + rest
    else
      ConsNewestFirst(x, s);
      [x] + s
  }

  /** Putting the same entry in front of `t` and of `u` keeps `t` one `x` larger than `u`. */
  lemma ConsKeepsAddition<T>(a: T, t: seq<T>, u: seq<T>, x: T)
    requires multiset(t) == multiset(u) + multiset{x}
    ensures multiset([a] + t) == multiset([a] + u) + multiset{x}
  {
  }

  /** Putting in front an entry no older than the head keeps a feed newest-first. */
  lemma ConsNewestFirst(a: Activity, t: seq<Activity>)
    requires NewestFirst(t)
    requires |t| == 0 || t[0].timestamp <= a.timestamp
    ensures NewestFirst([a] + t)
  {
    var r := [a] + t;
    forall i, j | 0 <= i < j < |r|
      ensures r[j].timestamp <= r[i].timestamp
    {
      if i == 0 {
        assert r[j] == t[j - 1];
      } else {
        assert r[i] == t[i - 1] && r[j] == t[j - 1];
      }
    }
  }

  /** `activities.sort((a, b) => b.timestamp - a.timestamp)`. */
  function SortNewestFirst(s: seq<Activity>): (r: seq<Activity>)
    ensures NewestFirst(r)
    ensures multiset(r) == multiset(s)
    ensures |r| == |s|
  {
    if |s| == 0 then []
    else
      assert s == s[..|s| - 1] + [s[|s| - 1]];
      InsertNewestFirst(s[|s| - 1], SortNewestFirst(s[..|s| - 1]))
  }

  /** What the feed shows: the empty state, or the entries in order. */
  datatype Feed = EmptyFeed | Entries(items: seq<Activity>)

  /** The entries the feed chooses from: the first five calls and the first five appointments. */
  function Candidates(calls: seq<Activity>, appts: seq<Activity>): (c: seq<Activity>)
    ensures |c| <= 2 * PerKind
    ensures |c| == 0 <==> |calls| == 0 && |appts| == 0
  {
    Take(calls, PerKind) + Take(appts, PerKind)
  }

  /** `renderRecentActivity`: the five newest candidates, or the empty state. */
  function RecentActivity(calls: seq<Activity>, appts: seq<Activity>): (f: Feed)
    ensures f.EmptyFeed? <==> |calls| == 0 && |appts| == 0
    ensures f.Entries? ==> NewestFirst(f.items)
    ensures f.Entries? ==>
      |f.items| == if |Candidates(calls, appts)| < Shown then |Candidates(calls, appts)| else Shown
    ensures f.Entries? ==> multiset(f.items) <= multiset(Candidates(calls, appts))
    ensures f.Entries? ==> forall i :: 0 <= i < |f.items| ==> f.items[i] in Candidates(calls, appts)
  {
    var candidates := Candidates(calls, appts);
    var sorted := SortNewestFirst(candidates);
    if |sorted| == 0 then EmptyFeed
    else
      var items := Take(sorted, Shown);
      TakeWithin(sorted, Shown);
      TakeNewestFirst(sorted, Shown);
      DrawnFrom(items, candidates);
      Entries(items)
  }

  /** The first `n` entries of a newest-first list are newest first. */
  lemma TakeNewestFirst(s: seq<Activity>, n: nat)
    requires NewestFirst(s)
    ensures NewestFirst(Take(s, n))
  {
  }

  /** The first `n` elements are a sub-multiset of the whole. */
  lemma TakeWithin<T>(s: seq<T>, n: nat)
    ensures multiset(Take(s, n)) <= multiset(s)
  {
    if n < |s| {
      assert s == s[..n] + s[n..];
    }
  }

  /** Every element of a sub-multiset of `c` is an element of `c`. */
  lemma DrawnFrom<T>(items: seq<T>, c: seq<T>)
    requires multiset(items) <= multiset(c)
    ensures forall i :: 0 <= i < |items| ==> items[i] in c
  {
    forall i | 0 <= i < |items|
      ensures items[i] in c
    {
      assert items[i] in multiset(items);
    }
  }
}

=== FILE: dashboard_properties.dfy ===
/** Properties of the dashboard's formatters that relate them to their inputs. */
module DashboardProperties {
  import opened Common
  import opened Text
  import opened Validation
  import opened Dashboard

  lemma DigitsOfPunctuation()
    ensures Digits("(") == "" && Digits(") ") == "" && Digits("-") == "" && Digits("+") == ""
  {
  }

  /** The North American form drops no digit and adds none. */
  lemma NorthAmericanKeepsDigits(d: string)
    requires |d| == 10 && forall i :: 0 <= i < |d| ==> IsDigit(d[i])
    ensures Digits(NorthAmerican(d)) == d
  {
    var a, b, c := d[..3], d[3..6], d[6..];
    DigitsOfDigitString(a);
    DigitsOfDigitString(b);
    DigitsOfDigitString(c);
    DigitsOfPunctuation();
    var open := "(" + a;
    DigitsOfConcat("(", a);
    var closed := open + ") ";
    DigitsOfConcat(open, ") ");
    var middle := closed + b;
    DigitsOfConcat(closed, b);
    assert Digits(middle) == a + b;
    var dashed := middle + "-";
    DigitsOfConcat(middle, "-");
    DigitsOfConcat(dashed, c);
    assert NorthAmerican(d) == dashed + c;
    assert d == a + b + c;
  }

  /**
   * A number the dashboard reformats keeps its digits: all of them for ten
   * digits, all but the leading country code 1 for eleven.
   */
  lemma FormatPhoneKeepsDigits(raw: Option<string>)
    requires Truthy(raw)
    ensures |Digits(raw.value)| == 10 ==> Digits(FormatPhone(raw)) == Digits(raw.value)
    ensures |Digits(raw.value)| == 11 && Digits(raw.value)[0] == '1' ==>
            Digits(FormatPhone(raw)) == Digits(raw.value)[1..]
  {
    var d := Digits(raw.value);
    if |d| == 10 {
      NorthAmericanKeepsDigits(d);
    } else if |d| == 11 && d[0] == '1' {
      NorthAmericanKeepsDigits(d[1..]);
    }
  }

  /**
   * A number the booking accepted (`+44` and ten digits) has twelve digits,
   * so the dashboard shows it exactly as stored.
   */
  lemma UkNumbersShownAsStored(s: string)
    requires ValidUkPhone(s)
    ensures FormatPhone(Some(s)) == s
  {
    assert s == "+" + s[1..];
    DigitsOfConcat("+", s[1..]);
    DigitsOfPunctuation();
    DigitsOfDigitString(s[1..]);
    assert |Digits(s)| == 12;
  }

  /**
   * A positive duration reads back: the text is `<m> min <k> sec` (or `<k> sec`
   * under a minute) for the unique `m` and `k < 60` with `60 * m + k` the input.
   */
  lemma DurationReadsBack(s: int, m: nat, k: nat)
    requires k < 60 && s == 60 * m + k && s > 0
    ensures FormatDuration(Some(s)) ==
            (if m == 0 then ShowNat(k) + " sec" else ShowNat(m) + " min " + ShowNat(k) + " sec")
  {
    assert s / 60 == m && s % 60 == k;
  }

  /**
   * A negative duration is split with a floored minute count but a truncated
   * remainder, so the two parts do not add back up: -30 seconds shows as
   * "-1 min -30 sec".
   */
  lemma NegativeDurationParts()
    ensures FormatDuration(Some(-30)) == "-" + ShowNat(1) + " min -" + ShowNat(30) + " sec"
    ensures -1 * 60 + -30 != -30
  {
    assert -30 / 60 == -1;
    assert JsRem60(-30) == -30;
  }

  /** The call-status label of a label is itself: no label is also a status. */
  lemma CallStatusLabelIdempotent(status: Option<string>)
    ensures CallStatusLabel(CallStatusLabel(status)) == CallStatusLabel(status)
  {
    var r := CallStatusLabel(status);
    if status.Some? && status.value in CallStatusLabels {
      assert r.value !in CallStatusLabels;
    }
  }

  /** The appointment-status text of a text is itself. */
  lemma AppointmentStatusIdempotent(status: Option<string>)
    ensures AppointmentStatusText(AppointmentStatusText(status)) == AppointmentStatusText(status)
  {
    var r := AppointmentStatusText(status);
    if status.Some? && status.value in AppointmentStatusTexts {
      assert r.value !in AppointmentStatusTexts;
    }
  }

  /** Different known call statuses get different labels. */
  lemma CallStatusLabelsDistinct(a: string, b: string)
    requires a in CallStatusLabels && b in CallStatusLabels && a != b
    ensures CallStatusLabel(Some(a)) != CallStatusLabel(Some(b))
  {
  }

  /** Distinct known appointment statuses read differently, "confirmed" and "completed" included. */
  lemma AppointmentStatusTextsDistinct(a: string, b: string)
    requires a in AppointmentStatusTexts && b in AppointmentStatusTexts && a != b
    ensures AppointmentStatusText(Some(a)) != AppointmentStatusText(Some(b))
  {
  }

  /** The first entry shown is the newest of all candidates. */
  lemma FirstShownIsNewest(calls: seq<Activity>, appts: seq<Activity>, y: Activity)
    requires y in Candidates(calls, appts)
    ensures RecentActivity(calls, appts).Entries?
    ensures y.timestamp <= RecentActivity(calls, appts).items[0].timestamp
  {
    var sorted := SortNewestFirst(Candidates(calls, appts));
    assert y in multiset(sorted);
    var j :| 0 <= j < |sorted| && sorted[j] == y;
    assert RecentActivity(calls, appts).items[0] == sorted[0];
  }

  /**
   * Every candidate left out of the feed (counting repeats) is no newer than
   * any entry shown: the feed shows the newest five.
   */
  lemma ShownAreNewest(calls: seq<Activity>, appts: seq<Activity>, x: Activity)
    requires RecentActivity(calls, appts).Entries?
    requires multiset(RecentActivity(calls, appts).items)[x] < multiset(Candidates(calls, appts))[x]
    ensures forall i :: 0 <= i < |RecentActivity(calls, appts).items| ==>
              x.timestamp <= RecentActivity(calls, appts).items[i].timestamp
  {
    var sorted := SortNewestFirst(Candidates(calls, appts));
    var items := RecentActivity(calls, appts).items;
    var j := LeftOutIndex(sorted, items, x);
    forall i | 0 <= i < |items|
      ensures x.timestamp <= items[i].timestamp
    {
      assert items[i] == sorted[i];
    }
  }

  /**
   * An element `x` that a prefix of `s` holds fewer times than `s` does is
   * found in `s` past that prefix.
   */
  lemma LeftOutIndex<T>(s: seq<T>, prefix: seq<T>, x: T) returns (j: nat)
    requires |prefix| <= |s| && prefix == s[..|prefix|]
    requires multiset(prefix)[x] < multiset(s)[x]
    ensures |prefix| <= j < |s| && s[j] == x
  {
    var rest := s[|prefix|..];
    assert s == prefix + rest;
    assert multiset(s) == multiset(prefix) + multiset(rest);
    assert x in multiset(rest);
    var k :| 0 <= k < |rest| && rest[k] == x;
    j := |prefix| + k;
  }
}

=== FILE: database.dfy ===
/**
 * The persistence layer (`DatabaseService`): the calls, appointments and
 * leads tables as sequences of rows, and the reads and writes the booking
 * pipeline performs on them. Timestamps are instants; the id a new row gets
 * and any failure of the store are parameters.
 */
module Database {
  import opened Common
  import opened Slots

  /** The message of the store's error when one row was required and zero or several matched. */
  const SingleRowError: string := "JSON object requested, multiple (or no) rows returned"

  // ---------------------------------------------------------------- leads

  /** A row of the `leads` table. */
  datatype Lead = Lead(id: nat, phone: string, email: Option<string>, name: Option<string>,
                       practiceName: Option<string>, address: Option<string>,
                       city: Option<string>, source: string, status: string,
                       contactCount: int, createdAt: Instant, lastContacted: Instant)

  /** The arguments of `upsertLead`; an absent `source` takes the default `vapi_call`. */
  datatype LeadInput = LeadInput(phone: string, email: Option<string>, name: Option<string>,
                                 practiceName: Option<string>, address: Option<string>,
                                 city: Option<string>, source: Option<string>)

  /** The lead row handed back together with the `isNew` flag. */
  datatype Upserted = Upserted(lead: Lead, isNew: bool)

  const DefaultLeadSource: string := "vapi_call"
  const NewLeadStatus: string := "contacted"

  /** Index of the first row with this phone: `existing[0]` of the lookup. */
  function FirstWithPhone(leads: seq<Lead>, phone: string): (r: Option<nat>)
    ensures r.Some? ==> r.value < |leads| && leads[r.value].phone == phone
    ensures r.Some? ==> forall j :: 0 <= j < r.value ==> leads[j].phone != phone
    ensures r.None? ==> forall j :: 0 <= j < |leads| ==> leads[j].phone != phone
  {
    if |leads| == 0 then None
    else if leads[0].phone == phone then Some(0)
    else match FirstWithPhone(leads[1..], phone)
      case Some(k) => Some(k + 1)
      case None => None
  }

  /**
   * `result` is the supplied value when the stored one is empty and a non-empty
   * one was supplied, and the stored value in every other case.
   */
  predicate FilledFrom(result: Option<string>, stored: Option<string>, supplied: Option<string>) {
    && (!Truthy(stored) && Truthy(supplied) ==> result == supplied)
    && (Truthy(stored) || !Truthy(supplied) ==> result == stored)
  }

  /** The spread `...(supplied && !stored && { field: supplied })`: fill only an empty field. */
  function FillIfEmpty(stored: Option<string>, supplied: Option<string>): (r: Option<string>)
    ensures Truthy(stored) ==> r == stored
    ensures !Truthy(stored) && Truthy(supplied) ==> r == supplied
    ensures !Truthy(supplied) ==> r == stored
  {
    if Truthy(supplied) && !Truthy(stored) then supplied else stored
  }

  /** The update sent for an existing lead: a new contact time, one more contact, empty fields filled. */
  function Touch(row: Lead, input: LeadInput, now: Instant): (r: Lead)
    ensures r.contactCount == row.contactCount + 1
    ensures r.lastContacted == now
    ensures r.id == row.id && r.phone == row.phone && r.address == row.address && r.city == row.city
    ensures r.source == row.source && r.status == row.status && r.createdAt == row.createdAt
  {
    row.(lastContacted := now,
         contactCount := row.contactCount + 1,
         email := FillIfEmpty(row.email, input.email),
         name := FillIfEmpty(row.name, input.name),
         practiceName := FillIfEmpty(row.practiceName, input.practiceName))
  }

  /**
   * `upsertLead`. The lookup's own error is ignored by the source, so a failed
   * lookup (`lookupOk` false) takes the insert path. A failed write is thrown.
   */
  function UpsertLead(leads: seq<Lead>, input: LeadInput, now: Instant, newId: nat,
                      lookupOk: bool, writeFault: Option<string>)
    : (r: Result<(seq<Lead>, Upserted)>)
    ensures writeFault.Some? <==> r.Err?
    ensures r.Err? ==> r.message == writeFault.value
    // An existing phone: the first such row is touched and nothing else changes.
    ensures r.Ok? && lookupOk && FirstWithPhone(leads, input.phone).Some? ==>
      var k := FirstWithPhone(leads, input.phone).value;
      var (leads', res) := r.value;
      && !res.isNew
      && |leads'| == |leads|
      && res.lead == leads'[k]
      && leads'[k].contactCount == leads[k].contactCount + 1
      && leads'[k].lastContacted == now
      && leads'[k].id == leads[k].id && leads'[k].phone == leads[k].phone
      && leads'[k].address == leads[k].address && leads'[k].city == leads[k].city
      && leads'[k].source == leads[k].source && leads'[k].status == leads[k].status
      && leads'[k].createdAt == leads[k].createdAt
      && FilledFrom(leads'[k].email, leads[k].email, input.email)
      && FilledFrom(leads'[k].name, leads[k].name, input.name)
      && FilledFrom(leads'[k].practiceName, leads[k].practiceName, input.practiceName)
      && (forall j :: 0 <= j < |leads| && j != k ==> leads'[j] == leads[j])
    // An unseen phone, or a failed lookup: exactly one new row.
    ensures r.Ok? && (!lookupOk || FirstWithPhone(leads, input.phone).None?) ==>
      var (leads', res) := r.value;
      && res.isNew
      && leads' == leads + [res.lead]
      && res.lead.id == newId
      && res.lead.phone == input.phone
      && res.lead.contactCount == 1
      && res.lead.status == NewLeadStatus
      && res.lead.source == input.source.GetOr(DefaultLeadSource)
      && res.lead.email == input.email && res.lead.name == input.name
      && res.lead.practiceName == input.practiceName
      && res.lead.address == input.address && res.lead.city == input.city
      && res.lead.createdAt == now && res.lead.lastContacted == now
  {
    var existing := if lookupOk then FirstWithPhone(leads, input.phone) else None;
    if writeFault.Some? then Err(writeFault.value)
    else match existing
      case Some(k) =>
        var row := Touch(leads[k], input, now);
        Ok((leads[k := row], Upserted(row, false)))
      case None =>
        var row := Lead(newId, input.phone, input.email, input.name, input.practiceName,
                        input.address, input.city, input.source.GetOr(DefaultLeadSource),
                        NewLeadStatus, 1, now, now);
        Ok((leads + [row], Upserted(row, true)))
  }

  function HasPhone(phone: string): Lead -> bool {
    (l: Lead) => l.phone == phone
  }

  /** At most one lead per phone number: the natural-key invariant of the table. */
  predicate OnePerPhone(leads: seq<Lead>) {
    forall i, j :: 0 <= i < j < |leads| ==> leads[i].phone != leads[j].phone
  }

  /**
   * `getLeadByPhone`: `maybeSingle` answers no row as `null`, one row as that
   * row, and several rows as an error.
   */
  function GetLeadByPhone(leads: seq<Lead>, phone: string, fault: Option<string>)
    : (r: Result<Option<Lead>>)
    ensures fault.Some? ==> r == Err(fault.value)
    ensures fault.None? && Count(leads, HasPhone(phone)) == 0 ==> r == Ok(None)
    ensures fault.None? && Count(leads, HasPhone(phone)) == 1 ==> r.Ok? && r.value.Some?
    ensures fault.None? && Count(leads, HasPhone(phone)) == 1 ==>
      forall j :: 0 <= j < |leads| && leads[j].phone == phone ==> r == Ok(Some(leads[j]))
    ensures fault.None? && Count(leads, HasPhone(phone)) > 1 ==> r == Err(SingleRowError)
    ensures fault.None? && OnePerPhone(leads) ==> r.Ok?
    ensures r.Ok? && r.value.None? ==> forall j :: 0 <= j < |leads| ==> leads[j].phone != phone
    ensures r.Ok? && r.value.Some? ==> r.value.value in leads && r.value.value.phone == phone
  {
    if fault.Some? then Err(fault.value)
    else
      var matches := Filter(leads, HasPhone(phone));
      if |matches| == 0 then
        assert forall j :: 0 <= j < |leads| ==> leads[j].phone != phone by {
          NoMatchCountsZero(leads, phone);
        }
        Ok(None)
      else if |matches| == 1 then
        assert forall j :: 0 <= j < |leads| && leads[j].phone == phone ==> matches[0] == leads[j] by {
          forall j | 0 <= j < |leads| && leads[j].phone == phone
            ensures matches[0] == leads[j]
          {
            FilterRank(leads, HasPhone(phone), j);
          }
        }
        Ok(Some(matches[0]))
      else
        assert !OnePerPhone(leads) by {
          SeveralMatchesBreakKey(leads, phone);
        }
        Err(SingleRowError)
  }

  lemma {:induction false} NoMatchCountsZero(leads: seq<Lead>, phone: string)
    requires Count(leads, HasPhone(phone)) == 0
    ensures forall j :: 0 <= j < |leads| ==> leads[j].phone != phone
  {
    if |leads| > 0 {
      NoMatchCountsZero(leads[1..], phone);
      assert forall j :: 1 <= j < |leads| ==> leads[j] == leads[1..][j - 1];
    }
  }

  lemma {:induction false} SeveralMatchesBreakKey(leads: seq<Lead>, phone: string)
    requires Count(leads, HasPhone(phone)) > 1
    ensures !OnePerPhone(leads)
  {
    var tail := leads[1..];
    if leads[0].phone == phone {
      assert Count(tail, HasPhone(phone)) > 0;
      if forall j :: 0 <= j < |tail| ==> tail[j].phone != phone {
        CountNone(tail, HasPhone(phone));
        assert false;
      }
      var j :| 0 <= j < |tail| && tail[j].phone == phone;
      assert leads[0].phone == leads[j + 1].phone;
    } else {
      SeveralMatchesBreakKey(tail, phone);
      var i, j :| 0 <= i < j < |tail| && tail[i].phone == tail[j].phone;
      assert leads[i + 1].phone == leads[j + 1].phone;
    }
  }

  // ---------------------------------------------------------------- appointments

  /** A row of the `appointments` table. */
  datatype Appointment = Appointment(id: nat, callId: Option<nat>, customerName: Option<string>,
                                     phone: Option<string>, email: Option<string>,
                                     practiceName: Option<string>,
                                     appointmentTime: Option<string>,
                                     calendarEventId: Option<string>,
                                     calendarLink: Option<string>, status: string,
                                     notes: string, createdAt: Instant)

  /** The arguments of `createAppointment`; absent `status` and `notes` take their defaults. */
  datatype AppointmentInput = AppointmentInput(callId: Option<nat>, customerName: Option<string>,
                                               phone: Option<string>, email: Option<string>,
                                               practiceName: Option<string>,
                                               appointmentTime: Option<string>,
                                               calendarEventId: Option<string>,
                                               calendarLink: Option<string>,
                                               status: Option<string>, notes: Option<string>)

  const DefaultAppointmentStatus: string := "confirmed"

  /** `createAppointment`: one inserted row, or the store's error with the table unchanged. */
  function CreateAppointment(appts: seq<Appointment>, input: AppointmentInput, now: Instant,
                             newId: nat, fault: Option<string>)
    : (r: Result<(seq<Appointment>, Appointment)>)
    ensures fault.Some? <==> r.Err?
    ensures r.Ok? ==> var (appts', row) := r.value;
      && appts' == appts + [row]
      && row.id == newId && row.createdAt == now
      && row.callId == input.callId && row.calendarEventId == input.calendarEventId
      && row.phone == input.phone && row.email == input.email
      && row.customerName == input.customerName && row.practiceName == input.practiceName
      && row.appointmentTime == input.appointmentTime && row.calendarLink == input.calendarLink
      && (input.status.None? ==> row.status == DefaultAppointmentStatus)
      && (input.status.Some? ==> row.status == input.status.value)
      && (input.notes.None? ==> row.notes == "")
      && (input.notes.Some? ==> row.notes == input.notes.value)
  {
    if fault.Some? then Err(fault.value)
    else
      var row := Appointment(newId, input.callId, input.customerName, input.phone, input.email,
                             input.practiceName, input.appointmentTime, input.calendarEventId,
                             input.calendarLink, input.status.GetOr(DefaultAppointmentStatus),
                             input.notes.GetOr(""), now);
      Ok((appts + [row], row))
  }

  // ---------------------------------------------------------------- calls

  /** A row of the `calls` table. */
  datatype CallRow = CallRow(id: nat, vapiCallId: string, assistantId: Option<string>,
                             phoneNumber: Option<string>, customerName: Option<string>,
                             practiceName: Option<string>, status: Option<string>,
                             transcript: Option<string>, recordingUrl: Option<string>,
                             cost: real, duration: real, success: bool,
                             outcome: Option<string>, callbackRequested: Option<string>,
                             createdAt: Instant, updatedAt: Option<Instant>)

  /** The arguments of `createCall` that the webhook supplies; the rest take their defaults. */
  datatype CallInput = CallInput(vapiCallId: string, assistantId: Option<string>,
                                 phoneNumber: Option<string>, status: Option<string>)

  /** `createCall`: one row with no transcript, zero cost and duration, and `success` false. */
  function CreateCall(calls: seq<CallRow>, input: CallInput, now: Instant, newId: nat,
                      fault: Option<string>)
    : (r: Result<(seq<CallRow>, CallRow)>)
    ensures fault.Some? <==> r.Err?
    ensures r.Ok? ==> var (calls', row) := r.value;
      && calls' == calls + [row]
      && row.vapiCallId == input.vapiCallId && row.status == input.status
      && row.phoneNumber == input.phoneNumber
      && row.transcript.None? && row.cost == 0.0 && row.duration == 0.0 && !row.success
  {
    if fault.Some? then Err(fault.value)
    else
      var row := CallRow(newId, input.vapiCallId, input.assistantId, input.phoneNumber, None,
                         None, input.status, None, None, 0.0, 0.0, false, None, None, now, None);
      Ok((calls + [row], row))
  }

  /**
   * The fields an `updateCall` sends. A field that is `None` was `undefined`
   * in the source and is dropped from the request, so the stored value stays.
   */
  datatype CallUpdate = CallUpdate(status: Option<string>, duration: Option<real>,
                                   cost: Option<real>, success: Option<bool>,
                                   outcome: Option<string>, transcript: Option<string>,
                                   callbackRequested: Option<string>)

  /** Every field `u` sends has the value sent in `row`. */
  predicate Carries(row: CallRow, u: CallUpdate) {
    && (u.status.Some? ==> row.status == u.status)
    && (u.duration.Some? ==> row.duration == u.duration.value)
    && (u.cost.Some? ==> row.cost == u.cost.value)
    && (u.success.Some? ==> row.success == u.success.value)
    && (u.outcome.Some? ==> row.outcome == u.outcome)
    && (u.transcript.Some? ==> row.transcript == u.transcript)
    && (u.callbackRequested.Some? ==> row.callbackRequested == u.callbackRequested)
  }

  function Patch<T>(stored: T, sent: Option<T>): (r: T)
    ensures sent.Some? ==> r == sent.value
    ensures sent.None? ==> r == stored
  {
    if sent.Some? then sent.value else stored
  }

  /** The row after `u` is written to it: each field sent replaces the stored one. */
  function ApplyUpdate(row: CallRow, u: CallUpdate, now: Instant): (r: CallRow)
    ensures Carries(r, u)
    ensures u.status.None? ==> r.status == row.status
    ensures u.duration.None? ==> r.duration == row.duration
    ensures u.cost.None? ==> r.cost == row.cost
    ensures u.success.None? ==> r.success == row.success
    ensures u.outcome.None? ==> r.outcome == row.outcome
    ensures u.transcript.None? ==> r.transcript == row.transcript
    ensures u.callbackRequested.None? ==> r.callbackRequested == row.callbackRequested
    ensures r.id == row.id && r.vapiCallId == row.vapiCallId && r.createdAt == row.createdAt
    ensures r.assistantId == row.assistantId && r.phoneNumber == row.phoneNumber
    ensures r.customerName == row.customerName && r.practiceName == row.practiceName
    ensures r.recordingUrl == row.recordingUrl
    ensures r.updatedAt == Some(now)
  {
    row.(status := if u.status.Some? then u.status else row.status,
         duration := Patch(row.duration, u.duration),
         cost := Patch(row.cost, u.cost),
         success := Patch(row.success, u.success),
         outcome := if u.outcome.Some? then u.outcome else row.outcome,
         transcript := if u.transcript.Some? then u.transcript else row.transcript,
         callbackRequested := if u.callbackRequested.Some? then u.callbackRequested
                              else row.callbackRequested,
         updatedAt := Some(now))
  }

  /** The update applied to every row carrying the call id. */
  function UpdateMatching(calls: seq<CallRow>, vapiCallId: string, u: CallUpdate, now: Instant)
    : (r: seq<CallRow>)
    ensures |r| == |calls|
    ensures forall j :: 0 <= j < |calls| ==>
      r[j] == (if calls[j].vapiCallId == vapiCallId then ApplyUpdate(calls[j], u, now) else calls[j])
  {
    if |calls| == 0 then []
    else [if calls[0].vapiCallId == vapiCallId then ApplyUpdate(calls[0], u, now) else calls[0]]
         + UpdateMatching(calls[1..], vapiCallId, u, now)
  }

  function IsCall(vapiCallId: string): CallRow -> bool {
    (c: CallRow) => c.vapiCallId == vapiCallId
  }

  /**
   * `updateCall`: the row with the call id is updated and handed back. The
   * store answers an update that `single()` cannot return (zero or several
   * rows with the id) with an error and rolls the update back, so the table is
   * unchanged whenever the outcome is an error. Returns the table afterwards
   * and the outcome.
   */
  function UpdateCall(calls: seq<CallRow>, vapiCallId: string, u: CallUpdate, now: Instant,
                      fault: Option<string>)
    : (r: (seq<CallRow>, Result<CallRow>))
    ensures fault.Some? ==> r == (calls, Err(fault.value))
    ensures r.1.Err? ==> r.0 == calls
    ensures fault.None? ==> (r.1.Ok? <==> Count(calls, IsCall(vapiCallId)) == 1)
    ensures r.1.Err? && fault.None? ==> r.1.message == SingleRowError
    ensures r.1.Ok? ==> |r.0| == |calls|
    ensures r.1.Ok? ==> forall j :: 0 <= j < |calls| && calls[j].vapiCallId != vapiCallId ==>
      r.0[j] == calls[j]
    ensures r.1.Ok? ==> forall j :: 0 <= j < |calls| && calls[j].vapiCallId == vapiCallId ==>
      r.0[j] == r.1.value && r.1.value == ApplyUpdate(calls[j], u, now)
  {
    if fault.Some? then (calls, Err(fault.value))
    else
      var calls' := UpdateMatching(calls, vapiCallId, u, now);
      var hits := Filter(calls', IsCall(vapiCallId));
      UpdateKeepsCount(calls, vapiCallId, u, now);
      if |hits| == 1 then
        SingleHitIsTheRow(calls', vapiCallId);
        (calls', Ok(hits[0]))
      else (calls, Err(SingleRowError))
  }

  /** When one row has the call id, the filtered result is that row. */
  lemma SingleHitIsTheRow(calls: seq<CallRow>, vapiCallId: string)
    requires Count(calls, IsCall(vapiCallId)) == 1
    ensures forall j :: 0 <= j < |calls| && calls[j].vapiCallId == vapiCallId ==>
              Filter(calls, IsCall(vapiCallId))[0] == calls[j]
  {
    forall j | 0 <= j < |calls| && calls[j].vapiCallId == vapiCallId
      ensures Filter(calls, IsCall(vapiCallId))[0] == calls[j]
    {
      FilterRank(calls, IsCall(vapiCallId), j);
    }
  }

  lemma {:induction false} UpdateKeepsCount(calls: seq<CallRow>, vapiCallId: string, u: CallUpdate,
                                            now: Instant)
    ensures Count(UpdateMatching(calls, vapiCallId, u, now), IsCall(vapiCallId))
            == Count(calls, IsCall(vapiCallId))
  {
    if |calls| > 0 {
      assert UpdateMatching(calls, vapiCallId, u, now)[1..] == UpdateMatching(calls[1..], vapiCallId, u, now);
      UpdateKeepsCount(calls[1..], vapiCallId, u, now);
    }
  }

  /** `getCall`: `single()` gives the row only when exactly one row has the call id. */
  function GetCall(calls: seq<CallRow>, vapiCallId: string, fault: Option<string>)
    : (r: Result<CallRow>)
    ensures fault.Some? ==> r == Err(fault.value)
    ensures fault.None? ==> (r.Ok? <==> Count(calls, IsCall(vapiCallId)) == 1)
    ensures r.Ok? ==> r.value in calls && r.value.vapiCallId == vapiCallId
  {
    if fault.Some? then Err(fault.value)
    else
      var hits := Filter(calls, IsCall(vapiCallId));
      if |hits| == 1 then Ok(hits[0]) else Err(SingleRowError)
  }

  // ---------------------------------------------------------------- metrics

  /** The counters of `getMetrics`; cost and average duration are exact reals here. */
  datatype Metrics = Metrics(totalCalls: nat, successfulCalls: nat, totalCost: real,
                             avgDuration: real, bookings: nat, cancellations: nat)

  /** The window `getMetrics` looks at when no start is given: the last seven days. */
  const DefaultMetricsDays: int := 7

  function SumCost(calls: seq<CallRow>): real {
    if |calls| == 0 then 0.0 else calls[0].cost + SumCost(calls[1..])
  }

  function SumDuration(calls: seq<CallRow>): (r: real)
    ensures (forall j :: 0 <= j < |calls| ==> calls[j].duration >= 0.0) ==> r >= 0.0
  {
    if |calls| == 0 then 0.0 else calls[0].duration + SumDuration(calls[1..])
  }

  function IsConfirmed(a: Appointment): bool { a.status == "confirmed" }
  function IsCancelled(a: Appointment): bool { a.status == "cancelled" }
  function IsSuccess(c: CallRow): bool { c.success }

  /** The start of the metrics window: `since`, or seven days before now. */
  function WindowStart(since: Option<Instant>, now: Instant): (from: Instant)
    ensures since.Some? ==> from == since.value
    ensures since.None? ==> now - from == DefaultMetricsDays * MsPerDay
  {
    since.GetOr(now - DefaultMetricsDays * MsPerDay)
  }

  function CallSince(from: Instant): CallRow -> bool { (c: CallRow) => c.createdAt >= from }
  function ApptSince(from: Instant): Appointment -> bool { (a: Appointment) => a.createdAt >= from }

  /** Reference counts and sums over a whole table, each row tested on its own. */
  function SuccessSince(from: Instant): CallRow -> bool {
    (c: CallRow) => c.createdAt >= from && c.success
  }
  function ConfirmedSince(from: Instant): Appointment -> bool {
    (a: Appointment) => a.createdAt >= from && a.status == "confirmed"
  }
  function CancelledSince(from: Instant): Appointment -> bool {
    (a: Appointment) => a.createdAt >= from && a.status == "cancelled"
  }

  function CostSince(calls: seq<CallRow>, from: Instant): real {
    if |calls| == 0 then 0.0
    else (if calls[0].createdAt >= from then calls[0].cost else 0.0) + CostSince(calls[1..], from)
  }

  function DurationSince(calls: seq<CallRow>, from: Instant): real {
    if |calls| == 0 then 0.0
    else (if calls[0].createdAt >= from then calls[0].duration else 0.0)
         + DurationSince(calls[1..], from)
  }

  /**
   * `getMetrics(since)`: each counter is taken over the rows created at or
   * after the window start, and the average duration is the windowed total
   * over the windowed call count.
   */
  function GetMetrics(calls: seq<CallRow>, appts: seq<Appointment>, since: Option<Instant>,
                      now: Instant): (m: Metrics)
    ensures var from := WindowStart(since, now);
      && m.totalCalls == Count(calls, CallSince(from))
      && m.successfulCalls == Count(calls, SuccessSince(from))
      && m.totalCost == CostSince(calls, from)
      && (m.totalCalls > 0 ==> m.avgDuration == DurationSince(calls, from) / (m.totalCalls as real))
      && m.bookings == Count(appts, ConfirmedSince(from))
      && m.cancellations == Count(appts, CancelledSince(from))
    ensures m.successfulCalls <= m.totalCalls
    ensures m.bookings + m.cancellations <= |appts|
    ensures m.totalCalls == 0 ==> m.avgDuration == 0.0
    ensures m.totalCalls <= |calls|
    ensures (forall j :: 0 <= j < |calls| ==> calls[j].duration >= 0.0) ==> m.avgDuration >= 0.0
  {
    var from := WindowStart(since, now);
    var inCalls := Filter(calls, CallSince(from));
    var inAppts := Filter(appts, ApptSince(from));
    WindowedCounts(calls, appts, from);
    Metrics(|inCalls|, Count(inCalls, IsSuccess), SumCost(inCalls),
            if |inCalls| > 0 then SumDuration(inCalls) / (|inCalls| as real) else 0.0,
            Count(inAppts, IsConfirmed), Count(inAppts, IsCancelled))
  }

  /** What the counters of `getMetrics` amount to over the windowed rows. */
  lemma WindowedCounts(calls: seq<CallRow>, appts: seq<Appointment>, from: Instant)
    ensures var inCalls := Filter(calls, CallSince(from));
            var inAppts := Filter(appts, ApptSince(from));
            && |inCalls| == Count(calls, CallSince(from)) && |inCalls| <= |calls|
            && Count(inCalls, IsSuccess) == Count(calls, SuccessSince(from))
            && Count(inCalls, IsSuccess) <= |inCalls|
            && SumCost(inCalls) == CostSince(calls, from)
            && SumDuration(inCalls) == DurationSince(calls, from)
            && Count(inAppts, IsConfirmed) == Count(appts, ConfirmedSince(from))
            && Count(inAppts, IsCancelled) == Count(appts, CancelledSince(from))
            && Count(inAppts, IsConfirmed) + Count(inAppts, IsCancelled) <= |appts|
            && ((forall j :: 0 <= j < |calls| ==> calls[j].duration >= 0.0) ==>
                  |inCalls| == 0 || SumDuration(inCalls) / (|inCalls| as real) >= 0.0)
  {
    var inCalls := Filter(calls, CallSince(from));
    var inAppts := Filter(appts, ApptSince(from));
    CountDisjoint(inAppts, IsConfirmed, IsCancelled);
    CountMonotone(inCalls, IsSuccess, (c: CallRow) => true);
    AllCount(inCalls);
    CountOfFilter(calls, CallSince(from), IsSuccess, SuccessSince(from));
    CountOfFilter(appts, ApptSince(from), IsConfirmed, ConfirmedSince(from));
    CountOfFilter(appts, ApptSince(from), IsCancelled, CancelledSince(from));
    SumsOfFilter(calls, from);
    if (forall j :: 0 <= j < |calls| ==> calls[j].duration >= 0.0) && |inCalls| > 0 {
      assert forall j :: 0 <= j < |inCalls| ==> inCalls[j] in calls;
      NonNegativeQuotient(SumDuration(inCalls), |inCalls| as real);
    }
  }

  lemma NonNegativeQuotient(a: real, n: real)
    requires a >= 0.0 && n > 0.0
    ensures a / n >= 0.0
  {
  }

  /** Counting `q` among the rows that pass `p` is counting the rows that pass both. */
  lemma {:induction false} CountOfFilter<T>(s: seq<T>, p: T -> bool, q: T -> bool, both: T -> bool)
    requires forall x :: both(x) == (p(x) && q(x))
    ensures Count(Filter(s, p), q) == Count(s, both)
  {
    if |s| > 0 {
      CountOfFilter(s[1..], p, q, both);
      var rest := Filter(s[1..], p);
      if p(s[0]) {
        assert ([s[0]] + rest)[1..] == rest;
      } else {
        assert [] + rest == rest;
      }
    }
  }

  /** The cost and duration sums of the windowed rows are the reference sums. */
  lemma {:induction false} SumsOfFilter(calls: seq<CallRow>, from: Instant)
    ensures SumCost(Filter(calls, CallSince(from))) == CostSince(calls, from)
    ensures SumDuration(Filter(calls, CallSince(from))) == DurationSince(calls, from)
  {
    if |calls| > 0 {
      SumsOfFilter(calls[1..], from);
      var rest := Filter(calls[1..], CallSince(from));
      if calls[0].createdAt >= from {
        assert ([calls[0]] + rest)[1..] == rest;
      } else {
        assert [] + rest == rest;
      }
    }
  }

  lemma {:induction false} AllCount<T>(s: seq<T>)
    ensures Count(s, (x: T) => true) == |s|
  {
    if |s| > 0 {
      AllCount(s[1..]);
    }
  }
}

=== FILE: database_properties.dfy ===
/** Properties of the database operations that relate successive calls or the whole table. */
module DatabaseProperties {
  import opened Common
  import opened Slots
  import opened Database

  /**
   * With a working lookup, the upsert keeps the table at one lead per phone:
   * it either touches the phone's row or appends a row for an unseen phone.
   */
  lemma UpsertKeepsOnePerPhone(leads: seq<Lead>, input: LeadInput, now: Instant, newId: nat)
    requires OnePerPhone(leads)
    ensures var r := UpsertLead(leads, input, now, newId, true, None);
            r.Ok? && OnePerPhone(r.value.0)
  {
    var r := UpsertLead(leads, input, now, newId, true, None);
    var leads' := r.value.0;
    if FirstWithPhone(leads, input.phone).Some? {
      assert forall j :: 0 <= j < |leads| ==> leads'[j].phone == leads[j].phone;
    } else {
      assert leads' == leads + [r.value.1.lead];
      forall i, j | 0 <= i < j < |leads'|
        ensures leads'[i].phone != leads'[j].phone
      {
        if j == |leads| {
          assert leads'[j].phone == input.phone;
          assert leads'[i] == leads[i];
        }
      }
    }
  }

  /**
   * The upsert is read-then-write and ignores a failed read: when the lookup
   * fails for a phone that is already stored, a second row with that phone is
   * inserted.
   */
  lemma FailedLookupDuplicatesPhone(row: Lead, input: LeadInput, now: Instant, newId: nat)
    requires input.phone == row.phone
    ensures var r := UpsertLead([row], input, now, newId, false, None);
            && r.Ok? && r.value.1.isNew
            && |r.value.0| == 2
            && !OnePerPhone(r.value.0)
  {
    var r := UpsertLead([row], input, now, newId, false, None);
    assert r.value.0[0].phone == r.value.0[1].phone;
  }

  /**
   * Upserting the same data twice: the count goes up by two, and the second
   * call changes no filled field, because the first already filled what it could.
   */
  lemma UpsertTwiceIsStable(leads: seq<Lead>, input: LeadInput, t1: Instant, t2: Instant, id1: nat, id2: nat)
    requires FirstWithPhone(leads, input.phone).Some?
    ensures var first := UpsertLead(leads, input, t1, id1, true, None);
            var k := FirstWithPhone(leads, input.phone).value;
            && first.Ok?
            && var second := UpsertLead(first.value.0, input, t2, id2, true, None);
            && second.Ok?
            && second.value.0[k].contactCount == leads[k].contactCount + 2
            && second.value.0[k].email == first.value.0[k].email
            && second.value.0[k].name == first.value.0[k].name
            && second.value.0[k].practiceName == first.value.0[k].practiceName
  {
    var k := FirstWithPhone(leads, input.phone).value;
    var first := UpsertLead(leads, input, t1, id1, true, None);
    var mid := first.value.0;
    assert forall j :: 0 <= j < |leads| ==> mid[j].phone == leads[j].phone;
    assert FirstWithPhone(mid, input.phone) == Some(k) by {
      FirstWithPhoneSamePhones(leads, mid, input.phone);
    }
  }

  /** The first match depends only on the phones of the rows. */
  lemma {:induction false} FirstWithPhoneSamePhones(a: seq<Lead>, b: seq<Lead>, phone: string)
    requires |a| == |b|
    requires forall j :: 0 <= j < |a| ==> a[j].phone == b[j].phone
    ensures FirstWithPhone(a, phone) == FirstWithPhone(b, phone)
  {
    if |a| > 0 {
      FirstWithPhoneSamePhones(a[1..], b[1..], phone);
    }
  }

  /** A stored email is never overwritten by a different supplied one; the contact still counts. */
  lemma StoredEmailIsKept(id: nat, phone: string, now: Instant, newId: nat)
    ensures var row := Lead(id, phone, Some("a@x.com"), None, None, None, None, "vapi_call",
                            "contacted", 1, 0, 0);
            var input := LeadInput(phone, Some("b@y.com"), Some("Ann"), None, None, None, None);
            var r := UpsertLead([row], input, now, newId, true, None);
            && r.Ok? && !r.value.1.isNew
            && r.value.1.lead.email == Some("a@x.com")
            && r.value.1.lead.name == Some("Ann")
            && r.value.1.lead.contactCount == 2
  {
  }

  /** A first contact creates the lead; the next one for the same phone finds it. */
  lemma NewThenExisting(input: LeadInput, t1: Instant, t2: Instant, id1: nat, id2: nat)
    ensures var first := UpsertLead([], input, t1, id1, true, None);
            && first.Ok? && first.value.1.isNew && first.value.1.lead.contactCount == 1
            && var second := UpsertLead(first.value.0, input, t2, id2, true, None);
            && second.Ok? && !second.value.1.isNew && second.value.1.lead.contactCount == 2
            && |second.value.0| == 1
  {
    var first := UpsertLead([], input, t1, id1, true, None);
    assert FirstWithPhone(first.value.0, input.phone) == Some(0);
  }

  /**
   * With one lead per phone, a lookup after an upsert finds exactly the row
   * the upsert handed back.
   */
  lemma UpsertThenLookup(leads: seq<Lead>, input: LeadInput, now: Instant, newId: nat)
    requires OnePerPhone(leads)
    ensures var r := UpsertLead(leads, input, now, newId, true, None);
            r.Ok? && GetLeadByPhone(r.value.0, input.phone, None) == Ok(Some(r.value.1.lead))
  {
    var r := UpsertLead(leads, input, now, newId, true, None);
    UpsertKeepsOnePerPhone(leads, input, now, newId);
    var leads' := r.value.0;
    var k := if FirstWithPhone(leads, input.phone).Some? then FirstWithPhone(leads, input.phone).value
             else |leads|;
    assert leads'[k] == r.value.1.lead && leads'[k].phone == input.phone;
    var found := GetLeadByPhone(leads', input.phone, None);
    var i :| 0 <= i < |leads'| && leads'[i] == found.value.value;
    assert i == k;
  }

  /** Upserting for a phone that is not stored adds no row that a lookup for another phone sees. */
  lemma LookupIgnoresOtherPhones(leads: seq<Lead>, input: LeadInput, now: Instant, newId: nat,
                                 phone: string)
    requires phone != input.phone
    requires FirstWithPhone(leads, input.phone).None?
    ensures var r := UpsertLead(leads, input, now, newId, true, None);
            r.Ok? && GetLeadByPhone(r.value.0, phone, None) == GetLeadByPhone(leads, phone, None)
  {
    var r := UpsertLead(leads, input, now, newId, true, None);
    CountAppend(leads, r.value.1.lead, HasPhone(phone));
    FilterAppend(leads, r.value.1.lead, HasPhone(phone));
  }

  /**
   * A call inserted under a fresh call id reads back as the inserted row. A
   * second insert under the same id makes the call unreadable: `single()`
   * then finds two rows.
   */
  lemma {:induction false} CreateThenGet(calls: seq<CallRow>, input: CallInput, now: Instant, newId: nat)
    ensures var r := CreateCall(calls, input, now, newId, None);
            && r.Ok?
            && (GetCall(r.value.0, input.vapiCallId, None).Ok?
                <==> Count(calls, IsCall(input.vapiCallId)) == 0)
            && (Count(calls, IsCall(input.vapiCallId)) == 0 ==>
                  GetCall(r.value.0, input.vapiCallId, None) == Ok(r.value.1))
  {
    var r := CreateCall(calls, input, now, newId, None);
    var p := IsCall(input.vapiCallId);
    CountAppend(calls, r.value.1, p);
    FilterAppend(calls, r.value.1, p);
    assert p(r.value.1);
    if Count(calls, p) == 0 {
      assert Filter(calls, p) == [];
      assert Filter(r.value.0, p) == [r.value.1];
    }
  }

  /**
   * An update of the one row with a call id hands back a row carrying every
   * field sent, and reading the call afterwards gives that same row.
   */
  lemma UpdateThenGet(calls: seq<CallRow>, vapiCallId: string, u: CallUpdate, now: Instant)
    requires Count(calls, IsCall(vapiCallId)) == 1
    ensures var (calls', res) := UpdateCall(calls, vapiCallId, u, now, None);
            && res.Ok? && Carries(res.value, u) && res.value.updatedAt == Some(now)
            && GetCall(calls', vapiCallId, None) == res
  {
    var r := UpdateCall(calls, vapiCallId, u, now, None);
    UpdateKeepsCount(calls, vapiCallId, u, now);
    assert r.1 == Ok(Filter(r.0, IsCall(vapiCallId))[0]);
    assert GetCall(r.0, vapiCallId, None) == r.1;
    var j :| 0 <= j < |r.0| && r.0[j] == r.1.value;
    assert calls[j].vapiCallId == vapiCallId;
    assert r.1.value == ApplyUpdate(calls[j], u, now);
  }

  /** An update for a call id that no row has is an error and changes nothing. */
  lemma UpdateOfUnknownCallChangesNothing(calls: seq<CallRow>, vapiCallId: string, u: CallUpdate,
                                          now: Instant)
    requires forall j :: 0 <= j < |calls| ==> calls[j].vapiCallId != vapiCallId
    ensures UpdateCall(calls, vapiCallId, u, now, None) == (calls, Err(SingleRowError))
  {
    CountNone(calls, IsCall(vapiCallId));
  }

  /**
   * A confirmed appointment created inside the window adds one booking and
   * nothing else; one created before the window changes no counter.
   */
  lemma AppointmentInWindowCounted(calls: seq<CallRow>, appts: seq<Appointment>,
                                   since: Option<Instant>, now: Instant, a: Appointment)
    ensures var before := GetMetrics(calls, appts, since, now);
            var after := GetMetrics(calls, appts + [a], since, now);
            a.createdAt >= WindowStart(since, now) && a.status == "confirmed" ==>
              after == before.(bookings := before.bookings + 1)
    ensures a.createdAt < WindowStart(since, now) ==>
              GetMetrics(calls, appts + [a], since, now) == GetMetrics(calls, appts, since, now)
  {
    var from := WindowStart(since, now);
    CountAppend(appts, a, ConfirmedSince(from));
    CountAppend(appts, a, CancelledSince(from));
  }
}

=== FILE: mailcheck.dfy ===
/**
 * The reply triage of the mail checker: which inbox messages count as replies
 * to the campaign, the keyword classification of a reply, and the summary
 * counts. Fetching the inbox over the mail provider's API is left out.
 */
module MailCheck {
  import opened Common
  import opened Text

  datatype Sentiment = Positive | Question | Negative | Neutral
  datatype Priority = High | Medium | Low
  datatype Analysis = Analysis(sentiment: Sentiment, priority: Priority)

  /** The fields of an inbox message the checker reads; `None` is `undefined`. */
  datatype Mail = Mail(from: Option<string>, subject: Option<string>, content: Option<string>)

  const PositiveWords: seq<string> := ["interested", "book", "demo", "call", "meeting"]
  const QuestionWords: seq<string> := ["?", "how", "what", "price", "cost"]
  const NegativeWords: seq<string> := ["unsubscribe", "remove", "not interested", "spam"]

  /** `text` contains at least one of `words`. */
  function MentionsAny(text: string, words: seq<string>): (b: bool)
    ensures b <==> exists i :: 0 <= i < |words| && Contains(text, words[i])
  {
    if |words| == 0 then false
    else
      var rest := MentionsAny(text, words[1..]);
      assert forall i :: 1 <= i < |words| ==> words[i] == words[1..][i - 1];
      Contains(text, words[0]) || rest
  }

  /** The priority that goes with each sentiment. */
  function PriorityOf(s: Sentiment): (p: Priority)
    ensures p == High <==> s == Positive
    ensures p == Medium <==> s == Question
  {
    match s
    case Positive => High
    case Question => Medium
    case _ => Low
  }

  /** The text the classifier reads: subject, a space, content, in lower case. */
  function ReplyText(subject: Option<string>, content: string): (t: string)
    ensures |t| == |JsText(subject)| + 1 + |content|
  {
    Lower(JsText(subject) + " " + content)
  }

  /**
   * The keyword rules of `analyzeReply` as written: the first of the positive,
   * question and negative groups that occurs in the text decides; with none,
   * the reply is neutral.
   */
  function ClassifyAsWritten(text: string): (a: Analysis)
    ensures a.priority == PriorityOf(a.sentiment)
    ensures a.sentiment == Positive <==> MentionsAny(text, PositiveWords)
    ensures a.sentiment == Question <==>
      !MentionsAny(text, PositiveWords) && MentionsAny(text, QuestionWords)
    ensures a.sentiment == Negative <==>
      !MentionsAny(text, PositiveWords) && !MentionsAny(text, QuestionWords)
      && MentionsAny(text, NegativeWords)
  {
    if MentionsAny(text, PositiveWords) then Analysis(Positive, High)
    else if MentionsAny(text, QuestionWords) then Analysis(Question, Medium)
    else if MentionsAny(text, NegativeWords) then Analysis(Negative, Low)
    else Analysis(Neutral, Low)
  }

  /**
   * The keyword rules with the refusal checked first: "not interested" marks
   * a reply negative; every other text is classified as before.
   */
  function Classify(text: string): (a: Analysis)
    ensures a.priority == PriorityOf(a.sentiment)
    ensures Contains(text, "not interested") ==> a == Analysis(Negative, Low)
    ensures !Contains(text, "not interested") ==> a == ClassifyAsWritten(text)
  {
    if Contains(text, "not interested") then Analysis(Negative, Low)
    else ClassifyAsWritten(text)
  }

  /** `analyzeReply` as written, on the lower-cased subject and content. */
  function AnalyzeReplyAsWritten(subject: Option<string>, content: string): (a: Analysis)
    ensures a.sentiment == Positive <==> MentionsAny(ReplyText(subject, content), PositiveWords)
    ensures a.sentiment == Neutral ==> !MentionsAny(ReplyText(subject, content), NegativeWords)
  {
    ClassifyAsWritten(ReplyText(subject, content))
  }

  /** `analyzeReply` with the refusal rule corrected. */
  function AnalyzeReply(subject: Option<string>, content: string): (a: Analysis)
    ensures Contains(ReplyText(subject, content), "not interested") ==> a.sentiment == Negative
    ensures a.sentiment == Positive ==> MentionsAny(ReplyText(subject, content), PositiveWords)
  {
    Classify(ReplyText(subject, content))
  }

  /** The reply filter: a subject starting with `Re:`, or a sender mentioning a dentist or dental. */
  predicate IsReply(m: Mail) {
    || (m.subject.Some? && StartsWith(m.subject.value, "Re:"))
    || (m.from.Some? && (Contains(m.from.value, "dentist") || Contains(m.from.value, "dental")))
  }

  function ReplyFilter(): Mail -> bool {
    (m: Mail) => IsReply(m)
  }

  /**
   * Which keyword rules a classification applies: the script's `analyzeReply`
   * as written, or the one with the refusal rule corrected.
   */
  datatype Reading = AsWritten | Corrected

  /** `analyzeReply` under a reading. */
  function Analyze(reading: Reading, subject: Option<string>, content: string): (a: Analysis)
    ensures a.priority == PriorityOf(a.sentiment)
  {
    match reading
    case AsWritten => AnalyzeReplyAsWritten(subject, content)
    case Corrected => AnalyzeReply(subject, content)
  }

  /** The summary counts classify by subject alone, with empty content. */
  function HasSentiment(reading: Reading, s: Sentiment): Mail -> bool {
    (m: Mail) => Analyze(reading, m.subject, "").sentiment == s
  }

  /** The detail view classifies by subject and `content || ''`. */
  function DetailAnalysis(reading: Reading, m: Mail): Analysis {
    Analyze(reading, m.subject, if Truthy(m.content) then m.content.value else "")
  }

  datatype Summary = Summary(total: nat, replies: nat, positive: nat, questions: nat,
                             negative: nat, neutral: int)

  /** Under either reading, the four sentiments split any list of messages. */
  lemma {:induction false} SentimentCountsPartition(reading: Reading, s: seq<Mail>)
    ensures Count(s, HasSentiment(reading, Positive)) + Count(s, HasSentiment(reading, Question))
          + Count(s, HasSentiment(reading, Negative)) + Count(s, HasSentiment(reading, Neutral))
         == |s|
  {
    if |s| > 0 {
      SentimentCountsPartition(reading, s[1..]);
      OneSentimentEach(reading, s[0]);
    }
  }

  /** Each message has exactly one of the four sentiments. */
  lemma OneSentimentEach(reading: Reading, m: Mail)
    ensures (if HasSentiment(reading, Positive)(m) then 1 else 0)
          + (if HasSentiment(reading, Question)(m) then 1 else 0)
          + (if HasSentiment(reading, Negative)(m) then 1 else 0)
          + (if HasSentiment(reading, Neutral)(m) then 1 else 0) == 1
  {
    var a := Analyze(reading, m.subject, "").sentiment;
    assert HasSentiment(reading, Positive)(m) <==> a == Positive;
    assert HasSentiment(reading, Question)(m) <==> a == Question;
    assert HasSentiment(reading, Negative)(m) <==> a == Negative;
    assert HasSentiment(reading, Neutral)(m) <==> a == Neutral;
  }

  /**
   * The summary: inbox size, replies, and the replies per sentiment, neutral
   * being whatever is left; it is never negative and counts the neutral replies.
   * The script computes it with the reading `AsWritten`.
   */
  function Summarize(reading: Reading, inbox: seq<Mail>): (r: Summary)
    ensures r.total == |inbox|
    ensures r.replies == Count(inbox, ReplyFilter()) && r.replies <= r.total
    ensures r.positive + r.questions + r.negative <= r.replies
    ensures r.neutral >= 0
    ensures r.neutral == Count(Filter(inbox, ReplyFilter()), HasSentiment(reading, Neutral))
  {
    var replies := Filter(inbox, ReplyFilter());
    var positive := Count(replies, HasSentiment(reading, Positive));
    var questions := Count(replies, HasSentiment(reading, Question));
    var negative := Count(replies, HasSentiment(reading, Negative));
    SentimentCountsPartition(reading, replies);
    Summary(|inbox|, |replies|, positive, questions, negative,
            |replies| - positive - questions - negative)
  }

  /** How many replies the detail view lists. */
  const DetailCap: nat := 5

  /**
   * The messages the detail view lists: the first five replies, in inbox
   * order. A reply with fewer than five replies before it is listed at the
   * position that count gives.
   */
  function DetailedReplies(inbox: seq<Mail>): (r: seq<Mail>)
    ensures |r| == if Count(inbox, ReplyFilter()) < DetailCap then Count(inbox, ReplyFilter())
                   else DetailCap
    ensures forall i :: 0 <= i < |r| ==> IsReply(r[i]) && r[i] in inbox
    ensures forall j :: 0 <= j < |inbox| && IsReply(inbox[j])
                        && Count(inbox[..j], ReplyFilter()) < DetailCap ==>
              Count(inbox[..j], ReplyFilter()) < |r| && r[Count(inbox[..j], ReplyFilter())] == inbox[j]
  {
    var replies := Filter(inbox, ReplyFilter());
    forall j | 0 <= j < |inbox| && IsReply(inbox[j])
      ensures Count(inbox[..j], ReplyFilter()) < |replies|
      ensures replies[Count(inbox[..j], ReplyFilter())] == inbox[j]
    {
      FilterRank(inbox, ReplyFilter(), j);
    }
    Take(replies, DetailCap)
  }
}

=== FILE: mailcheck_properties.dfy ===
/** Properties of the reply classifier: the refusal it misreads, case, and the summary's reading. */
module MailCheckProperties {
  import opened Common
  import opened Text
  import opened MailCheck

  /**
   * As written, a reply saying "not interested" also contains "interested",
   * a positive keyword checked first, so it is classified positive with high
   * priority and the negative rule for it never fires.
   */
  lemma NotInterestedReadsPositiveAsWritten(subject: Option<string>, content: string)
    requires Contains(ReplyText(subject, content), "not interested")
    ensures AnalyzeReplyAsWritten(subject, content) == Analysis(Positive, High)
  {
    var text := ReplyText(subject, content);
    RefusalEndsInKeyword();
    ContainsTail(text, "not ", PositiveWords[0]);
  }

  /** The refusal phrase is "not " followed by the first positive keyword. */
  lemma RefusalEndsInKeyword()
    ensures "not interested" == "not " + PositiveWords[0]
  {
  }

  /** A concrete refusal the written classifier marks as a hot lead. */
  lemma ConcreteRefusal()
    ensures AnalyzeReplyAsWritten(Some("Re: Not interested"), "").sentiment == Positive
    ensures AnalyzeReply(Some("Re: Not interested"), "").sentiment == Negative
  {
    var text := ReplyText(Some("Re: Not interested"), "");
    assert text[4..18] == "not interested";
    assert OccursAt(text, "not interested", 4);
    ContainsIffOccurs(text, "not interested");
    NotInterestedReadsPositiveAsWritten(Some("Re: Not interested"), "");
  }

  /** The corrected classifier differs from the written one exactly on refusals. */
  lemma CorrectionChangesOnlyRefusals(subject: Option<string>, content: string)
    ensures AnalyzeReply(subject, content) != AnalyzeReplyAsWritten(subject, content)
        <==> Contains(ReplyText(subject, content), "not interested")
  {
    if Contains(ReplyText(subject, content), "not interested") {
      NotInterestedReadsPositiveAsWritten(subject, content);
    }
  }

  lemma LowerCharIdempotent(c: char)
    ensures LowerChar(LowerChar(c)) == LowerChar(c)
  {
  }

  /** Lower-casing is idempotent. */
  lemma LowerIdempotent(a: string)
    ensures Lower(Lower(a)) == Lower(a)
  {
    var once, twice := Lower(a), Lower(Lower(a));
    forall i | 0 <= i < |a|
      ensures twice[i] == once[i]
    {
      LowerCharIdempotent(a[i]);
    }
  }

  /** Lower-casing works character by character, so it distributes over concatenation. */
  lemma LowerConcat(a: string, b: string)
    ensures Lower(a + b) == Lower(a) + Lower(b)
  {
    var whole, parts := Lower(a + b), Lower(a) + Lower(b);
    assert |whole| == |parts|;
    forall i | 0 <= i < |whole|
      ensures whole[i] == parts[i]
    {
      if i < |a| {
        assert (a + b)[i] == a[i];
      } else {
        assert (a + b)[i] == b[i - |a|];
      }
    }
  }

  /** Either classifier ignores case: lower-casing subject and content first changes nothing. */
  lemma AnalysisIgnoresCase(reading: Reading, subject: string, content: string)
    ensures Analyze(reading, Some(Lower(subject)), Lower(content)) == Analyze(reading, Some(subject), content)
  {
    ReplyTextIgnoresCase(subject, content);
  }

  /** The text the classifier reads is the same after lower-casing its inputs. */
  lemma ReplyTextIgnoresCase(subject: string, content: string)
    ensures ReplyText(Some(Lower(subject)), Lower(content)) == ReplyText(Some(subject), content)
  {
    var ls, lc := Lower(subject), Lower(content);
    LowerConcat(ls + " ", lc);
    LowerConcat(ls, " ");
    LowerConcat(subject + " ", content);
    LowerConcat(subject, " ");
    LowerIdempotent(subject);
    LowerIdempotent(content);
    assert Lower(" ") == " ";
  }

  /**
   * A question mark makes a question of any reply without a positive keyword,
   * under either reading.
   */
  lemma QuestionMarkAsks(reading: Reading, subject: Option<string>, content: string, k: nat)
    requires k < |content| && content[k] == '?'
    requires !MentionsAny(ReplyText(subject, content), PositiveWords)
    ensures Analyze(reading, subject, content) == Analysis(Question, Medium)
  {
    var text := ReplyText(subject, content);
    var at := |JsText(subject)| + 1 + k;
    assert text[at] == LowerChar('?') == '?';
    assert OccursAt(text, "?", at);
    ContainsIffOccurs(text, "?");
    assert Contains(text, QuestionWords[0]);
    RefusalEndsInKeyword();
    if Contains(text, "not interested") {
      ContainsTail(text, "not ", PositiveWords[0]);
    }
  }

  /** A word longer than the text, or whose first letter the text lacks, does not occur in it. */
  lemma Absent(text: string, w: string)
    requires |w| > |text| || (|w| > 0 && w[0] !in text)
    ensures !Contains(text, w)
  {
    ContainsIffOccurs(text, w);
    forall i
      ensures !OccursAt(text, w, i)
    {
      if |w| <= |text| && 0 <= i <= |text| - |w| {
        assert text[i..i + |w|][0] == text[i];
        assert text[i] in text;
      }
    }
  }

  /** None of `words` occurs in `text`, by `Absent` for each. */
  lemma AbsentAll(text: string, words: seq<string>)
    requires forall i :: 0 <= i < |words| ==>
               |words[i]| > |text| || (|words[i]| > 0 && words[i][0] !in text)
    ensures !MentionsAny(text, words)
  {
    forall i | 0 <= i < |words|
      ensures !Contains(text, words[i])
    {
      Absent(text, words[i]);
    }
  }

  /** The detail view reads "re: demo" for a `Re:` reply whose body is "demo": positive. */
  lemma DemoBodyIsPositive(reading: Reading)
    ensures Analyze(reading, Some("Re:"), "demo").sentiment == Positive
  {
    var text := ReplyText(Some("Re:"), "demo");
    assert text == "re: demo";
    assert OccursAt(text, "demo", 4);
    ContainsIffOccurs(text, "demo");
    assert Contains(text, PositiveWords[2]);
    Absent(text, "not interested");
  }

  /** The summary reads only "re: " for the same reply: neutral. */
  lemma BareSubjectIsNeutral(reading: Reading)
    ensures Analyze(reading, Some("Re:"), "").sentiment == Neutral
  {
    var text := ReplyText(Some("Re:"), "");
    assert text == "re: " by {
      assert text[0] == LowerChar('R') == 'r';
      assert text[1] == 'e' && text[2] == ':' && text[3] == ' ';
    }
    NoKeywordIn(text);
  }

  /** No keyword of any group occurs in "re: ". */
  lemma NoKeywordIn(text: string)
    requires text == "re: "
    ensures !MentionsAny(text, PositiveWords) && !MentionsAny(text, QuestionWords)
    ensures !MentionsAny(text, NegativeWords) && !Contains(text, "not interested")
  {
    AbsentAll(text, PositiveWords);
    AbsentAll(text, QuestionWords);
    AbsentAll(text, NegativeWords);
    Absent(text, "not interested");
  }

  /**
   * The summary reads the subject only, the detail view the content too: a
   * reply whose subject is `Re:` and whose body asks for a demo is positive in
   * the detail and neutral in the summary.
   */
  lemma SummaryCanDisagreeWithDetail()
    ensures var m := Mail(None, Some("Re:"), Some("demo"));
            && IsReply(m)
            && DetailAnalysis(AsWritten, m).sentiment == Positive
            && HasSentiment(AsWritten, Neutral)(m)
  {
    DemoBodyIsPositive(AsWritten);
    BareSubjectIsNeutral(AsWritten);
    assert StartsWith("Re:", "Re:");
  }

  /** The summary's test for a refusal: its subject alone contains "not interested". */
  function SubjectRefuses(): Mail -> bool {
    (m: Mail) => Contains(ReplyText(m.subject, ""), "not interested")
  }

  /**
   * The summary the script prints and the corrected one differ only by the
   * refusals: each is counted positive as written and negative once corrected;
   * the questions and the neutral replies are the same.
   */
  lemma SummaryCorrectionMovesRefusals(inbox: seq<Mail>)
    ensures var written := Summarize(AsWritten, inbox);
            var corrected := Summarize(Corrected, inbox);
            var refusals := Count(Filter(inbox, ReplyFilter()), SubjectRefuses());
            && corrected.total == written.total && corrected.replies == written.replies
            && corrected.positive + refusals == written.positive
            && corrected.negative == written.negative + refusals
            && corrected.questions == written.questions
            && corrected.neutral == written.neutral
  {
    RefusalsMove(Filter(inbox, ReplyFilter()));
  }

  /** The per-sentiment counts of the two readings over any list of messages. */
  lemma RefusalsMove(s: seq<Mail>)
    ensures Count(s, HasSentiment(Corrected, Positive)) + Count(s, SubjectRefuses())
         == Count(s, HasSentiment(AsWritten, Positive))
    ensures Count(s, HasSentiment(Corrected, Negative))
         == Count(s, HasSentiment(AsWritten, Negative)) + Count(s, SubjectRefuses())
    ensures Count(s, HasSentiment(Corrected, Question)) == Count(s, HasSentiment(AsWritten, Question))
  {
    forall m | m in s {
      RefusalMovesOne(m);
    }
    CountSplit(s, HasSentiment(Corrected, Positive), SubjectRefuses(), HasSentiment(AsWritten, Positive));
    CountSplit(s, HasSentiment(AsWritten, Negative), SubjectRefuses(), HasSentiment(Corrected, Negative));
    CountAgree(s, HasSentiment(Corrected, Question), HasSentiment(AsWritten, Question));
  }

  /** One message's share of `RefusalsMove`. */
  lemma RefusalMovesOne(m: Mail)
    ensures (if HasSentiment(Corrected, Positive)(m) then 1 else 0) + (if SubjectRefuses()(m) then 1 else 0)
         == (if HasSentiment(AsWritten, Positive)(m) then 1 else 0)
    ensures (if HasSentiment(Corrected, Negative)(m) then 1 else 0)
         == (if HasSentiment(AsWritten, Negative)(m) then 1 else 0) + (if SubjectRefuses()(m) then 1 else 0)
    ensures HasSentiment(Corrected, Question)(m) == HasSentiment(AsWritten, Question)(m)
  {
    if SubjectRefuses()(m) {
      NotInterestedReadsPositiveAsWritten(m.subject, "");
    }
  }
}

=== FILE: slot_properties.dfy ===
/** Properties of the slot generator that relate several calls or whole scans. */
module SlotProperties {
  import opened Common
  import opened Slots

  /**
   * A whole number of hours away from an instant at minute zero is again at
   * minute zero, with the same seconds and milliseconds.
   */
  lemma OnTheHourStep(a: Instant, t: Instant)
    requires Minute(a) == 0
    requires (t - a) % MsPerHour == 0
    ensures Minute(t) == 0 && t % MsPerMinute == a % MsPerMinute
  {
    var k := (t - a) / MsPerHour;
    DivMod(a, a / MsPerHour, a % MsPerHour, MsPerHour);
    DivMod(t, a / MsPerHour + k, a % MsPerHour, MsPerHour);
    DivMod(a, a / MsPerMinute, a % MsPerMinute, MsPerMinute);
    DivMod(t, a / MsPerMinute + 60 * k, a % MsPerMinute, MsPerMinute);
  }

  /** At a whole hour, the lunch test rejects exactly the hours 12 and 13. */
  lemma LunchOnTheHour(t: Instant)
    requires Minute(t) == 0
    ensures IsLunch(t) <==> Hour(t) == 12 || Hour(t) == 13
  {
  }

  /**
   * Every returned slot begins at minute zero with the anchor's seconds, so
   * none begins in hour 12 or hour 13: the lunch rule removes both of those
   * hours entirely.
   */
  lemma SlotsOnTheHour(start: Instant, end: Instant, busy: seq<Interval>, duration: int, i: int)
    requires 0 <= i < |Generate(start, end, busy, duration)|
    ensures Minute(Generate(start, end, busy, duration)[i]) == 0
    ensures Generate(start, end, busy, duration)[i] % MsPerMinute == Anchor(start) % MsPerMinute
    ensures Hour(Generate(start, end, busy, duration)[i]) != 12
    ensures Hour(Generate(start, end, busy, duration)[i]) != 13
  {
    var r := Generate(start, end, busy, duration);
    OnTheHourStep(Anchor(start), r[i]);
    LunchOnTheHour(r[i]);
  }

  /** The uncapped scan misses no offerable instant on its hourly grid. */
  lemma {:induction false} OfferableIsAccepted(cur: Instant, scanEnd: Instant, start: Instant,
                                                duration: int, busy: seq<Interval>, c: Instant)
    requires cur <= c < scanEnd
    requires (c - cur) % MsPerHour == 0
    requires Offerable(c, start, duration, busy)
    ensures c in AcceptedFrom(cur, scanEnd, start, duration, busy)
    decreases scanEnd - cur
  {
    if c != cur {
      assert (c - (cur + MsPerHour)) % MsPerHour == 0;
      OfferableIsAccepted(cur + MsPerHour, scanEnd, start, duration, busy, c);
    }
  }

  /**
   * Nothing is skipped: an offerable instant on the hourly grid from the anchor
   * and before the scan end is returned, unless the cap of ten was reached by
   * earlier slots.
   */
  lemma NoOfferableSkipped(start: Instant, end: Instant, busy: seq<Interval>, duration: int, c: Instant)
    requires Anchor(start) <= c < ScanEnd(end)
    requires (c - Anchor(start)) % MsPerHour == 0
    requires Offerable(c, start, duration, busy)
    ensures var r := Generate(start, end, busy, duration);
            (|r| < GeneratorCap || c <= r[|r| - 1]) ==> c in r
  {
    var all := AcceptedFrom(Anchor(start), ScanEnd(end), start, duration, busy);
    var r := Generate(start, end, busy, duration);
    OfferableIsAccepted(Anchor(start), ScanEnd(end), start, duration, busy, c);
    var k :| 0 <= k < |all| && all[k] == c;
    if |all| > GeneratorCap && c <= r[|r| - 1] {
      assert k < GeneratorCap;
      assert r[k] == c;
    }
  }

  /** More busy periods never create a slot: the scan only loses candidates. */
  lemma {:induction false} MoreBusyFewerSlots(cur: Instant, scanEnd: Instant, start: Instant,
                                               duration: int, busy: seq<Interval>,
                                               extra: seq<Interval>, t: Instant)
    requires t in AcceptedFrom(cur, scanEnd, start, duration, busy + extra)
    ensures t in AcceptedFrom(cur, scanEnd, start, duration, busy)
    decreases scanEnd - cur
  {
    var wider := AcceptedFrom(cur, scanEnd, start, duration, busy + extra);
    var k :| 0 <= k < |wider| && wider[k] == t;
    assert Offerable(t, start, duration, busy + extra);
    assert !IsBusy(t, duration, busy) by {
      forall b | b in busy
        ensures !Overlaps(t, duration, b)
      {
        assert b in busy + extra;
      }
    }
    assert (t - cur) % MsPerHour == 0 && cur <= t < scanEnd;
    OfferableIsAccepted(cur, scanEnd, start, duration, busy, t);
  }

  /** A busy period covering the whole scan leaves nothing to offer: an empty list, not an error. */
  lemma FullyBusyWindowIsEmpty(start: Instant, end: Instant, busy: seq<Interval>, duration: int, b: Interval)
    requires b in busy
    requires duration > 0
    requires b.start <= Anchor(start) && ScanEnd(end) <= b.end
    ensures Generate(start, end, busy, duration) == []
  {
    var r := Generate(start, end, busy, duration);
    if |r| > 0 {
      assert Overlaps(r[0], duration, b);
      assert false;
    }
  }

  /**
   * The first six are offered the same way: an offerable instant on the grid
   * is among them unless six earlier slots were found.
   */
  lemma NoOfferableWithheld(start: Instant, end: Instant, busy: seq<Interval>, duration: int,
                            c: Instant)
    requires Anchor(start) <= c < ScanEnd(end)
    requires (c - Anchor(start)) % MsPerHour == 0
    requires Offerable(c, start, duration, busy)
    ensures var r := CheckAvailability(start, end, busy, duration);
            (|r| < OfferCap || c <= r[|r| - 1]) ==> c in r
  {
    var g := Generate(start, end, busy, duration);
    var r := CheckAvailability(start, end, busy, duration);
    if |r| < OfferCap {
      NoOfferableSkipped(start, end, busy, duration, c);
      assert r == g;
    } else if c <= r[|r| - 1] {
      assert |g| >= OfferCap && r[OfferCap - 1] == g[OfferCap - 1];
      NoOfferableSkipped(start, end, busy, duration, c);
      var k :| 0 <= k < |g| && g[k] == c;
      assert r[k] == c;
    }
  }

  /**
   * Extra busy periods never add a slot, cap included: whatever is generated
   * with more busy periods is offerable without them, and is generated without
   * them too unless ten earlier slots fill the list first.
   */
  lemma ExtraBusyNeverAddsSlot(start: Instant, end: Instant, busy: seq<Interval>,
                               extra: seq<Interval>, duration: int, t: Instant)
    requires t in Generate(start, end, busy + extra, duration)
    ensures Offerable(t, start, duration, busy)
    ensures var r := Generate(start, end, busy, duration);
            (|r| < GeneratorCap || t <= r[|r| - 1]) ==> t in r
  {
    var wider := Generate(start, end, busy + extra, duration);
    var k :| 0 <= k < |wider| && wider[k] == t;
    assert Offerable(t, start, duration, busy + extra);
    assert !IsBusy(t, duration, busy) by {
      forall b | b in busy
        ensures !Overlaps(t, duration, b)
      {
        assert b in busy + extra;
      }
    }
    NoOfferableSkipped(start, end, busy, duration, t);
  }

  /** 09:00 on the Monday of the epoch week. */
  const MondayNine: Instant := OpeningHour * MsPerHour

  /**
   * A window opening at exactly Monday 09:00 with a free calendar offers 10:00
   * first: 09:00 itself is not later than the start plus five minutes.
   */
  lemma WindowAtNineOffersTenFirst()
    ensures var r := Generate(MondayNine, MondayNine + 4 * MsPerDay, [], 30);
            |r| > 0 && r[0] == MondayNine + MsPerHour
  {
    var scanEnd := ScanEnd(MondayNine + 4 * MsPerDay);
    assert Anchor(MondayNine) == MondayNine;
    assert !Offerable(MondayNine, MondayNine, 30, []);
    assert Offerable(MondayNine + MsPerHour, MondayNine, 30, []);
    ScanHead(MondayNine, scanEnd, MondayNine, 30, []);
    ScanHead(MondayNine + MsPerHour, scanEnd, MondayNine, 30, []);
  }

  /**
   * A busy period of exactly 10:00-11:00 removes the 10:00 candidate but keeps
   * 09:00 and 11:00: a slot ending when a busy period starts, or starting when
   * one ends, does not conflict.
   */
  lemma BusyHourRemovesOnlyThatHour()
    ensures var busy := [Interval(MondayNine + MsPerHour, MondayNine + 2 * MsPerHour)];
            var r := Generate(MondayNine - MsPerHour, MondayNine + MsPerDay, busy, 60);
            |r| >= 2 && r[0] == MondayNine && r[1] == MondayNine + 2 * MsPerHour
  {
    var busy := [Interval(MondayNine + MsPerHour, MondayNine + 2 * MsPerHour)];
    var start := MondayNine - MsPerHour;
    var scanEnd := ScanEnd(MondayNine + MsPerDay);
    assert scanEnd == MsPerDay + ClosingHour * MsPerHour;
    assert Anchor(start) == MondayNine;
    assert !Overlaps(MondayNine, 60, busy[0]);
    assert Offerable(MondayNine, start, 60, busy);
    assert Overlaps(MondayNine + MsPerHour, 60, busy[0]);
    assert !Overlaps(MondayNine + 2 * MsPerHour, 60, busy[0]);
    assert Offerable(MondayNine + 2 * MsPerHour, start, 60, busy);
    ScanHead(MondayNine, scanEnd, start, 60, busy);
    ScanHead(MondayNine + MsPerHour, scanEnd, start, 60, busy);
    ScanHead(MondayNine + 2 * MsPerHour, scanEnd, start, 60, busy);
  }

  /** The scan from `cur` is `cur` itself when it is offerable, then the scan an hour later. */
  lemma ScanHead(cur: Instant, scanEnd: Instant, start: Instant, duration: int, busy: seq<Interval>)
    requires cur < scanEnd
    ensures AcceptedFrom(cur, scanEnd, start, duration, busy)
         == (if Offerable(cur, start, duration, busy) then [cur] else [])
            + AcceptedFrom(cur + MsPerHour, scanEnd, start, duration, busy)
  {
  }

  /**
   * There is no end-of-day cutoff: a window opening on Monday at 19:30 offers
   * 20:00 that evening first.
   */
  lemma EveningSlotOffered()
    ensures var start := 19 * MsPerHour + 30 * MsPerMinute;
            var r := Generate(start, start + MsPerDay, [], 30);
            |r| > 0 && r[0] == 20 * MsPerHour && Hour(r[0]) == 20 && Weekday(r[0]) == 1
  {
    var start := 19 * MsPerHour + 30 * MsPerMinute;
    var scanEnd := ScanEnd(start + MsPerDay);
    assert Anchor(start) == 20 * MsPerHour;
    assert Offerable(20 * MsPerHour, start, 30, []);
    ScanHead(20 * MsPerHour, scanEnd, start, 30, []);
  }

  /**
   * A scan whose candidates all conflict with one busy period, except the last
   * one before the scan end, `hours` hours on, yields that last candidate alone.
   */
  lemma {:induction false} OnlyLastOffered(cur: Instant, scanEnd: Instant, start: Instant,
                                            duration: int, busy: seq<Interval>, b: Interval,
                                            hours: nat)
    requires b in busy && b.start < cur + duration * MsPerMinute
    requires cur + hours * MsPerHour <= b.end
    requires cur + hours * MsPerHour < scanEnd <= cur + (hours + 1) * MsPerHour
    requires Offerable(cur + hours * MsPerHour, start, duration, busy)
    ensures AcceptedFrom(cur, scanEnd, start, duration, busy) == [cur + hours * MsPerHour]
    decreases hours
  {
    ScanHead(cur, scanEnd, start, duration, busy);
    if hours == 0 {
      assert AcceptedFrom(cur + MsPerHour, scanEnd, start, duration, busy) == [];
    } else {
      assert Overlaps(cur, duration, b);
      OnlyLastOffered(cur + MsPerHour, scanEnd, start, duration, busy, b, hours - 1);
    }
  }

  /**
   * The seconds of a request move the last day's scan end past 17:00. Busy
   * from Monday 09:00 to Tuesday 17:00, a one-day request made on Monday at
   * 08:30:15 is offered Tuesday 17:00:00, because the scan runs to 17:00:15;
   * the same request at 08:30:00 is offered nothing.
   */
  lemma EndSecondsReachFiveOClock()
    ensures var busy := [Interval(MondayNine, MsPerDay + ClosingHour * MsPerHour)];
            var start := 8 * MsPerHour + 30 * MsPerMinute + 15_000;
            Generate(start, start + MsPerDay, busy, 30) == [MsPerDay + ClosingHour * MsPerHour]
    ensures var busy := [Interval(MondayNine, MsPerDay + ClosingHour * MsPerHour)];
            var start := 8 * MsPerHour + 30 * MsPerMinute;
            Generate(start, start + MsPerDay, busy, 30) == []
  {
    var b := Interval(MondayNine, MsPerDay + ClosingHour * MsPerHour);
    var start := 8 * MsPerHour + 30 * MsPerMinute + 15_000;
    assert Anchor(start) == MondayNine;
    assert ScanEnd(start + MsPerDay) == MsPerDay + ClosingHour * MsPerHour + 15_000;
    assert Offerable(MsPerDay + ClosingHour * MsPerHour, start, 30, [b]);
    OnlyLastOffered(MondayNine, MsPerDay + ClosingHour * MsPerHour + 15_000, start, 30, [b], b, 32);
    var start' := 8 * MsPerHour + 30 * MsPerMinute;
    assert Anchor(start') == MondayNine;
    assert ScanEnd(start' + MsPerDay) == MsPerDay + ClosingHour * MsPerHour;
    FullyBusyWindowIsEmpty(start', start' + MsPerDay, [b], 30, b);
  }

  /**
   * After 09:00 the anchor keeps the request's seconds, so a slot can overrun
   * a busy period that starts on the half hour. Busy from 11:30 to 12:00, a
   * request at Monday 10:30:15 is offered 14:00:15 first: 11:00:15 ends at
   * 11:30:15, and 12:00:15 and 13:00:15 are lunch.
   */
  lemma CarriedSecondsMeetBusyStart()
    ensures var busy := [Interval(11 * MsPerHour + 30 * MsPerMinute, 12 * MsPerHour)];
            var start := 10 * MsPerHour + 30 * MsPerMinute + 15_000;
            var r := Generate(start, start + MsPerDay, busy, 30);
            |r| > 0 && r[0] == 14 * MsPerHour + 15_000
  {
    var busy := [Interval(11 * MsPerHour + 30 * MsPerMinute, 12 * MsPerHour)];
    var start := 10 * MsPerHour + 30 * MsPerMinute + 15_000;
    var first := 11 * MsPerHour + 15_000;
    assert Anchor(start) == first;
    var scanEnd := ScanEnd(start + MsPerDay);
    assert first + 3 * MsPerHour < scanEnd;
    assert !Offerable(first, start, 30, busy) by {
      assert Overlaps(first, 30, busy[0]);
    }
    assert !Offerable(first + MsPerHour, start, 30, busy) by {
      assert IsLunch(first + MsPerHour);
    }
    assert !Offerable(first + 2 * MsPerHour, start, 30, busy) by {
      assert IsLunch(first + 2 * MsPerHour);
    }
    assert Offerable(first + 3 * MsPerHour, start, 30, busy);
    ThreeSkipped(first, scanEnd, start, 30, busy);
  }

  /** Three rejected candidates and then an offerable one: the scan's first slot is the fourth. */
  lemma ThreeSkipped(cur: Instant, scanEnd: Instant, start: Instant, duration: int, busy: seq<Interval>)
    requires cur + 3 * MsPerHour < scanEnd
    requires !Offerable(cur, start, duration, busy)
    requires !Offerable(cur + MsPerHour, start, duration, busy)
    requires !Offerable(cur + 2 * MsPerHour, start, duration, busy)
    requires Offerable(cur + 3 * MsPerHour, start, duration, busy)
    ensures var r := AcceptedFrom(cur, scanEnd, start, duration, busy);
            |r| > 0 && r[0] == cur + 3 * MsPerHour
  {
    ScanHead(cur, scanEnd, start, duration, busy);
    ScanHead(cur + MsPerHour, scanEnd, start, duration, busy);
    ScanHead(cur + 2 * MsPerHour, scanEnd, start, duration, busy);
    ScanHead(cur + 3 * MsPerHour, scanEnd, start, duration, busy);
  }

  /** The same request made on a whole minute, 10:30:00, is offered 11:00 first. */
  lemma WholeMinuteMeetsBusyStartCleanly()
    ensures var busy := [Interval(11 * MsPerHour + 30 * MsPerMinute, 12 * MsPerHour)];
            var start := 10 * MsPerHour + 30 * MsPerMinute;
            var r := Generate(start, start + MsPerDay, busy, 30);
            |r| > 0 && r[0] == 11 * MsPerHour
  {
    var busy := [Interval(11 * MsPerHour + 30 * MsPerMinute, 12 * MsPerHour)];
    var start := 10 * MsPerHour + 30 * MsPerMinute;
    assert Anchor(start) == 11 * MsPerHour;
    assert Offerable(11 * MsPerHour, start, 30, busy);
    ScanHead(11 * MsPerHour, ScanEnd(start + MsPerDay), start, 30, busy);
  }
}

=== FILE: slots.dfy ===
/**
 * The availability slot generator of the calendar service
 * (`_generateAvailableSlots` and the cap applied by `checkAvailability`).
 *
 * Instants are milliseconds counted from a Monday 00:00:00.000 in the
 * calendar's single time zone, so day, weekday, hour, minute and the seconds
 * a luxon DateTime carries are all plain integer arithmetic.
 */
module Slots {
  import opened Common

  /** Milliseconds since a Monday 00:00:00.000, in the one time zone of the model. */
  type Instant = int

  const MsPerMinute: int := 60_000
  const MsPerHour: int := 3_600_000
  const MsPerDay: int := 86_400_000

  /** Hour 09:00, where each day's scan is anchored. */
  const OpeningHour: int := 9

  /** Hour 17:00, the end of the last scanned day. */
  const ClosingHour: int := 17

  /** A candidate must start strictly later than this many minutes after the window start. */
  const LeadMinutes: int := 5

  /** The generator stops after this many slots. */
  const GeneratorCap: nat := 10

  /** `checkAvailability` hands back only this many. */
  const OfferCap: nat := 6

  /** ISO weekday as luxon numbers it: 1 is Monday, 7 is Sunday. */
  function Weekday(t: Instant): (d: int)
    ensures 1 <= d <= 7
  {
    (t / MsPerDay) % 7 + 1
  }

  function Hour(t: Instant): (h: int)
    ensures 0 <= h < 24
  {
    (t % MsPerDay) / MsPerHour
  }

  function Minute(t: Instant): (m: int)
    ensures 0 <= m < 60
  {
    (t % MsPerHour) / MsPerMinute
  }

  /** Midnight of the day containing `t`. */
  function DayStart(t: Instant): (d: Instant)
    ensures d <= t < d + MsPerDay
    ensures d % MsPerDay == 0
  {
    t - t % MsPerDay
  }

  /** Euclidean division has one quotient and remainder. */
  lemma DivMod(t: int, q: int, r: int, n: int)
    requires n > 0 && 0 <= r < n && t == q * n + r
    ensures t / n == q && t % n == r
  {
    var q', r' := t / n, t % n;
    assert q * n - q' * n == r' - r;
    if q > q' {
      Scale(q - q', n);
    } else if q < q' {
      Scale(q' - q, n);
    }
  }

  lemma Scale(k: int, n: int)
    requires k >= 1 && n > 0
    ensures k * n >= n
  {
  }

  /** An instant assembled from a day, an hour, a minute and a sub-minute rest reads them back. */
  lemma ClockOf(day: int, h: int, m: int, r: int)
    requires 0 <= h < 24 && 0 <= m < 60 && 0 <= r < MsPerMinute
    ensures var t := day * MsPerDay + h * MsPerHour + m * MsPerMinute + r;
            && t / MsPerDay == day && DayStart(t) == day * MsPerDay
            && Hour(t) == h && Minute(t) == m && t % MsPerMinute == r
  {
    var t := day * MsPerDay + h * MsPerHour + m * MsPerMinute + r;
    DivMod(t, day, h * MsPerHour + m * MsPerMinute + r, MsPerDay);
    DivMod(h * MsPerHour + m * MsPerMinute + r, h, m * MsPerMinute + r, MsPerHour);
    DivMod(t, day * 24 + h, m * MsPerMinute + r, MsPerHour);
    DivMod(m * MsPerMinute + r, m, r, MsPerMinute);
    DivMod(t, (day * 24 + h) * 60 + m, r, MsPerMinute);
  }

  /** Every instant is its day, hour, minute and sub-minute rest put together. */
  lemma Decompose(t: Instant)
    ensures t == (t / MsPerDay) * MsPerDay + Hour(t) * MsPerHour + Minute(t) * MsPerMinute
                 + t % MsPerMinute
  {
    var d, h, m := t / MsPerDay, Hour(t), Minute(t);
    var y := (t % MsPerDay) % MsPerHour;
    var r := y % MsPerMinute;
    assert t % MsPerDay == h * MsPerHour + y;
    assert t == (d * 24 + h) * MsPerHour + y by {
      assert t == d * MsPerDay + t % MsPerDay;
    }
    DivMod(t, d * 24 + h, y, MsPerHour);
    assert y == m * MsPerMinute + r;
    assert t == d * MsPerDay + h * MsPerHour + m * MsPerMinute + r;
    assert d * MsPerDay + h * MsPerHour + m * MsPerMinute == (d * 1440 + h * 60 + m) * MsPerMinute;
    DivMod(t, d * 1440 + h * 60 + m, r, MsPerMinute);
  }

  /** A busy period reported by the calendar's free/busy query. */
  datatype Interval = Interval(start: Instant, end: Instant)

  /**
   * The half-open conflict test `current < busyEnd && slotEnd > busyStart`,
   * where the slot ends `duration` minutes after it starts.
   */
  predicate Overlaps(slotStart: Instant, duration: int, busy: Interval) {
    slotStart < busy.end && slotStart + duration * MsPerMinute > busy.start
  }

  /** `busyTimes.some(...)`: the candidate conflicts with some busy period. */
  predicate IsBusy(slotStart: Instant, duration: int, busy: seq<Interval>) {
    exists b :: b in busy && Overlaps(slotStart, duration, b)
  }

  /** Lunch as the source tests it: hour 12, or exactly 13:00. */
  predicate IsLunch(t: Instant) {
    Hour(t) == 12 || (Hour(t) == 13 && Minute(t) == 0)
  }

  /** Every test a scanned instant must pass to be offered. */
  predicate Offerable(t: Instant, start: Instant, duration: int, busy: seq<Interval>) {
    && Weekday(t) != 6 && Weekday(t) != 7
    && !IsLunch(t)
    && !IsBusy(t, duration, busy)
    && t > start + LeadMinutes * MsPerMinute
  }

  /**
   * Where the scan begins. When 09:00 on the start day is not earlier than the
   * start, that is 09:00:00.000 (luxon's `set` clears seconds and
   * milliseconds there). Otherwise it is an hour after the start with only the
   * minute cleared, so the start's seconds and milliseconds are carried along.
   */
  function Anchor(start: Instant): (a: Instant)
    ensures Minute(a) == 0
    ensures DayStart(start) + OpeningHour * MsPerHour >= start ==>
              DayStart(a) == DayStart(start) && Hour(a) == OpeningHour && a % MsPerMinute == 0
    ensures DayStart(start) + OpeningHour * MsPerHour < start ==>
              start < a <= start + MsPerHour && a % MsPerMinute == start % MsPerMinute
  {
    var nine := DayStart(start) + OpeningHour * MsPerHour;
    if nine < start then
      var later := start + MsPerHour;
      Decompose(later);
      ClockOf(later / MsPerDay, Hour(later), 0, later % MsPerMinute);
      DivMod(start, start / MsPerMinute, start % MsPerMinute, MsPerMinute);
      DivMod(later, start / MsPerMinute + 60, start % MsPerMinute, MsPerMinute);
      later - Minute(later) * MsPerMinute
    else
      ClockOf(start / MsPerDay, OpeningHour, 0, 0);
      nine
  }

  /**
   * The scan runs while the candidate is before 17:00 on the window's last
   * day; `set({ hour: 17, minute: 0 })` keeps the end's seconds and milliseconds.
   */
  function ScanEnd(end: Instant): (e: Instant)
    ensures DayStart(e) == DayStart(end)
    ensures Hour(e) == ClosingHour && Minute(e) == 0
    ensures e % MsPerMinute == end % MsPerMinute
  {
    ClockOf(end / MsPerDay, ClosingHour, 0, end % MsPerMinute);
    DayStart(end) + ClosingHour * MsPerHour + end % MsPerMinute
  }

  /**
   * Reference definition of the scan without its cap: every offerable instant
   * among `cur`, an hour later, two hours later, ... that is before `scanEnd`, in order.
   */
  function AcceptedFrom(cur: Instant, scanEnd: Instant, start: Instant, duration: int,
                        busy: seq<Interval>): (r: seq<Instant>)
    ensures forall i :: 0 <= i < |r| ==> Offerable(r[i], start, duration, busy)
    ensures forall i :: 0 <= i < |r| ==> cur <= r[i] < scanEnd && (r[i] - cur) % MsPerHour == 0
    ensures forall i, j :: 0 <= i < j < |r| ==> r[i] < r[j]
    decreases scanEnd - cur
  {
    if cur >= scanEnd then []
    else
      var rest := AcceptedFrom(cur + MsPerHour, scanEnd, start, duration, busy);
      ShiftedGrid(rest, cur);
      (if Offerable(cur, start, duration, busy) then [cur] else []) + rest
  }

  /** Instants on the hourly grid from `cur` plus an hour are on the grid from `cur`. */
  lemma ShiftedGrid(s: seq<Instant>, cur: Instant)
    requires forall i :: 0 <= i < |s| ==> (s[i] - (cur + MsPerHour)) % MsPerHour == 0
    ensures forall i :: 0 <= i < |s| ==> (s[i] - cur) % MsPerHour == 0
  {
    forall i | 0 <= i < |s|
      ensures (s[i] - cur) % MsPerHour == 0
    {
      var k := (s[i] - (cur + MsPerHour)) / MsPerHour;
      DivMod(s[i] - cur, k + 1, 0, MsPerHour);
    }
  }

  /** The slots `_generateAvailableSlots` returns for a window and its busy periods. */
  function Generate(start: Instant, end: Instant, busy: seq<Interval>, duration: int): (r: seq<Instant>)
    ensures |r| <= GeneratorCap
    ensures forall i :: 0 <= i < |r| ==> Weekday(r[i]) != 6 && Weekday(r[i]) != 7
    ensures forall i :: 0 <= i < |r| ==> Hour(r[i]) != 12 && !(Hour(r[i]) == 13 && Minute(r[i]) == 0)
    ensures forall i, b :: 0 <= i < |r| && b in busy ==> !Overlaps(r[i], duration, b)
    ensures forall i :: 0 <= i < |r| ==> r[i] > start + LeadMinutes * MsPerMinute
    ensures forall i :: 0 <= i < |r| ==> Anchor(start) <= r[i] < ScanEnd(end)
    ensures forall i :: 0 <= i < |r| ==> (r[i] - Anchor(start)) % MsPerHour == 0
    ensures forall i, j :: 0 <= i < j < |r| ==> r[i] < r[j]
  {
    Take(AcceptedFrom(Anchor(start), ScanEnd(end), start, duration, busy), GeneratorCap)
  }

  /** A slice of ten taken from ten known slots and anything after them is those ten. */
  lemma TakeOfFullPrefix(slots: seq<Instant>, rest: seq<Instant>)
    requires |slots| == GeneratorCap
    ensures Take(slots + rest, GeneratorCap) == slots
  {
  }

  /** One step of the scan: the candidate joins the slots when it is offerable. */
  lemma ScanStep(slots: seq<Instant>, cur: Instant, scanEnd: Instant, start: Instant, duration: int,
                 busy: seq<Interval>)
    requires cur < scanEnd
    ensures slots + AcceptedFrom(cur, scanEnd, start, duration, busy)
         == (if Offerable(cur, start, duration, busy) then slots + [cur] else slots)
            + AcceptedFrom(cur + MsPerHour, scanEnd, start, duration, busy)
  {
    var rest := AcceptedFrom(cur + MsPerHour, scanEnd, start, duration, busy);
    if Offerable(cur, start, duration, busy) {
      assert slots + ([cur] + rest) == (slots + [cur]) + rest;
    } else {
      assert [] + rest == rest;
    }
  }

  /** The loop body's tests, in the source's order: weekend, lunch, busy, lead time. */
  method TestCandidate(current: Instant, start: Instant, duration: int, busy: seq<Interval>)
    returns (accept: bool)
    ensures accept == Offerable(current, start, duration, busy)
  {
    var dayOfWeek := Weekday(current);
    accept := false;
    if dayOfWeek != 6 && dayOfWeek != 7 {
      var isLunch := Hour(current) == 12 || (Hour(current) == 13 && Minute(current) == 0);
      if !isLunch {
        var isBusy := IsBusy(current, duration, busy);
        accept := !isBusy && current > start + LeadMinutes * MsPerMinute;
      }
    }
  }

  /**
   * The hourly scan as the source writes it: a loop that stops at the scan end
   * or at the tenth slot, yielding exactly the reference result.
   */
  method GenerateAvailableSlots(start: Instant, end: Instant, busy: seq<Interval>, duration: int)
    returns (slots: seq<Instant>)
    ensures slots == Generate(start, end, busy, duration)
  {
    slots := [];
    var current := Anchor(start);
    var endTime := ScanEnd(end);
    ghost var target := Take(AcceptedFrom(current, endTime, start, duration, busy), GeneratorCap);
    while current < endTime && |slots| < GeneratorCap
      invariant |slots| <= GeneratorCap
      invariant Take(slots + AcceptedFrom(current, endTime, start, duration, busy), GeneratorCap) == target
      decreases endTime - current
    {
      var accept := TestCandidate(current, start, duration, busy);
      ScanStep(slots, current, endTime, start, duration, busy);
      if accept {
        slots := slots + [current];
      }
      current := current + MsPerHour;
    }
    if |slots| == GeneratorCap {
      TakeOfFullPrefix(slots, AcceptedFrom(current, endTime, start, duration, busy));
    }
  }

  /** `checkAvailability`: the generator's slots, cut to the first six. */
  function CheckAvailability(start: Instant, end: Instant, busy: seq<Interval>, duration: int)
    : (r: seq<Instant>)
    ensures var g := Generate(start, end, busy, duration);
            |r| == if |g| < OfferCap then |g| else OfferCap
    ensures forall i :: 0 <= i < |r| ==> r[i] == Generate(start, end, busy, duration)[i]
  {
    Take(Generate(start, end, busy, duration), OfferCap)
  }
}

=== FILE: text.dfy ===
/** String operations of the JavaScript runtime that the modelled code relies on. */
module Text {

  predicate IsDigit(c: char) {
    '0' <= c <= '9'
  }

  /** `s.startsWith(p)`. */
  predicate StartsWith(s: string, p: string) {
    |p| <= |s| && s[..|p|] == p
  }

  lemma StartsWithConcat(a: string, b: string)
    ensures StartsWith(a + b, a)
  {
    assert (a + b)[..|a|] == a;
  }

  /** `s.includes(needle)`, scanning from the left. */
  predicate Contains(s: string, needle: string)
    decreases |s|
  {
    StartsWith(s, needle) || (|s| > 0 && Contains(s[1..], needle))
  }

  /** `needle` occurs in `s` starting at index `i`. */
  predicate OccursAt(s: string, needle: string, i: int) {
    0 <= i <= |s| - |needle| && s[i..i + |needle|] == needle
  }

  /** `includes` holds exactly when the needle occurs at some index. */
  lemma {:induction false} ContainsIffOccurs(s: string, needle: string)
    ensures Contains(s, needle) <==> exists i :: OccursAt(s, needle, i)
    decreases |s|
  {
    if Contains(s, needle) {
      if StartsWith(s, needle) {
        assert OccursAt(s, needle, 0);
      } else {
        ContainsIffOccurs(s[1..], needle);
        var i :| OccursAt(s[1..], needle, i);
        assert s[i + 1..i + 1 + |needle|] == s[1..][i..i + |needle|];
        assert OccursAt(s, needle, i + 1);
      }
    }
    if exists i :: OccursAt(s, needle, i) {
      var i :| OccursAt(s, needle, i);
      if i == 0 {
        assert s[..|needle|] == needle;
      } else {
        assert s[1..][i - 1..i - 1 + |needle|] == s[i..i + |needle|];
        assert OccursAt(s[1..], needle, i - 1);
        ContainsIffOccurs(s[1..], needle);
      }
    }
  }

  /** A text that contains `a + b` contains `b`: "not interested" contains "interested". */
  lemma ContainsTail(s: string, a: string, b: string)
    requires Contains(s, a + b)
    ensures Contains(s, b)
  {
    ContainsIffOccurs(s, a + b);
    var i :| OccursAt(s, a + b, i);
    assert s[i + |a|..i + |a| + |b|] == s[i..i + |a + b|][|a|..];
    assert OccursAt(s, b, i + |a|);
    ContainsIffOccurs(s, b);
  }

  /** JavaScript `toLowerCase` restricted to the ASCII letters. */
  function LowerChar(c: char): (r: char)
    ensures 'A' <= c <= 'Z' ==> 'a' <= r <= 'z' && r as int == c as int + 32
    ensures !('A' <= c <= 'Z') ==> r == c
  {
    if 'A' <= c <= 'Z' then (c as int + 32) as char else c
  }

  function Lower(s: string): (r: string)
    ensures |r| == |s|
    ensures forall i :: 0 <= i < |s| ==> r[i] == LowerChar(s[i])
  {
    if |s| == 0 then [] else [LowerChar(s[0])] + Lower(s[1..])
  }

  /** `raw.replace(/\D/g, '')`: the ASCII digits of `s`, in order. */
  function Digits(s: string): (r: string)
    ensures |r| <= |s|
    ensures forall i :: 0 <= i < |r| ==> IsDigit(r[i])
  {
    if |s| == 0 then []
    else if IsDigit(s[0]) then [s[0]] + Digits(s[1..])
    else Digits(s[1..])
  }

  lemma {:induction false} DigitsOfConcat(a: string, b: string)
    ensures Digits(a + b) == Digits(a) + Digits(b)
    decreases |a|
  {
    if |a| == 0 {
      assert a + b == b;
    } else {
      assert (a + b)[1..] == a[1..] + b;
      DigitsOfConcat(a[1..], b);
    }
  }

  lemma {:induction false} DigitsOfDigitString(s: string)
    requires forall i :: 0 <= i < |s| ==> IsDigit(s[i])
    ensures Digits(s) == s
    decreases |s|
  {
    if |s| > 0 {
      DigitsOfDigitString(s[1..]);
    }
  }

  function DigitChar(d: nat): (c: char)
    requires d < 10
    ensures IsDigit(c)
  {
    ('0' as int + d) as char
  }

  function DigitValue(c: char): (d: nat)
    requires IsDigit(c)
    ensures d < 10
  {
    c as int - '0' as int
  }

  /** Decimal rendering of a natural number, as `String(n)` prints it. */
  function ShowNat(n: nat): (r: string)
    ensures |r| > 0
    ensures forall i :: 0 <= i < |r| ==> IsDigit(r[i])
  {
    if n < 10 then [DigitChar(n)] else ShowNat(n / 10) + [DigitChar(n % 10)]
  }

  /** Decimal rendering of an integer, with a leading `-` when negative. */
  function ShowInt(n: int): (r: string)
    ensures n >= 0 ==> r == ShowNat(n)
    ensures n < 0 ==> r == "-" + ShowNat(-n)
  {
    if n < 0 then "-" + ShowNat(-n) else ShowNat(n)
  }

  /** The value of a string of decimal digits. */
  function ParseNat(s: string): nat
    requires forall i :: 0 <= i < |s| ==> IsDigit(s[i])
  {
    if |s| == 0 then 0 else 10 * ParseNat(s[..|s| - 1]) + DigitValue(s[|s| - 1])
  }

  /** Rendering a number in decimal loses nothing: it reads back as the same number. */
  lemma {:induction false} ParseShowNat(n: nat)
    ensures ParseNat(ShowNat(n)) == n
  {
    if n >= 10 {
      var s := ShowNat(n);
      assert s[..|s| - 1] == ShowNat(n / 10);
      ParseShowNat(n / 10);
    }
  }

  /** Different numbers never render alike. */
  lemma ShowNatInjective(m: nat, n: nat)
    requires ShowNat(m) == ShowNat(n)
    ensures m == n
  {
    ParseShowNat(m);
    ParseShowNat(n);
  }

  /** `xs.join(sep)`. */
  function Join(xs: seq<string>, sep: string): (r: string)
    ensures |xs| == 0 ==> r == ""
    ensures |xs| == 1 ==> r == xs[0]
  {
    if |xs| == 0 then ""
    else if |xs| == 1 then xs[0]
    else xs[0] + sep + Join(xs[1..], sep)
  }
}

=== FILE: validation.dfy ===
/**
 * The two format checks `handleFunctionCall` applies before booking, written
 * as predicates in place of the regular expressions `^\+44[1-9]\d{9}$` and
 * `^[^\s@]+@[^\s@]+\.[^\s@]+$`.
 */
module Validation {
  import opened Common
  import opened Text

  /** Length of an accepted UK number: `+44`, then ten digits. */
  const UkPhoneLength: int := 13

  /** `^\+44[1-9]\d{9}$`: `+44`, a digit 1-9, nine more digits, nothing else. */
  predicate ValidUkPhone(s: string) {
    && |s| == UkPhoneLength
    && s[0] == '+' && s[1] == '4' && s[2] == '4'
    && '1' <= s[3] <= '9'
    && forall i :: 4 <= i < |s| ==> IsDigit(s[i])
  }

  /**
   * The check read as the expression's pieces: the literal `+44`, one
   * character of `[1-9]`, then exactly nine characters of `\d`, and nothing more.
   */
  lemma UkPhoneMatchesPattern(s: string)
    ensures ValidUkPhone(s) <==>
            exists d: char, rest: string :: && s == "+44" + [d] + rest
                                            && '1' <= d <= '9' && |rest| == 9
                                            && forall c :: c in rest ==> IsDigit(c)
  {
    if ValidUkPhone(s) {
      var rest := s[4..];
      assert s == "+44" + [s[3]] + rest;
      assert forall c :: c in rest ==> IsDigit(c);
    }
    if exists d: char, rest: string :: && s == "+44" + [d] + rest
                                       && '1' <= d <= '9' && |rest| == 9
                                       && forall c :: c in rest ==> IsDigit(c) {
      var d: char, rest: string :| && s == "+44" + [d] + rest
                                   && '1' <= d <= '9' && |rest| == 9
                                   && forall c :: c in rest ==> IsDigit(c);
      assert forall i :: 4 <= i < |s| ==> s[i] == rest[i - 4];
    }
  }

  /**
   * Numbers a caller might well give that the check refuses: a trunk zero
   * after `+44`, the national form, spaces, and one digit too many.
   */
  lemma CommonPhoneFormsRejected()
    ensures !ValidUkPhone("+4407700900123")
    ensures !ValidUkPhone("07700900123")
    ensures !ValidUkPhone("+44 7700 900123")
    ensures !ValidUkPhone("+4477009001234")
  {
  }

  /** The characters JavaScript's `\s` matches. */
  predicate IsJsSpace(c: char) {
    || c == ' ' || c == '\t' || c == '\n' || c == '\r' || c == '\U{B}' || c == '\U{C}'
    || c == '\U{A0}' || c == '\U{1680}' || ('\U{2000}' <= c <= '\U{200A}')
    || c == '\U{2028}' || c == '\U{2029}' || c == '\U{202F}' || c == '\U{205F}'
    || c == '\U{3000}' || c == '\U{FEFF}'
  }

  /** A character of the class `[^\s@]`. */
  predicate Plain(c: char) {
    !IsJsSpace(c) && c != '@'
  }

  /** The index of the first occurrence of `c` in `s`. */
  function IndexOf(s: string, c: char): (r: Option<nat>)
    ensures r.Some? ==> r.value < |s| && s[r.value] == c && c !in s[..r.value]
    ensures r.None? ==> c !in s
  {
    if |s| == 0 then None
    else if s[0] == c then Some(0)
    else match IndexOf(s[1..], c)
      case Some(k) => assert s[..k + 1] == [s[0]] + s[1..][..k]; Some(k + 1)
      case None => None
  }

  /**
   * The email check: no whitespace, exactly one `@` with something before it,
   * and a `.` in what follows with something on both sides of it.
   */
  predicate ValidEmail(s: string) {
    && (forall i :: 0 <= i < |s| ==> !IsJsSpace(s[i]))
    && match IndexOf(s, '@')
       case None => false
       case Some(p) => 0 < p && '@' !in s[p + 1..] && p + 2 <= |s| - 1 && '.' in s[p + 2..|s| - 1]
  }

  /** All of `s[from..to]` lies in the class `[^\s@]`, and it is not empty. */
  predicate PlainRun(s: string, from: int, to: int) {
    0 <= from < to <= |s| && forall i :: from <= i < to ==> Plain(s[i])
  }

  /**
   * The regular expression's reading: `s` splits at an `@` (index `p`) and a
   * `.` (index `q`) into three non-empty runs of `[^\s@]`.
   */
  predicate EmailSplitAt(s: string, p: int, q: int) {
    && 0 <= p < q < |s|
    && s[p] == '@' && s[q] == '.'
    && PlainRun(s, 0, p) && PlainRun(s, p + 1, q) && PlainRun(s, q + 1, |s|)
  }

  /** The email predicate accepts exactly the strings the regular expression matches. */
  lemma ValidEmailMatchesPattern(s: string)
    ensures ValidEmail(s) <==> exists p, q :: EmailSplitAt(s, p, q)
  {
    if ValidEmail(s) {
      var p := IndexOf(s, '@').value;
      var dom := s[p + 2..|s| - 1];
      var k :| 0 <= k < |dom| && dom[k] == '.';
      var q := p + 2 + k;
      assert s[q] == '.';
      forall i | 0 <= i < |s| && i != p
        ensures s[i] != '@'
      {
        if i < p {
          assert s[i] in s[..p];
        } else {
          assert s[i] == s[p + 1..][i - p - 1];
        }
      }
      assert EmailSplitAt(s, p, q);
    }
    if exists p, q :: EmailSplitAt(s, p, q) {
      var p, q :| EmailSplitAt(s, p, q);
      assert forall i :: 0 <= i < |s| && i != p ==> Plain(s[i]);
      assert IndexOf(s, '@') == Some(p) by {
        var r := IndexOf(s, '@');
        assert r.Some? by {
          assert s[p] == '@';
        }
        assert r.value == p;
      }
      assert '@' !in s[p + 1..] by {
        var rest := s[p + 1..];
        forall i | 0 <= i < |rest|
          ensures rest[i] != '@'
        {
          assert rest[i] == s[p + 1 + i];
        }
      }
      assert s[p + 2..|s| - 1][q - p - 2] == '.';
    }
  }
}

=== FILE: webhook.dfy ===
/**
 * The VAPI webhook of the booking server: the call-started and call-ended
 * handlers, the transcript handler, and `handleFunctionCall`'s dispatch over
 * function names. Every request to the calendar or the database is recorded,
 * in order, as an effect; what those services answer is read from `Env`.
 */
module Webhook {
  import opened Common
  import opened Text
  import opened Slots
  import opened Calendar
  import opened Database
  import opened Validation

  /**
   * The two service handles of the server process, true once created. They
   * start null and only `getCalendar()`/`getDB()` create them.
   */
  datatype Handles = Handles(calendar: bool, db: bool)

  const NoHandles: Handles := Handles(false, false)

  /**
   * How the dispatch reaches a service: `RawHandles` reads the module variable
   * as the source does, `LazyHandles` goes through the lazy getter.
   */
  datatype HandleMode = RawHandles | LazyHandles

  /** The process's handles and the external state the handlers change. */
  datatype State = State(handles: Handles, events: Store, calls: seq<CallRow>,
                         appts: seq<Appointment>, leads: seq<Lead>)

  /** A JSON value where the source compares against a string. */
  datatype JsValue = JsStr(s: string) | JsBool(b: bool) | JsNum(n: real)

  /** The fields of VAPI's `call` object the handlers read; `None` is `undefined`. */
  datatype VapiCall = VapiCall(id: string, assistantId: Option<string>,
                               customerNumber: Option<string>, status: Option<string>,
                               duration: Option<real>, cost: Option<real>,
                               successEvaluation: Option<JsValue>, summary: Option<string>)

  /** The `parameters` of a function call; `None` is `undefined`. */
  datatype Params = Params(phone: Option<string>, email: Option<string>, name: Option<string>,
                           practice: Option<string>, datetime: Option<string>,
                           notes: Option<string>, daysAhead: Option<int>,
                           durationMinutes: Option<int>)

  datatype FunctionCall = FunctionCall(name: string, parameters: Params)

  /** One request to an external service, in the order it was made. */
  datatype Effect =
    | FreeBusyQuery(from: Instant, to: Instant)
    | CalendarInsert(event: Event)
    | CallLookup(vapiCallId: string)
    | AppointmentInsert(appointment: AppointmentInput)
    | LeadUpsert(lead: LeadInput)
    | LeadLookup(phone: string)
    | CallInsert(call: CallInput)
    | CallUpdateSent(vapiCallId: string, update: CallUpdate)

  /**
   * Everything outside the process: the clock, luxon's parsing and formatting,
   * and the answer of each external request (a `Some` fault makes it throw).
   */
  datatype Env = Env(now: Instant, parse: string -> Option<Instant>,
                     display: Instant -> string, render: Instant -> string,
                     calendarId: string, busy: Result<seq<Interval>>,
                     newEventId: string, newEventLink: string,
                     calendarFault: Option<ApiError>,
                     callInsertFault: Option<string>, callUpdateFault: Option<string>,
                     callLookupFault: Option<string>, appointmentFault: Option<string>,
                     leadLookupOk: bool, leadWriteFault: Option<string>,
                     leadQueryFault: Option<string>)

  /** Why a handler gave up: a method called on a null handle, or an error a service threw. */
  datatype Thrown = NullHandle(methodName: string) | Threw(message: string)

  /**
   * What `handleFunctionCall` answers, by kind and the values it quotes;
   * `ResultText` writes each out as the `result` text.
   */
  datatype Answer =
    | SlotsOffered(shown: seq<string>)
    | BookingConfirmed(datetime: Option<string>, email: Option<string>)
    | InvalidPhone
    | InvalidEmail
    | LeadFound(name: Option<string>, practice: Option<string>, status: string, lastContacted: string)
    | NewLead
    | CallbackNoted(datetime: Option<string>)
    | NotImplemented(functionName: string)
    | Failure(error: Thrown)

  /** What `handleFunctionCall` returns: its answer, the state after, the requests made. */
  datatype Reply = Reply(result: Answer, state: State, trace: seq<Effect>)

  const DefaultDaysAhead: int := 5
  const DefaultDuration: int := 30

  /** The second attendee every booking invites. */
  const ExtraAttendee: string := "austyneguale@gmail.com"

  const ErrorPrefix: string := "Error: "

  /** The message of a thrown error; a null handle gives JavaScript's TypeError text. */
  function ErrorMessage(t: Thrown): string {
    match t
    case NullHandle(m) => "Cannot read properties of null (reading '" + m + "')"
    case Threw(m) => m
  }

  /** The error answers: the two validation failures and every thrown error. */
  predicate IsError(a: Answer) {
    a.InvalidPhone? || a.InvalidEmail? || a.Failure?
  }

  /** The text after `Error: ` of an error answer. */
  function ErrorTail(a: Answer): string
    requires IsError(a)
  {
    match a
    case InvalidPhone => "Please provide a valid UK phone number starting with +44"
    case InvalidEmail => "Please provide a valid email address"
    case Failure(e) => ErrorMessage(e) + ". Please try again or ask the caller to try later."
  }

  /** The text of an answer that is not an error; none of them begins with `E`. */
  function InformText(a: Answer): (s: string)
    requires !IsError(a)
    ensures |s| > 0 && s[0] != 'E'
  {
    match a
    case SlotsOffered(shown) => "Available slots: " + Join(shown, "; ")
    case BookingConfirmed(datetime, email) =>
      "Appointment booked successfully for " + JsText(datetime)
      + ". Calendar invite sent to " + JsText(email) + "."
    case LeadFound(name, practice, status, last) =>
      "Lead found: " + name.GetOr("null") + " from " + practice.GetOr("null")
      + ". Status: " + status + ". Last contacted: " + last + "."
    case NewLead => "No previous contact found." + " This is a new lead."
    case CallbackNoted(datetime) => "Noted: Call back requested for " + JsText(datetime) + "."
    case NotImplemented(f) => "Function " + f + " not implemented"
  }

  /**
   * The `result` text of each answer, word for word. The error answers, and
   * only they, begin with `Error: `.
   */
  function ResultText(a: Answer): (s: string)
    ensures IsError(a) <==> StartsWith(s, ErrorPrefix)
  {
    if IsError(a) then
      StartsWithConcat(ErrorPrefix, ErrorTail(a));
      ErrorPrefix + ErrorTail(a)
    else
      InformText(a)
  }

  /** `x || fallback` for a number: `undefined` and `0` both take the fallback. */
  function OrDefault(x: Option<int>, fallback: int): (r: int)
    ensures x.None? || x.value == 0 ==> r == fallback
    ensures x.Some? && x.value != 0 ==> r == x.value
  {
    if x.Some? && x.value != 0 then x.value else fallback
  }

  /** `now.plus({ days: daysAhead })`, with `daysAhead || 5` applied first. */
  function WindowEnd(now: Instant, daysAhead: Option<int>): (end: Instant)
    ensures end - now == OrDefault(daysAhead, DefaultDaysAhead) * MsPerDay
  {
    now + OrDefault(daysAhead, DefaultDaysAhead) * MsPerDay
  }

  /** Whether the calendar handle can be used, and the handles afterwards. */
  function UseCalendar(h: Handles, mode: HandleMode): (r: (Handles, bool))
    ensures mode == RawHandles ==> r == (h, h.calendar)
    ensures mode == LazyHandles ==> r == (h.(calendar := true), true)
  {
    if mode == LazyHandles then (h.(calendar := true), true) else (h, h.calendar)
  }

  /** Whether the database handle can be used, and the handles afterwards. */
  function UseDb(h: Handles, mode: HandleMode): (r: (Handles, bool))
    ensures mode == RawHandles ==> r == (h, h.db)
    ensures mode == LazyHandles ==> r == (h.(db := true), true)
  {
    if mode == LazyHandles then (h.(db := true), true) else (h, h.db)
  }

  /** The `checkAvailability` branch: a free/busy query over the next days, then the first six slots. */
  function CheckAvailabilityBranch(st: State, p: Params, env: Env, mode: HandleMode): (r: Reply)
    ensures mode == RawHandles && !st.handles.calendar ==>
      r == Reply(Failure(NullHandle("checkAvailability")), st, [])
    ensures UseCalendar(st.handles, mode).1 ==>
      r.trace == [FreeBusyQuery(env.now, WindowEnd(env.now, p.daysAhead))]
    ensures UseCalendar(st.handles, mode).1 && env.busy.Err? ==>
      r.result == Failure(Threw(env.busy.message))
    ensures UseCalendar(st.handles, mode).1 && env.busy.Ok? ==>
      var slots := Slots.CheckAvailability(env.now, WindowEnd(env.now, p.daysAhead), env.busy.value,
                                           OrDefault(p.durationMinutes, DefaultDuration));
      && r.result.SlotsOffered? && |r.result.shown| == |slots|
      && forall i :: 0 <= i < |slots| ==> r.result.shown[i] == env.display(slots[i])
    ensures r.state.calls == st.calls && r.state.appts == st.appts && r.state.leads == st.leads
    ensures r.state.events == st.events
  {
    var (h, ok) := UseCalendar(st.handles, mode);
    var st1 := st.(handles := h);
    if !ok then Reply(Failure(NullHandle("checkAvailability")), st1, [])
    else
      var end := WindowEnd(env.now, p.daysAhead);
      var trace := [FreeBusyQuery(env.now, end)];
      match env.busy
      case Err(m) => Reply(Failure(Threw(m)), st1, trace)
      case Ok(busy) =>
        var slots := Slots.CheckAvailability(env.now, end, busy,
                                             OrDefault(p.durationMinutes, DefaultDuration));
        var shown := seq(|slots|, i requires 0 <= i < |slots| => env.display(slots[i]));
        Reply(SlotsOffered(shown), st1, trace)
  }

  /** The appointment row the booking stores for a created event. */
  function BookingRow(p: Params, callRowId: nat, booked: Booked): (a: AppointmentInput)
    ensures a.calendarEventId == Some(booked.eventId)
    ensures a.callId == Some(callRowId)
    ensures a.status == Some("confirmed")
    ensures a.phone == p.phone && a.email == p.email
  {
    AppointmentInput(Some(callRowId), p.name, p.phone, p.email, p.practice, p.datetime,
                     Some(booked.eventId), Some(booked.htmlLink), Some("confirmed"), p.notes)
  }

  /** The lead the booking upserts. */
  function BookingLead(p: Params): (l: LeadInput)
    ensures l.source == Some("vapi_booking")
    ensures l.phone == JsText(p.phone) && l.email == p.email && l.name == p.name
    ensures l.practiceName == p.practice
  {
    LeadInput(JsText(p.phone), p.email, p.name, p.practice, None, None, Some("vapi_booking"))
  }

  /** The calendar request `bookAppointment` is called with. */
  function BookingRequestOf(p: Params): BookingRequest {
    BookingRequest(p.name, p.practice, p.phone, p.email, JsText(p.datetime),
                   if Truthy(p.notes) then p.notes.value else "", [ExtraAttendee])
  }

  /** `after` is `before` with one confirmed appointment row for event `eventId` appended. */
  predicate AppendsBookingRow(before: seq<Appointment>, after: seq<Appointment>, eventId: string) {
    && |after| == |before| + 1 && after[..|before|] == before
    && after[|before|].calendarEventId == Some(eventId)
    && after[|before|].callId.Some? && after[|before|].status == "confirmed"
  }

  /**
   * The last two steps of a booking, once the event and the caller's call row
   * exist: the appointment row, then the lead upsert.
   */
  function StoreBooking(st: State, p: Params, env: Env, callRowId: nat, booked: Booked): (r: Reply)
    ensures r.state.handles == st.handles && r.state.events == st.events && r.state.calls == st.calls
    ensures 1 <= |r.trace| <= 2 && r.trace[0] == AppointmentInsert(BookingRow(p, callRowId, booked))
    ensures |r.trace| == 2 ==> r.trace[1] == LeadUpsert(BookingLead(p))
    ensures env.appointmentFault.Some? ==> r.state == st && |r.trace| == 1
    ensures env.appointmentFault.None? ==> |r.trace| == 2
    ensures r.state.appts == st.appts || AppendsBookingRow(st.appts, r.state.appts, booked.eventId)
    ensures env.appointmentFault.None? ==>
      AppendsBookingRow(st.appts, r.state.appts, booked.eventId)
      && r.state.appts[|st.appts|].callId == Some(callRowId)
    ensures env.appointmentFault.None? && env.leadWriteFault.None? ==> r.result == BookingConfirmed(p.datetime, p.email)
    ensures env.appointmentFault.Some? ==> r.result == Failure(Threw(env.appointmentFault.value))
    ensures env.appointmentFault.None? && env.leadWriteFault.Some? ==>
      r.result == Failure(Threw(env.leadWriteFault.value))
  {
    var row := BookingRow(p, callRowId, booked);
    var t3 := [AppointmentInsert(row)];
    var created := CreateAppointment(st.appts, row, env.now, |st.appts| + 1, env.appointmentFault);
    if created.Err? then Reply(Failure(Threw(created.message)), st, t3)
    else
      var st3 := st.(appts := created.value.0);
      var lead := BookingLead(p);
      var t4 := t3 + [LeadUpsert(lead)];
      var upserted := UpsertLead(st3.leads, lead, env.now, |st3.leads| + 1, env.leadLookupOk,
                                 env.leadWriteFault);
      if upserted.Err? then Reply(Failure(Threw(upserted.message)), st3, t4)
      else Reply(BookingConfirmed(p.datetime, p.email), st3.(leads := upserted.value.0), t4)
  }

  /**
   * The database half of a booking, once the event exists: the caller's call
   * row is looked up (it must be unique), then the row and lead are stored.
   */
  function RecordBooking(st: State, call: VapiCall, p: Params, env: Env, mode: HandleMode,
                         booked: Booked): (r: Reply)
    ensures r.state.events == st.events && r.state.calls == st.calls
    ensures r.state.handles.calendar == st.handles.calendar
    ensures mode == RawHandles ==> r.state.handles == st.handles
    ensures mode == LazyHandles ==> r.state.handles.db
    ensures |r.trace| <= 3 && (|r.trace| > 0 ==> r.trace[0] == CallLookup(call.id))
    ensures |r.trace| > 1 ==> r.trace[1].AppointmentInsert?
    ensures |r.trace| > 2 ==> r.trace[2] == LeadUpsert(BookingLead(p))
    ensures r.state.appts == st.appts || AppendsBookingRow(st.appts, r.state.appts, booked.eventId)
    ensures r.result != BookingConfirmed(p.datetime, p.email) ==> r.state.leads == st.leads || |r.trace| == 3
    ensures mode == LazyHandles && env.callLookupFault.None? && Count(st.calls, IsCall(call.id)) != 1 ==>
      r.result == Failure(Threw(SingleRowError)) && r.state.appts == st.appts && r.state.leads == st.leads
      && |r.trace| == 1
  {
    var used := UseDb(st.handles, mode);
    var st2 := st.(handles := used.0);
    if !used.1 then Reply(Failure(NullHandle("getCall")), st2, [])
    else
      var t2 := [CallLookup(call.id)];
      var found := GetCall(st2.calls, call.id, env.callLookupFault);
      if found.Err? then Reply(Failure(Threw(found.message)), st2, t2)
      else
        var rest := StoreBooking(st2, p, env, found.value.id, booked);
        StepBefore(t2[0], rest.trace);
        Reply(rest.result, rest.state, t2 + rest.trace)
  }

  /**
   * The `bookAppointment` branch after validation: the calendar event, then
   * the database half, each step stopping the branch with an error result
   * when it throws.
   */
  function BookAfterValidation(st: State, call: VapiCall, p: Params, env: Env, mode: HandleMode)
    : (r: Reply)
    ensures mode == RawHandles && !st.handles.calendar ==>
      r == Reply(Failure(NullHandle("bookAppointment")), st, [])
    ensures mode == RawHandles ==> r.state.handles == st.handles
    ensures r.state.calls == st.calls
    ensures |r.trace| <= 4
    ensures |r.trace| > 0 ==>
      r.trace[0] == CalendarInsert(BookingEvent(env.calendarId, BookingRequestOf(p), env.parse))
    ensures |r.trace| > 1 ==> r.trace[1] == CallLookup(call.id)
    ensures |r.trace| > 2 ==> r.trace[2].AppointmentInsert?
    ensures |r.trace| > 3 ==> r.trace[3] == LeadUpsert(BookingLead(p))
    ensures r.state.appts == st.appts
         || (AppendsBookingRow(st.appts, r.state.appts, env.newEventId) && env.newEventId in r.state.events)
    ensures mode == LazyHandles && env.calendarFault.None? ==>
      |r.trace| >= 1 && env.newEventId in r.state.events && r.state.handles == Handles(true, true)
  {
    var used := UseCalendar(st.handles, mode);
    var st1 := st.(handles := used.0);
    if !used.1 then Reply(Failure(NullHandle("bookAppointment")), st1, [])
    else
      var req := BookingRequestOf(p);
      var t1 := [CalendarInsert(BookingEvent(env.calendarId, req, env.parse))];
      var made := BookAppointment(st1.events, env.calendarId, req, env.parse, env.newEventId,
                                  env.newEventLink, env.calendarFault);
      if made.Failed? then Reply(Failure(Threw(made.error.message)), st1, t1)
      else
        var rest := RecordBooking(st1.(events := made.value.0), call, p, env, mode, made.value.1);
        StepBefore(t1[0], rest.trace);
        Reply(rest.result, rest.state, t1 + rest.trace)
  }

  /** A step followed by a trace: the step, then the trace's steps one place later. */
  lemma StepBefore(e: Effect, t: seq<Effect>)
    ensures |[e] + t| == |t| + 1 && ([e] + t)[0] == e
    ensures |t| > 0 ==> ([e] + t)[1] == t[0]
    ensures |t| > 1 ==> ([e] + t)[2] == t[1]
    ensures |t| > 2 ==> ([e] + t)[3] == t[2]
  {
  }

  /** The `bookAppointment` branch: phone, then email, validated before anything else happens. */
  function BookBranch(st: State, call: VapiCall, p: Params, env: Env, mode: HandleMode): (r: Reply)
    ensures !ValidUkPhone(JsText(p.phone)) ==> r == Reply(InvalidPhone, st, [])
    ensures ValidUkPhone(JsText(p.phone)) && !ValidEmail(JsText(p.email)) ==> r == Reply(InvalidEmail, st, [])
  {
    if !ValidUkPhone(JsText(p.phone)) then Reply(InvalidPhone, st, [])
    else if !ValidEmail(JsText(p.email)) then Reply(InvalidEmail, st, [])
    else BookAfterValidation(st, call, p, env, mode)
  }

  /** The `getPracticeInfo` branch: a summary of the stored lead, or the new-lead text. */
  function PracticeInfoBranch(st: State, p: Params, env: Env, mode: HandleMode): (r: Reply)
    ensures r.state.calls == st.calls && r.state.appts == st.appts && r.state.leads == st.leads
    ensures r.state.events == st.events
    ensures |r.trace| <= 1
  {
    var (h, ok) := UseDb(st.handles, mode);
    var st1 := st.(handles := h);
    if !ok then Reply(Failure(NullHandle("getLeadByPhone")), st1, [])
    else
      var trace := [LeadLookup(JsText(p.phone))];
      match GetLeadByPhone(st1.leads, JsText(p.phone), env.leadQueryFault)
      case Err(m) => Reply(Failure(Threw(m)), st1, trace)
      case Ok(None) => Reply(NewLead, st1, trace)
      case Ok(Some(lead)) =>
        Reply(LeadFound(lead.name, lead.practiceName, lead.status, env.render(lead.lastContacted)),
              st1, trace)
  }

  /** The `saveCallbackTime` branch: the requested time written to the call row. */
  function CallbackBranch(st: State, call: VapiCall, p: Params, env: Env, mode: HandleMode): (r: Reply)
    ensures r.state.appts == st.appts && r.state.leads == st.leads && r.state.events == st.events
    ensures |r.trace| <= 1
  {
    var (h, ok) := UseDb(st.handles, mode);
    var st1 := st.(handles := h);
    if !ok then Reply(Failure(NullHandle("updateCall")), st1, [])
    else
      var u := CallUpdate(None, None, None, None, None, None, p.datetime);
      var trace := [CallUpdateSent(call.id, u)];
      var (calls, res) := UpdateCall(st1.calls, call.id, u, env.now, env.callUpdateFault);
      var st2 := st1.(calls := calls);
      match res
      case Err(m) => Reply(Failure(Threw(m)), st2, trace)
      case Ok(_) => Reply(CallbackNoted(p.datetime), st2, trace)
  }

  predicate IsKnownFunction(name: string) {
    name in {"checkAvailability", "bookAppointment", "getPracticeInfo", "saveCallbackTime"}
  }

  /** `handleFunctionCall`: dispatch on the function name. */
  function Dispatch(st: State, call: VapiCall, fc: FunctionCall, env: Env, mode: HandleMode)
    : (r: Reply)
    ensures !IsKnownFunction(fc.name) ==> r == Reply(NotImplemented(fc.name), st, [])
    ensures mode == RawHandles ==> r.state.handles == st.handles
  {
    match fc.name
    case "checkAvailability" => CheckAvailabilityBranch(st, fc.parameters, env, mode)
    case "bookAppointment" => BookBranch(st, call, fc.parameters, env, mode)
    case "getPracticeInfo" => PracticeInfoBranch(st, fc.parameters, env, mode)
    case "saveCallbackTime" => CallbackBranch(st, call, fc.parameters, env, mode)
    case _ => Reply(NotImplemented(fc.name), st, [])
  }

  /** `handleFunctionCall` as written: it reads the module's `calendar` and `db` variables directly. */
  function HandleFunctionCallAsWritten(st: State, call: VapiCall, fc: FunctionCall, env: Env)
    : (r: Reply)
    ensures r.state.handles == st.handles
    ensures fc.name == "bookAppointment" && !st.handles.calendar ==>
      !(exists i :: 0 <= i < |r.trace| && r.trace[i].CalendarInsert?)
  {
    Dispatch(st, call, fc, env, RawHandles)
  }

  /** `handleFunctionCall` with each service reached through its lazy getter. */
  function HandleFunctionCall(st: State, call: VapiCall, fc: FunctionCall, env: Env): (r: Reply)
    ensures !IsKnownFunction(fc.name) ==> r == Reply(NotImplemented(fc.name), st, [])
    ensures fc.name == "bookAppointment" && ValidUkPhone(JsText(fc.parameters.phone))
            && ValidEmail(JsText(fc.parameters.email)) && env.calendarFault.None? ==>
      && |r.trace| >= 1 && r.trace[0].CalendarInsert?
      && env.newEventId in r.state.events && r.state.handles == Handles(true, true)
  {
    Dispatch(st, call, fc, env, LazyHandles)
  }

  /** Call-ended counts as a success exactly when `successEvaluation` is the string `'true'`. */
  function SuccessFlag(v: Option<JsValue>): (b: bool)
    ensures b <==> v == Some(JsStr("true"))
  {
    match v
    case Some(JsStr(s)) => s == "true"
    case _ => false
  }

  /** The outcome of a webhook handler that has no reply text. */
  datatype Handled = Handled(state: State, trace: seq<Effect>)

  /**
   * `handleCallStarted`: the database handle is created and an `in-progress`
   * call row inserted; a failed insert is logged and swallowed.
   */
  function HandleCallStarted(st: State, call: VapiCall, env: Env): (r: Handled)
    ensures r.state.handles == st.handles.(db := true)
    ensures r.trace == [CallInsert(CallInput(call.id, call.assistantId, call.customerNumber,
                                             Some("in-progress")))]
    ensures env.callInsertFault.Some? ==> r.state == st.(handles := st.handles.(db := true))
    ensures env.callInsertFault.None? ==>
      |r.state.calls| == |st.calls| + 1 && r.state.calls[|st.calls|].status == Some("in-progress")
      && r.state.calls[..|st.calls|] == st.calls
  {
    var st1 := st.(handles := st.handles.(db := true));
    var input := CallInput(call.id, call.assistantId, call.customerNumber, Some("in-progress"));
    match CreateCall(st1.calls, input, env.now, |st1.calls| + 1, env.callInsertFault)
    case Err(_) => Handled(st1, [CallInsert(input)])
    case Ok((calls, _)) => Handled(st1.(calls := calls), [CallInsert(input)])
  }

  /** The update `handleCallEnded` sends. */
  function CallEndedUpdate(call: VapiCall): (u: CallUpdate)
    ensures u.success == Some(SuccessFlag(call.successEvaluation))
    ensures u.status == call.status && u.duration == call.duration && u.cost == call.cost
    ensures u.outcome == call.summary && u.transcript.None? && u.callbackRequested.None?
  {
    CallUpdate(call.status, call.duration, call.cost, Some(SuccessFlag(call.successEvaluation)),
               call.summary, None, None)
  }

  /**
   * `handleCallEnded`: the database handle is created and the final status,
   * duration, cost, success flag and summary sent; failures are swallowed.
   */
  function HandleCallEnded(st: State, call: VapiCall, env: Env): (r: Handled)
    ensures r.state.handles == st.handles.(db := true)
    ensures r.trace == [CallUpdateSent(call.id, CallEndedUpdate(call))]
    ensures r.state.appts == st.appts && r.state.leads == st.leads && r.state.events == st.events
  {
    var st1 := st.(handles := st.handles.(db := true));
    var u := CallEndedUpdate(call);
    var (calls, _) := UpdateCall(st1.calls, call.id, u, env.now, env.callUpdateFault);
    Handled(st1.(calls := calls), [CallUpdateSent(call.id, u)])
  }

  /** The `message` of a webhook request, by its `type`. */
  datatype Message =
    | CallStarted
    | CallEnded
    | FunctionCallMessage(functionCall: FunctionCall)
    | TranscriptMessage(transcript: Option<string>)
    | OtherMessage

  /**
   * The HTTP answer: `{received: true}`, the function's answer (sent as
   * `{result: ResultText(answer)}`), or a 500 carrying the error's message.
   */
  datatype Response = Received | FunctionResult(answer: Answer) | ServerError(error: Thrown)

  datatype Outcome = Outcome(response: Response, state: State, trace: seq<Effect>)

  /** `handleTranscript`: a non-empty transcript is written to the call row; failures propagate. */
  function HandleTranscript(st: State, call: VapiCall, transcript: Option<string>, env: Env,
                            mode: HandleMode): (r: Outcome)
    ensures !Truthy(transcript) ==> r == Outcome(Received, st, [])
    ensures mode == RawHandles ==> r.state.handles == st.handles
  {
    if !Truthy(transcript) then Outcome(Received, st, [])
    else
      var (h, ok) := UseDb(st.handles, mode);
      var st1 := st.(handles := h);
      if !ok then Outcome(ServerError(NullHandle("updateCall")), st1, [])
      else
        var u := CallUpdate(None, None, None, None, None, transcript, None);
        var (calls, res) := UpdateCall(st1.calls, call.id, u, env.now, env.callUpdateFault);
        var trace := [CallUpdateSent(call.id, u)];
        if res.Err? then Outcome(ServerError(Threw(res.message)), st1.(calls := calls), trace)
        else Outcome(Received, st1.(calls := calls), trace)
  }

  /** `POST /webhook/vapi`, after the signature check: route the message by type. */
  function HandleWebhook(st: State, call: VapiCall, msg: Message, env: Env, mode: HandleMode)
    : (r: Outcome)
    ensures mode == RawHandles ==> r.state.handles.calendar == st.handles.calendar
    ensures msg.CallStarted? || msg.CallEnded? || msg.OtherMessage? ==> r.response == Received
  {
    match msg
    case CallStarted =>
      var h := HandleCallStarted(st, call, env);
      Outcome(Received, h.state, h.trace)
    case CallEnded =>
      var h := HandleCallEnded(st, call, env);
      Outcome(Received, h.state, h.trace)
    case FunctionCallMessage(fc) =>
      var reply := Dispatch(st, call, fc, env, mode);
      Outcome(FunctionResult(reply.result), reply.state, reply.trace)
    case TranscriptMessage(t) => HandleTranscript(st, call, t, env, mode)
    case OtherMessage => Outcome(Received, st, [])
  }
}

=== FILE: webhook_properties.dfy ===
/**
 * Properties of the webhook dispatch: validation before any request, the
 * order of the booking's requests and what a failure part-way leaves behind,
 * and what the handles the server process holds allow over a run of requests.
 */
module WebhookProperties {
  import opened Common
  import opened Text
  import opened Slots
  import opened Calendar
  import opened Database
  import opened Validation
  import opened Webhook

  /**
   * `text` reads out an instant that the generator may offer: on a weekday,
   * outside lunch, clear of every busy period, more than five minutes after
   * `now`, and before the scan end.
   */
  ghost predicate ReadsOutFreeSlot(text: string, display: Instant -> string, now: Instant,
                                   duration: int, busy: seq<Interval>, scanEnd: Instant) {
    exists t :: text == display(t) && t < scanEnd && Offerable(t, now, duration, busy)
  }

  /**
   * The availability answer reads out at most six slots, each a free one in
   * the requested window.
   */
  lemma OfferedSlotsAreFree(st: State, p: Params, env: Env, mode: HandleMode)
    requires UseCalendar(st.handles, mode).1 && env.busy.Ok?
    ensures var r := CheckAvailabilityBranch(st, p, env, mode);
            && r.result.SlotsOffered? && |r.result.shown| <= OfferCap
            && forall i :: 0 <= i < |r.result.shown| ==>
                 ReadsOutFreeSlot(r.result.shown[i], env.display, env.now,
                                  OrDefault(p.durationMinutes, DefaultDuration), env.busy.value,
                                  ScanEnd(WindowEnd(env.now, p.daysAhead)))
  {
    var r := CheckAvailabilityBranch(st, p, env, mode);
    var duration := OrDefault(p.durationMinutes, DefaultDuration);
    var end := WindowEnd(env.now, p.daysAhead);
    var slots := Slots.CheckAvailability(env.now, end, env.busy.value, duration);
    var g := Generate(env.now, end, env.busy.value, duration);
    forall i | 0 <= i < |r.result.shown|
      ensures ReadsOutFreeSlot(r.result.shown[i], env.display, env.now, duration, env.busy.value,
                               ScanEnd(end))
    {
      assert slots[i] == g[i];
      assert !IsBusy(g[i], duration, env.busy.value);
      assert r.result.shown[i] == env.display(slots[i]);
    }
  }

  /** One webhook request: the call it is about, its message, and what the services answer. */
  datatype Request = Request(call: VapiCall, message: Message, env: Env)

  /** The state after the server has handled `reqs` in order. */
  function Run(st: State, reqs: seq<Request>, mode: HandleMode): (r: State)
    ensures |reqs| == 0 ==> r == st
    decreases |reqs|
  {
    if |reqs| == 0 then st
    else Run(HandleWebhook(st, reqs[0].call, reqs[0].message, reqs[0].env, mode).state, reqs[1..], mode)
  }

  function BookCall(p: Params): FunctionCall {
    FunctionCall("bookAppointment", p)
  }

  predicate ValidContact(p: Params) {
    ValidUkPhone(JsText(p.phone)) && ValidEmail(JsText(p.email))
  }

  /** The position of each booking request in the booking's sequence. */
  function BookingStep(e: Effect): int {
    match e
    case CalendarInsert(_) => 0
    case CallLookup(_) => 1
    case AppointmentInsert(_) => 2
    case LeadUpsert(_) => 3
    case _ => 4
  }

  /** `trace` is a prefix of: calendar event, call lookup, appointment row, lead upsert. */
  predicate InBookingOrder(trace: seq<Effect>) {
    |trace| <= 4 && forall i :: 0 <= i < |trace| ==> BookingStep(trace[i]) == i
  }

  /**
   * An invalid phone, or a valid phone with an invalid email, is answered
   * before any service is asked anything, whatever the handles.
   */
  lemma InvalidContactMakesNoRequest(st: State, call: VapiCall, p: Params, env: Env, mode: HandleMode)
    requires !ValidContact(p)
    ensures var r := Dispatch(st, call, BookCall(p), env, mode);
            && r.trace == [] && r.state == st
            && (r.result == InvalidPhone <==> !ValidUkPhone(JsText(p.phone)))
            && (r.result == InvalidEmail <==> ValidUkPhone(JsText(p.phone)))
  {
  }

  /**
   * Whatever fails, the booking's requests come in the order calendar event,
   * call lookup, appointment row, lead upsert, and stop at the first failure.
   */
  lemma BookingRequestsInOrder(st: State, call: VapiCall, p: Params, env: Env, mode: HandleMode)
    ensures InBookingOrder(Dispatch(st, call, BookCall(p), env, mode).trace)
  {
    assert Dispatch(st, call, BookCall(p), env, mode) == BookBranch(st, call, p, env, mode);
    if ValidContact(p) {
      ValidatedBookingInOrder(st, call, p, env, mode);
    }
  }

  /** The order of requests once the phone and email have passed. */
  lemma ValidatedBookingInOrder(st: State, call: VapiCall, p: Params, env: Env, mode: HandleMode)
    ensures InBookingOrder(BookAfterValidation(st, call, p, env, mode).trace)
  {
    var t := BookAfterValidation(st, call, p, env, mode).trace;
    OrderFromPositions(t);
  }

  /** A trace of at most four requests, each of the kind its position calls for, is in booking order. */
  lemma OrderFromPositions(t: seq<Effect>)
    requires |t| <= 4
    requires |t| > 0 ==> t[0].CalendarInsert?
    requires |t| > 1 ==> t[1].CallLookup?
    requires |t| > 2 ==> t[2].AppointmentInsert?
    requires |t| > 3 ==> t[3].LeadUpsert?
    ensures InBookingOrder(t)
  {
  }

  /**
   * An appointment row is written only after the calendar event it points at
   * was created, and it records that event's id and the caller's call row.
   */
  lemma StoredAppointmentHasEvent(st: State, call: VapiCall, p: Params, env: Env, mode: HandleMode)
    ensures var r := Dispatch(st, call, BookCall(p), env, mode);
            |r.state.appts| != |st.appts| ==>
              && |r.state.appts| == |st.appts| + 1
              && r.state.appts[..|st.appts|] == st.appts
              && env.newEventId in r.state.events
              && r.state.appts[|st.appts|].calendarEventId == Some(env.newEventId)
              && r.state.appts[|st.appts|].callId.Some?
              && r.state.appts[|st.appts|].status == "confirmed"
  {
  }

  /**
   * With both services reachable and answering, a valid booking creates the
   * event, reads the call row, stores the appointment and upserts the lead.
   */
  lemma BookingSucceeds(st: State, call: VapiCall, p: Params, env: Env, row: CallRow)
    requires ValidContact(p)
    requires env.calendarFault.None? && env.callLookupFault.None?
    requires env.appointmentFault.None? && env.leadWriteFault.None?
    requires st.calls == [row] && row.vapiCallId == call.id
    ensures var r := HandleFunctionCall(st, call, BookCall(p), env);
            && r.result == BookingConfirmed(p.datetime, p.email)
            && |r.trace| == 4
            && r.trace[1] == CallLookup(call.id)
            && r.trace[3] == LeadUpsert(BookingLead(p))
            && env.newEventId in r.state.events
            && |r.state.appts| == |st.appts| + 1
            && r.state.appts[|st.appts|].callId == Some(row.id)
            && r.state.handles == Handles(true, true)
  {
    assert Count(st.calls, IsCall(call.id)) == 1;
  }

  /**
   * A failed call-row lookup (no row for the call, or several) aborts the
   * booking after the calendar event exists: the caller hears an error, the
   * event stays in the calendar and no appointment row is written.
   */
  lemma LookupFailureLeavesOrphanEvent(st: State, call: VapiCall, p: Params, env: Env)
    requires ValidContact(p)
    requires env.calendarFault.None? && env.callLookupFault.None?
    requires Count(st.calls, IsCall(call.id)) != 1
    ensures var r := HandleFunctionCall(st, call, BookCall(p), env);
            && r.result == Failure(Threw(SingleRowError))
            && env.newEventId in r.state.events
            && r.state.appts == st.appts && r.state.leads == st.leads
            && |r.trace| == 2
  {
  }

  /** A function name the dispatch does not know is answered without any request. */
  lemma UnknownFunctionIsInert(st: State, call: VapiCall, fc: FunctionCall, env: Env, mode: HandleMode)
    requires fc.name == "rescheduleAppointment" || fc.name == "cancelAppointment"
    ensures var r := Dispatch(st, call, fc, env, mode);
            && ResultText(r.result) == "Function " + fc.name + " not implemented"
            && r.trace == [] && r.state == st
  {
    assert !IsKnownFunction(fc.name);
    assert !IsError(NotImplemented(fc.name));
  }

  /** Call-started and call-ended are acknowledged even when the database write fails. */
  lemma LifecycleAlwaysAcknowledged(st: State, call: VapiCall, env: Env, mode: HandleMode)
    requires env.callInsertFault.Some? && env.callUpdateFault.Some?
    ensures var started := HandleWebhook(st, call, CallStarted, env, mode);
            started.response == Received && started.state.calls == st.calls
    ensures var ended := HandleWebhook(st, call, CallEnded, env, mode);
            ended.response == Received && ended.state.calls == st.calls
  {
  }

  /**
   * The success flag of call-ended: only the string `'true'` sets it, so a
   * boolean `true` evaluation records an unsuccessful call.
   */
  lemma OnlyTheStringTrueIsSuccess(call: VapiCall)
    ensures call.successEvaluation == Some(JsBool(true)) ==> CallEndedUpdate(call).success == Some(false)
    ensures call.successEvaluation == Some(JsStr("true")) ==> CallEndedUpdate(call).success == Some(true)
  {
  }

  /**
   * `daysAhead || 5` and `durationMinutes || 30`: leaving a parameter out and
   * sending zero give the same slots.
   */
  lemma ZeroMeansDefault(st: State, p: Params, env: Env, mode: HandleMode)
    ensures CheckAvailabilityBranch(st, p.(daysAhead := Some(0), durationMinutes := Some(0)), env, mode)
         == CheckAvailabilityBranch(st, p.(daysAhead := None, durationMinutes := None), env, mode)
  {
  }

  // ------------------------------------------------------- the null calendar handle

  /**
   * Nothing the server does as written ever sets its calendar handle: no
   * handler calls `getCalendar()`, so a process that starts with a null
   * calendar keeps it through any run of requests.
   */
  lemma {:induction false} AsWrittenCalendarStaysNull(st: State, reqs: seq<Request>)
    requires !st.handles.calendar
    ensures !Run(st, reqs, RawHandles).handles.calendar
    decreases |reqs|
  {
    if |reqs| > 0 {
      var next := HandleWebhook(st, reqs[0].call, reqs[0].message, reqs[0].env, RawHandles).state;
      AsWrittenCalendarStaysNull(next, reqs[1..]);
    }
  }

  /**
   * As written, after any run of requests from a fresh process, every booking
   * with a valid phone and email fails with the null-handle TypeError and never
   * reaches the calendar, and every availability check fails the same way.
   */
  lemma AsWrittenBookingNeverBooks(reqs: seq<Request>, st: State, call: VapiCall, p: Params, env: Env)
    requires !st.handles.calendar
    requires ValidContact(p)
    ensures var st' := Run(st, reqs, RawHandles);
            var r := HandleFunctionCallAsWritten(st', call, BookCall(p), env);
            && r.result == Failure(NullHandle("bookAppointment"))
            && r.trace == [] && r.state == st'
    ensures var st' := Run(st, reqs, RawHandles);
            HandleFunctionCallAsWritten(st', call, FunctionCall("checkAvailability", p), env).result
              == Failure(NullHandle("checkAvailability"))
  {
    AsWrittenCalendarStaysNull(st, reqs);
  }

  /** The phone and email of the concrete booking below pass both checks. */
  lemma ConcreteContactIsValid()
    ensures ValidUkPhone("+447700900123")
    ensures ValidEmail("jo@smile.co")
  {
    ConcreteEmailIsValid("jo@smile.co");
  }

  /** `jo@smile.co` splits at its `@` (index 2) and its `.` (index 8) into three plain runs. */
  lemma ConcreteEmailIsValid(email: string)
    requires email == "jo@smile.co"
    ensures ValidEmail(email)
  {
    assert email[2] == '@' && email[8] == '.';
    assert PlainRun(email, 0, 2) by {
      assert Plain('j') && Plain('o');
    }
    assert PlainRun(email, 3, 8) by {
      assert Plain('s') && Plain('m') && Plain('i') && Plain('l') && Plain('e');
    }
    assert PlainRun(email, 9, 11) by {
      assert Plain('c') && Plain('o');
    }
    ValidEmailMatchesPattern(email);
  }

  /** A concrete booking a fresh process, as written, refuses. */
  lemma AsWrittenConcreteBooking(env: Env, call: VapiCall)
    ensures var p := Params(Some("+447700900123"), Some("jo@smile.co"), Some("Jo"), Some("Smile"),
                            Some("2025-03-03T10:00"), None, None, None);
            && ValidContact(p)
            && HandleFunctionCallAsWritten(State(NoHandles, map[], [], [], []), call, BookCall(p), env).result
               == Failure(NullHandle("bookAppointment"))
  {
    var p := Params(Some("+447700900123"), Some("jo@smile.co"), Some("Jo"), Some("Smile"),
                    Some("2025-03-03T10:00"), None, None, None);
    var st0 := State(NoHandles, map[], [], [], []);
    ConcreteContactIsValid();
    AsWrittenBookingNeverBooks([], st0, call, p, env);
  }

  /**
   * Through the lazy getters, a valid booking the calendar accepts always
   * creates its event, even in a process that has handled nothing yet.
   */
  lemma LazyBookingReachesCalendar(st: State, call: VapiCall, p: Params, env: Env)
    requires ValidContact(p)
    requires env.calendarFault.None?
    ensures var r := HandleFunctionCall(st, call, BookCall(p), env);
            && |r.trace| >= 1
            && r.trace[0] == CalendarInsert(BookingEvent(env.calendarId, BookingRequestOf(p), env.parse))
            && env.newEventId in r.state.events
            && r.state.handles.calendar
  {
  }

  /**
   * The database handle, as written, exists only once a call-started or
   * call-ended has been handled; before that every database-backed function fails.
   */
  lemma AsWrittenDbNeedsLifecycleEvent(st: State, call: VapiCall, p: Params, env: Env)
    requires !st.handles.db
    ensures HandleFunctionCallAsWritten(st, call, FunctionCall("getPracticeInfo", p), env).result
            == Failure(NullHandle("getLeadByPhone"))
    ensures HandleWebhook(st, call, CallStarted, env, RawHandles).state.handles.db
  {
  }
}
